=== FILE: README.md ===
# k4SimGeant4 core, modelled in Dafny

This project models the parts of k4SimGeant4 (the Geant4 simulation layer
of the FCC software) that compute on data. The rest is framework wiring.
It has four groups.

- **Cell-identifier transforms.** A calorimeter hit's 64-bit cell identifier
  packs named bit fields. The DD4hep `BitFieldCoder` decodes and encodes
  them; here that is `BitField.Get` and `BitField.Set`.
  - `MergeCells` merges N adjacent cells of one field.
  - `MergeLayers` maps a layer number to the index of its group of layers.
  - `RewriteBitfield` copies the detector fields into a new readout's layout.
  - `RedoSegmentation` recomputes the segmentation fields from the hit's
    position and then copies the detector fields.
- **Field maps.** `MapField3DRegular` and `MapField2DRegular` fill a regular
  grid from parallel coordinate and value lists. They read it back by
  trilinear interpolation (3D) or bilinear interpolation (r-z, turned into
  Cartesian components by the azimuth).
- **Hit aggregation.**
  - `SimG4SaveCalHits` lumps a simulated event's step contributions into one
    cell hit per cell.
  - `EnergyInCaloLayers` sums deposits per calorimeter layer and per
    cryostat part, then calibrates by sampling fractions.
  - `SamplingFractionInLayers` sums total and active energy per layer and
    forms the sampling fractions.
- **Probe validation.** `MagFieldScanner` and `MagFieldProbe` read probe
  definitions from their configuration and keep the valid ones.

One Dafny module per source component: `MergeCells`, `MergeLayers`,
`RewriteBitfield`, `RedoSegmentation`, `MapField3D`, `MapField2D`,
`SaveCalHits`, `EnergyInCaloLayers`, `SamplingFractionInLayers`,
`MagFieldScanner` and `MagFieldProbe`.

They share these modules:

| Module | Contents |
|---|---|
| `BitField` | Cell identifiers as 64 bits; field decode and encode |
| `Readouts` | Readout registry; copying the detector fields |
| `IntArith` | C++ integer arithmetic: truncating division, 32-bit wrap-around |
| `GridAxis` | Grid axis of a field map |
| `Grids` | Last write wins when filling a grid |
| `Interpolation` | Bilinear and trilinear interpolation |
| `Seqs` | Sums, filtering with kept positions |
| `Hits` | Hit records |
| `Vectors` | 3-vectors |
| `Wrappers` | `Option`, `Result` |

Conventions used throughout:

- Every `initialize` is a function that returns either the configuration
  that `execute` needs or the error it reports.
- Every `execute` is a function, or a method, from the input hits to the
  output hits.
- A `.at()` that throws, a `std::stod` that throws, and an unchecked `[]`
  past the end all become an error value.
- Outside geometry services are parameters: the segmentation's
  `cellID`/`position`, the cell-position lookup, and `sqrt`/`atan2`/`cos`/`sin`.

## Model

| member | source | states |
|---|---|---|
| BitField.Get | Detector/DetComponents/src/MergeCells.cpp:93 | A decoded field value is in the field's range (sign-extended for signed fields) and re-encodes to the raw bits stored in the identifier; a signed field with its top bit set decodes negative |
| BitField.Set | Detector/DetComponents/src/MergeCells.cpp:111 | Setting a field writes the value's two's-complement bits into exactly the field's bit range and leaves every other bit of the identifier unchanged |
| BitField.GetSet | Detector/DetComponents/src/MergeCells.cpp:111 | Reading a field back after setting it gives the value written, modulo the field width, and exactly it when the value is in range |
| BitField.SetKeepsDisjoint | Detector/DetComponents/src/MergeLayers.cpp:104 | Setting one field does not change the value of any field whose bits do not overlap it |
| BitField.SetGetIdentity | Detector/DetComponents/src/MergeLayers.cpp:104 | Writing back a field's own value leaves the identifier unchanged |
| BitField.RawRoundTrip | Detector/DetComponents/src/MergeCells.cpp:93 | For an in-range value, encoding to raw bits and decoding again gives the value back |
| BitField.FromToBits | Detector/DetComponents/src/MergeCells.cpp:93 | A number below 2^w survives conversion to w bits and back |
| BitField.ToFromBits | Detector/DetComponents/src/MergeCells.cpp:111 | A bit string survives conversion to a number and back |
| BitField.SetKeepsOthers | Detector/DetComponents/src/MergeCells.cpp:111 | In a well-formed layout, setting one field leaves every other named field's value unchanged |
| BitField.DistinctNamesDisjoint | Detector/DetComponents/src/MergeCells.cpp:44-53 | Distinct fields of a well-formed layout occupy disjoint bits inside the identifier |
| BitField.GetZero | Detector/DetComponents/src/RewriteBitfield.cpp:90 | Every field of the zero identifier decodes to 0 |
| Readouts.DetectorFields | Detector/DetComponents/src/RewriteBitfield.cpp:47-53 | The detector fields are exactly the old readout's field names that are not listed as removed, in layout order |
| Readouts.DetectorFieldsAppend | Detector/DetComponents/src/RewriteBitfield.cpp:47-53 | The detector-field filter distributes over concatenation of layouts (it keeps layout order) |
| Readouts.FirstMissing | Detector/DetComponents/src/RewriteBitfield.cpp:59-66 | The check reports nothing iff every detector field exists in the new layout; otherwise it names a detector field that is missing there |
| Readouts.CopyFields | Detector/DetComponents/src/RewriteBitfield.cpp:91-94 | After the copy loop each detector field of the new identifier holds the old field's value (its raw bits, truncated to the new width), and fields outside the list keep the target's value |
| Readouts.CopyFieldsReadsOnlyNames | Detector/DetComponents/src/RewriteBitfield.cpp:91-94 | The copy depends only on the old identifier's detector fields: two sources that agree on them give the same result |
| MergeCells.Initialize | Detector/DetComponents/src/MergeCells.cpp:24-73 | Succeeds iff the name is given, the readout and field exist, 2 <= N <= 2^width, and N is odd for a signed field; an empty name is reported first |
| MergeCells.UnsignedBuckets | Detector/DetComponents/src/MergeCells.cpp:104 | An unsigned value v goes to cell k iff kN <= v < kN + N: N adjacent cells become one |
| MergeCells.SignedCentreBucket | Detector/DetComponents/src/MergeCells.cpp:97-104 | For a signed field and odd N, the merged cell 0 is exactly the N cells centred on 0 (-(N/2) ..= N/2) |
| MergeCells.SignedSymmetric | Detector/DetComponents/src/MergeCells.cpp:97-104 | Signed merging is odd-symmetric: merging -v gives minus the merge of v |
| MergeCells.SignedError | Detector/DetComponents/src/MergeCells.cpp:97-104 | For odd N a signed value is within N/2 of N times its merged cell: it rounds to the nearest merged centre |
| MergeCells.MergedInRange | Detector/DetComponents/src/MergeCells.cpp:104-111 | The merged value of an in-range field value is still in the field's range, so storing it loses nothing |
| MergeCells.NoWrapBelow30 | Detector/DetComponents/src/MergeCells.cpp:82-104 | With the C++ types (an `int` value, an unsigned shift, division by `int(N)`), the result is the overflow-free merge whenever the value and N are below 2^30 in magnitude |
| MergeCells.MergeCell | Detector/DetComponents/src/MergeCells.cpp:92-112 | Merging rewrites only the merged field: every other field of the identifier keeps its value |
| MergeCells.MergeCellNarrow | Detector/DetComponents/src/MergeCells.cpp:92-112 | For a field of at most 30 bits, the new identifier's merged field holds the merge of the old value |
| MergeCells.Execute | Detector/DetComponents/src/MergeCells.cpp:75-117 | One output hit per input hit, in order, with energy, error, position, type and time copied; other fields unchanged, and, for fields of at most 30 bits, the merged field holding the merged value |
| MergeCells.ThreeCellExample | Detector/DetComponents/src/MergeCells.cpp:64-68 | With N = 3 on a signed field, cells -1, 0 and 1 merge into 0, cell 3 into 1 and cell -3 into -1 |
| MergeLayers.Initialize | Detector/DetComponents/src/MergeLayers.cpp:27-62 | Succeeds iff the name is given and the readout and field exist; an empty name is reported first |
| MergeLayers.Boundaries | Detector/DetComponents/src/MergeLayers.cpp:69-74 | The boundary loop computes the running 32-bit unsigned sums of the group sizes |
| MergeLayers.WrappedSumExact | Detector/DetComponents/src/MergeLayers.cpp:70-73 | The unsigned running sum is the exact sum when the sizes total less than 2^32 |
| MergeLayers.ExactBoundaries | Detector/DetComponents/src/MergeLayers.cpp:69-74 | When the sizes total less than 2^32, boundary i is the exact sum of the first i + 1 group sizes |
| MergeLayers.FirstAbove | Detector/DetComponents/src/MergeLayers.cpp:94-99 | The search finds the first boundary above the value, or none iff no boundary is above it |
| MergeLayers.GroupIndex | Detector/DetComponents/src/MergeLayers.cpp:94-99 | A layer in group i (prefix sum before i <= v < prefix sum through i) is mapped to i |
| MergeLayers.BeyondGroups | Detector/DetComponents/src/MergeLayers.cpp:94-99 | A layer at or past the total of all groups is left as it is |
| MergeLayers.BucketMonotone | Detector/DetComponents/src/MergeLayers.cpp:94-99 | Below the total of all groups (itself below 2^32), a higher layer never maps to an earlier group, and every such layer maps to some group |
| MergeLayers.ThreeAndThreeExample | Detector/DetComponents/src/MergeLayers.cpp:94-99 | With groups [3, 3], layers 0-2 become 0, layers 3-5 become 1 and higher layers are unchanged |
| MergeLayers.MergeLayer | Detector/DetComponents/src/MergeLayers.cpp:89-105 | Rewriting the layer field leaves every other field of the identifier unchanged |
| MergeLayers.UnsignedNarrowDecode | Detector/DetComponents/src/MergeLayers.cpp:90 | Storing an unsigned field of at most 32 bits into `unsigned int` loses nothing |
| MergeLayers.MergeLayerGroup | Detector/DetComponents/src/MergeLayers.cpp:89-105 | A hit whose layer lies in group i gets layer field i |
| MergeLayers.MergeLayerMonotone | Detector/DetComponents/src/MergeLayers.cpp:89-105 | Two hits whose layers lie within the groups keep the order of their layers after merging, when the group indices fit the field |
| MergeLayers.MergeLayerBeyond | Detector/DetComponents/src/MergeLayers.cpp:89-105 | A hit whose layer lies beyond all groups keeps its identifier |
| MergeLayers.Execute | Detector/DetComponents/src/MergeLayers.cpp:64-110 | One output hit per input hit, in order, payload copied, identifier rewritten by the group mapping, other fields unchanged |
| RewriteBitfield.Initialize | Detector/DetComponents/src/RewriteBitfield.cpp:22-72 | Succeeds iff both readouts exist and every old field not listed for removal exists in the new readout; a failure names such a field |
| RewriteBitfield.Rewrite | Detector/DetComponents/src/RewriteBitfield.cpp:90-95 | The new identifier carries each detector field's old value (when it fits the new field) and 0 in every other field of the new layout |
| RewriteBitfield.RewriteIgnoresRemoved | Detector/DetComponents/src/RewriteBitfield.cpp:90-95 | The new identifier does not depend on the removed fields: identifiers that agree on the detector fields rewrite alike |
| RewriteBitfield.RewriteSameLayout | Detector/DetComponents/src/RewriteBitfield.cpp:22-95 | Rewriting into the same readout with nothing removed keeps every field |
| RewriteBitfield.Execute | Detector/DetComponents/src/RewriteBitfield.cpp:74-102 | One output hit per input hit with energy and time copied and the rewritten identifier |
| RedoSegmentation.KindOf | Detector/DetComponents/src/RedoSegmentation.cpp:66-75 | A segmentation is treated as module-theta-merged iff its type name is `FCCSWGridModuleThetaMerged` |
| RedoSegmentation.Initialize | Detector/DetComponents/src/RedoSegmentation.cpp:24-75 | Succeeds iff both readouts exist and every old field not listed for removal exists in the new segmentation; it records both layouts, segmentations and the detector fields |
| RedoSegmentation.ZeroFields | Detector/DetComponents/src/RedoSegmentation.cpp:145-151 | The volume identifier zeroes exactly the listed fields, or fails naming a field the layout lacks |
| RedoSegmentation.ZeroFieldsFixed | Detector/DetComponents/src/RedoSegmentation.cpp:145-151 | An identifier whose listed fields are already 0 is its own volume identifier |
| RedoSegmentation.ZeroFieldsIdempotent | Detector/DetComponents/src/RedoSegmentation.cpp:145-151 | Computing the volume identifier twice gives the same as once |
| RedoSegmentation.Position | Detector/DetComponents/src/RedoSegmentation.cpp:98-106 | With a merged old segmentation the position is the old segmentation's position of the old cell; otherwise it is the hit's position converted from mm to cm (ten times it is the hit's position) |
| RedoSegmentation.Seed | Detector/DetComponents/src/RedoSegmentation.cpp:113-125 | The identifier handed to the new segmentation is 0 for a generic one; for a merged one it is the volume identifier with the old module number written into `module`, and it fails iff either layout lacks `module` |
| RedoSegmentation.RedoHit | Detector/DetComponents/src/RedoSegmentation.cpp:89-131 | A hit keeps its energy, every detector field carries its old value (raw bits, exactly when in range); the other fields come from the new segmentation's cell at the hit's position, seeded with 0 for a generic segmentation and with the seed identifier for a merged one |
| RedoSegmentation.MergedSeed | Detector/DetComponents/src/RedoSegmentation.cpp:113-125 | For a merged new segmentation, the seed passed with the position is the old identifier with every removed field zeroed and the old module number in `module`: other old fields are kept |
| RedoSegmentation.Execute | Detector/DetComponents/src/RedoSegmentation.cpp:82-139 | Succeeds iff there are no hits or the field lookups succeed; then hit i of the output is the recomputed input hit i |
| Wrappers.AllOk | Detector/DetComponents/src/RedoSegmentation.cpp:89-136 | A loop of fallible steps succeeds iff every step does, returns every step's value in order, and otherwise stops at the first failure |
| GridAxis.Min | SimG4Common/src/MapField3DRegular.cpp:24-34 | `min_element` is an element of the list no larger than any other |
| GridAxis.Max | SimG4Common/src/MapField3DRegular.cpp:24-34 | `max_element` is an element of the list no smaller than any other |
| GridAxis.InferStep | SimG4Common/src/MapField3DRegular.cpp:51-71 | The step guess stays -1 iff all adjacent coordinates are equal; otherwise it is the positive distance of the first adjacent pair that differs, all pairs before it being equal |
| GridAxis.StepWithinWidth | SimG4Common/src/MapField3DRegular.cpp:51-71 | On a spread axis the guessed step is positive and no larger than the axis width |
| GridAxis.Round | SimG4Common/src/MapField3DRegular.cpp:74-76 | `std::round` of a non-negative value is the integer within one half of it |
| GridAxis.AtLeastTwoNodes | SimG4Common/src/MapField3DRegular.cpp:74-76 | An axis whose step fits in its width gets at least two nodes |
| GridAxis.BuildAxis | SimG4Common/src/MapField3DRegular.cpp:24-76 | An axis built from spread coordinates spans their minimum and maximum and has at least two nodes |
| GridAxis.MemberInside | SimG4Common/src/MapField3DRegular.cpp:104-107 | Every listed coordinate lies inside the axis built from the list |
| GridAxis.NodeIndex | SimG4Common/src/MapField3DRegular.cpp:105-107 | The fill index of a coordinate is the floor of its scaled position and is a valid node |
| GridAxis.Scaled | SimG4Common/src/MapField3DRegular.cpp:133-140 | The scaled position lies in [0, n - 1] and reaches n - 1 exactly at the maximum |
| GridAxis.Modf | SimG4Common/src/MapField3DRegular.cpp:138-144 | `modf` splits a non-negative value into an integer part and a fraction in [0, 1) that add up to it |
| GridAxis.Locate | SimG4Common/src/MapField3DRegular.cpp:133-144 | The lookup index is a node and the fraction is in [0, 1); the next node exists iff the coordinate is below the maximum |
| GridAxis.LocateClamped | SimG4Common/src/MapField3DRegular.cpp:133-144 | The corrected lookup keeps the lower node below the last node and agrees with the code below the maximum; at the maximum it is the last cell with fraction 1 |
| GridAxis.NodeRoundTrip | SimG4Common/src/MapField3DRegular.cpp:105-144 | A node's coordinate fills that node, is looked up as that node with fraction 0 (or, for the last node, as the last cell with fraction 1) |
| GridAxis.NodeScaled | SimG4Common/src/MapField3DRegular.cpp:133-140 | A node's coordinate scales to exactly its index |
| Grids.Fill | SimG4Common/src/MapField3DRegular.cpp:104-121 | The filled grid has an entry exactly at the listed nodes |
| Grids.LastWriteWins | SimG4Common/src/MapField3DRegular.cpp:104-121 | When two entries fill the same node, the later one is what the node holds |
| Grids.HasLastWrite | SimG4Common/src/MapField3DRegular.cpp:104-121 | Every filled node has a last entry that writes it |
| Interpolation.LerpBetween | SimG4Common/src/MapField2DRegular.cpp:113-123 | Interpolating with a weight in [0, 1] stays between the two values |
| Interpolation.BilinearIsNestedLerp | SimG4Common/src/MapField2DRegular.cpp:113-123 | The four-term bilinear sum is linear interpolation along z and then along r |
| Interpolation.TrilinearIsNestedLerp | SimG4Common/src/MapField3DRegular.cpp:163-191 | The eight-term trilinear sum is bilinear interpolation on both x faces followed by linear interpolation along x |
| Interpolation.BilinearWithin | SimG4Common/src/MapField2DRegular.cpp:113-123 | With fractions in [0, 1] the bilinear value lies within the bounds of its four corners |
| Interpolation.TrilinearWithin | SimG4Common/src/MapField3DRegular.cpp:163-191 | With fractions in [0, 1] the trilinear value lies within the bounds of its eight corners |
| Interpolation.BilinearCorners | SimG4Common/src/MapField2DRegular.cpp:113-123 | At fractions 0 and 1 the bilinear value is the corresponding corner |
| Interpolation.TrilinearCorners | SimG4Common/src/MapField3DRegular.cpp:163-191 | At fractions 0 and 1 the trilinear value is the corresponding corner |
| Interpolation.BilinearConstant | SimG4Common/src/MapField2DRegular.cpp:113-123 | Four equal corners interpolate to their common value |
| Interpolation.TrilinearConstant | SimG4Common/src/MapField3DRegular.cpp:163-191 | Eight equal corners interpolate to their common value |
| MapField3D.EntryNode | SimG4Common/src/MapField3DRegular.cpp:105-107 | Each listed point's node index is inside the grid on all three axes |
| MapField3D.EntryNodesInside | SimG4Common/src/MapField3DRegular.cpp:104-110 | No listed point writes outside the grid, so the unchecked grid write stays inside the grid |
| MapField3D.Build | SimG4Common/src/MapField3DRegular.cpp:17-122 | Construction succeeds iff every list is at least as long as the x positions; it yields a valid map on the axes of the three coordinate lists |
| MapField3D.BuildStores | SimG4Common/src/MapField3DRegular.cpp:104-121 | The node of a listed point holds that point's field, provided no later point fills the same node |
| MapField3D.BuildLeavesZero | SimG4Common/src/MapField3DRegular.cpp:89-101 | A node that no listed point fills keeps the initial zero field |
| MapField3D.FieldAsWritten | SimG4Common/src/MapField3DRegular.cpp:124-200 | Outside the box the field is 0; inside it the lookup is defined except on a maximal face, where it reads past the last node |
| MapField3D.MaxFaceOutOfBounds | SimG4Common/src/MapField3DRegular.cpp:138-191 | The point at the maximum x with minimal y and z makes the code read past the last node |
| MapField3D.FieldClamped | SimG4Common/src/MapField3DRegular.cpp:124-200 | The corrected field is 0 outside the box and equals the code's value wherever the code stays in bounds |
| MapField3D.NodesReproduced | SimG4Common/src/MapField3DRegular.cpp:133-191 | The corrected field at every node's coordinates is that node's value, last nodes included |
| MapField3D.InteriorNodesAsWritten | SimG4Common/src/MapField3DRegular.cpp:133-191 | The code reproduces every node that is not last on any axis |
| MapField3D.FieldWithinNodeBounds | SimG4Common/src/MapField3DRegular.cpp:163-191 | Inside the box each field component lies within the bounds of that component over all nodes |
| MapField3D.UniformField | SimG4Common/src/MapField3DRegular.cpp:163-191 | A map whose nodes all hold v gives v everywhere inside the box |
| MapField2D.EntryNode | SimG4Common/src/MapField2DRegular.cpp:77-78 | Each listed point's (r, z) node index is inside the grid |
| MapField2D.EntryNodesInside | SimG4Common/src/MapField2DRegular.cpp:76-80 | No listed point writes outside the grid |
| MapField2D.Build | SimG4Common/src/MapField2DRegular.cpp:16-90 | Construction succeeds iff the other lists are at least as long as the r positions; it yields a valid map on the axes of both coordinate lists |
| MapField2D.BuildStores | SimG4Common/src/MapField2DRegular.cpp:76-80 | The node of a listed point holds that point's (Br, Bz), provided no later point fills the same node |
| MapField2D.SquaredRadiusMirror | SimG4Common/src/MapField2DRegular.cpp:97 | Mirroring a point in y keeps x^2 + y^2 |
| MapField2D.PhiMirror | SimG4Common/src/MapField2DRegular.cpp:125-136 | When `atan2` is odd in y off the x axis, mirroring a point off the x axis in y negates the azimuth, on the x = 0 plane too |
| MapField2D.RadialCoordinate | SimG4Common/src/MapField2DRegular.cpp:100-103 | A radius below the smallest one is read at the smallest one (the fraction is raised to 0); other radii are unchanged |
| MapField2D.RZAsWritten | SimG4Common/src/MapField2DRegular.cpp:99-123 | Inside the cylinder the r-z lookup is defined except at the largest radius or largest z, where it reads past the last node |
| MapField2D.RZClamped | SimG4Common/src/MapField2DRegular.cpp:99-123 | The corrected r-z lookup equals the code's value wherever the code stays in bounds |
| MapField2D.FieldAsWritten | SimG4Common/src/MapField2DRegular.cpp:92-165 | Outside the cylinder the field is 0; inside it the code's value is defined except at the largest radius or largest z |
| MapField2D.MaxRadiusOutOfBounds | SimG4Common/src/MapField2DRegular.cpp:99-117 | A point at the largest radius, inside the z range, makes the code read past the last radial node |
| MapField2D.FieldClamped | SimG4Common/src/MapField2DRegular.cpp:92-165 | The corrected field is 0 outside the cylinder and equals the code's value wherever that is defined |
| MapField2D.NodesReproduced | SimG4Common/src/MapField2DRegular.cpp:99-123 | The corrected r-z lookup at every node's coordinates is that node's value, last nodes included |
| MapField2D.InteriorNodesAsWritten | SimG4Common/src/MapField2DRegular.cpp:99-123 | The code reproduces every node that is last on neither axis |
| MapField2D.OnAxis | SimG4Common/src/MapField2DRegular.cpp:125-140 | On the beam axis the azimuth is 0, so the field is (Br, 0, Bz) |
| MapField2D.TransverseMagnitude | SimG4Common/src/MapField2DRegular.cpp:138-139 | The transverse components have the squared magnitude of the radial field whenever cos^2 + sin^2 = 1 |
| MapField2D.CartesianMagnitude | SimG4Common/src/MapField2DRegular.cpp:125-139 | Rotating the radial field by the azimuth keeps its squared length |
| MapField2D.MirrorSymmetry | SimG4Common/src/MapField2DRegular.cpp:92-165 | Mirroring the point in y mirrors the field's y component and keeps x and z, given the usual parities of `atan2` (off the x axis), `cos` and `sin` and that the angle `atan2` returns on the x axis has sine 0; on the x axis the point is its own mirror and the y component is 0 |
| MapField2D.RZWithinNodeBounds | SimG4Common/src/MapField2DRegular.cpp:113-123 | Inside the cylinder each of Br and Bz lies within its bounds over all nodes |
| MapField2D.BelowSmallestRadius | SimG4Common/src/MapField2DRegular.cpp:100-103 | Below the smallest radius the lookup equals the lookup at the smallest radius |
| MapField2D.AxialIndependentOfAzimuth | SimG4Common/src/MapField2DRegular.cpp:119-140 | The z component does not depend on `atan2`, `cos` or `sin` |
| MapField2D.UniformField | SimG4Common/src/MapField2DRegular.cpp:113-123 | A map whose nodes all hold v gives v everywhere inside the cylinder |
| Seqs.SumAppend | Detector/DetStudies/src/components/EnergyInCaloLayers.cpp:117-120 | A sum of a concatenation is the sum of the sums |
| Seqs.Collect | Detector/DetComponents/src/MagFieldScanner.cpp:58-95 | Filtering keeps exactly the values parsed from some definition |
| Seqs.CollectAppend | Detector/DetComponents/src/MagFieldScanner.cpp:58-95 | Filtering distributes over concatenation of definition lists |
| Seqs.KeptPositionsSound | Detector/DetComponents/src/MagFieldScanner.cpp:58-95 | Each kept value is the parse of the definition at its recorded position |
| Seqs.KeptPositionsAscending | Detector/DetComponents/src/MagFieldScanner.cpp:58-95 | The recorded positions ascend: the kept values keep the definitions' order |
| Seqs.KeptPositionsComplete | Detector/DetComponents/src/MagFieldScanner.cpp:58-95 | Every definition that parses is kept |
| SaveCalHits.Initialize | SimG4Components/src/SimG4SaveCalHits.cpp:43-50 | Succeeds iff every configured readout exists; otherwise it reports the first one that is missing |
| SaveCalHits.EmptyConfigurationAccepted | SimG4Components/src/SimG4SaveCalHits.cpp:43-50 | An empty list of readout names passes initialisation, as the code does; the class comment says it fails |
| SaveCalHits.Insert | SimG4Components/src/SimG4SaveCalHits.cpp:89-93 | Adding a key to an ordered key set keeps it ordered and adds exactly that key |
| SaveCalHits.Cells | SimG4Components/src/SimG4SaveCalHits.cpp:89-95 | The cells visited are exactly the hits' cell identifiers, in increasing order and without repetition |
| SaveCalHits.InCell | SimG4Components/src/SimG4SaveCalHits.cpp:89-93 | A cell's contributions are exactly the hits in that cell |
| SaveCalHits.SaveCollection | SimG4Components/src/SimG4SaveCalHits.cpp:88-155 | One cell hit per distinct cell, in increasing identifier order; its energy is the calibrated sum of that cell's deposits and it records each of its contributions |
| SaveCalHits.CalibratedAdds | SimG4Components/src/SimG4SaveCalHits.cpp:118 | Converting energy units distributes over sums |
| SaveCalHits.GroupingConserves | SimG4Components/src/SimG4SaveCalHits.cpp:88-100 | Grouping contributions by cell loses no deposit and no contribution |
| SaveCalHits.DepositsInAppend | SimG4Components/src/SimG4SaveCalHits.cpp:90-93 | Adding a contribution to the event adds its deposit, and one contribution, to its own cell and to no other |
| SaveCalHits.CellHitsTotals | SimG4Components/src/SimG4SaveCalHits.cpp:95-142 | The cell hits' energies add up to the calibrated deposits in those cells, and their records count those contributions |
| SaveCalHits.SaveCollectionConserves | SimG4Components/src/SimG4SaveCalHits.cpp:88-155 | A collection's cell hits carry its whole calibrated energy and one record per contribution |
| SaveCalHits.Configured | SimG4Components/src/SimG4SaveCalHits.cpp:73-77 | Exactly the collections named in the configured readouts are processed |
| SaveCalHits.SaveOutput | SimG4Components/src/SimG4SaveCalHits.cpp:64-159 | Without event collections nothing is written; otherwise the contribution collection is exactly the cell hits' records |
| SaveCalHits.AllRecordsAppend | SimG4Components/src/SimG4SaveCalHits.cpp:73-156 | Records and total energy add up over consecutive collections |
| SaveCalHits.SaveAllEnergy | SimG4Components/src/SimG4SaveCalHits.cpp:73-156 | Over several collections, the cell hits carry the calibrated total of all their deposits |
| SaveCalHits.SaveAllCount | SimG4Components/src/SimG4SaveCalHits.cpp:73-156 | Over several collections, there is one contribution record per step contribution |
| SaveCalHits.SaveOutputConserves | SimG4Components/src/SimG4SaveCalHits.cpp:64-159 | The output's cell-hit energy is the calibrated deposit total of the configured collections, with one contribution record per step |
| EnergyInCaloLayers.Initialize | Detector/DetStudies/src/components/EnergyInCaloLayers.cpp:32-63 | Succeeds iff the readout exists, there is one sampling fraction per layer and none is zero, with the missing readout reported first |
| EnergyInCaloLayers.AsSize | Detector/DetStudies/src/components/EnergyInCaloLayers.cpp:100-105 | Storing a decoded field in a `size_t` keeps non-negative values and wraps negative ones |
| EnergyInCaloLayers.AsSizeZero | Detector/DetStudies/src/components/EnergyInCaloLayers.cpp:100-101 | The `size_t` test `cryoID == 0` holds iff the decoded `cryo` field is 0 |
| EnergyInCaloLayers.Locate | Detector/DetStudies/src/components/EnergyInCaloLayers.cpp:99-108 | A deposit belongs to a layer iff `cryo` is 0 and `layer` exists, to a cryostat part iff `cryo` is non-zero and `type` exists; a missing `cryo` is an error; the layer or part index is the decoded `layer` or `type` value as a `size_t` |
| EnergyInCaloLayers.AddDeposit | Detector/DetStudies/src/components/EnergyInCaloLayers.cpp:100-108 | A deposit is accepted iff its layer, or its cryostat part, is within its vector; the vectors keep their lengths |
| EnergyInCaloLayers.AccumulateSucceeds | Detector/DetStudies/src/components/EnergyInCaloLayers.cpp:98-109 | The deposit loop succeeds iff every deposit has an in-range place |
| EnergyInCaloLayers.AccumulateLayers | Detector/DetStudies/src/components/EnergyInCaloLayers.cpp:98-109 | Each layer's sum is the total energy of the deposits placed in that layer |
| EnergyInCaloLayers.AccumulateCryostat | Detector/DetStudies/src/components/EnergyInCaloLayers.cpp:104-108 | Cryostat entry 0 is the total of all cryostat deposits (plus those of type 0 a second time); each other entry is its type's total |
| EnergyInCaloLayers.AccumulateTotal | Detector/DetStudies/src/components/EnergyInCaloLayers.cpp:98-109 | The layer sums add up to the energy of all deposits placed in layers |
| EnergyInCaloLayers.Execute | Detector/DetStudies/src/components/EnergyInCaloLayers.cpp:66-120 | Fails iff there is no initial particle or some deposit is out of range; otherwise it fills the particle vector from the first particle, each layer is its calibrated deposit total, the whole-cryostat entry is the cryostat deposit total plus the type-0 deposits again, each other cryostat entry is the deposit total of its part, and the calorimeter total is the sum of the layers |
| EnergyInCaloLayers.ItemsFit | Detector/DetStudies/src/components/EnergyInCaloLayers.cpp:98-109 | The loop over the deposits succeeds iff every deposit is accepted |
| EnergyInCaloLayers.AccumulateNeverParticle | Detector/DetStudies/src/components/EnergyInCaloLayers.cpp:79-109 | The deposit loop never reports a missing initial particle: that error comes only from the particle check |
| EnergyInCaloLayers.UnitFractionsTotal | Detector/DetStudies/src/components/EnergyInCaloLayers.cpp:111-120 | With unit sampling fractions the calorimeter total is the energy of all deposits placed in layers |
| SamplingFractionInLayers.Initialize | Detector/DetStudies/src/components/SamplingFractionInLayers.cpp:30-38 | Succeeds iff the readout exists, keeping its layout and the configured layer counts |
| SamplingFractionInLayers.Decode | Detector/DetStudies/src/components/SamplingFractionInLayers.cpp:91-98 | A deposit decodes to its energy, its layer field (present iff the layout has it), and an active flag present iff the layout has the active field |
| SamplingFractionInLayers.AccumulateSucceeds | Detector/DetStudies/src/components/SamplingFractionInLayers.cpp:90-104 | The deposit loop succeeds iff every deposit's layer is known and in range, and its active field is known when the layer is in the calorimeter |
| SamplingFractionInLayers.ItemsFit | Detector/DetStudies/src/components/SamplingFractionInLayers.cpp:90-104 | The loop over the deposits succeeds iff every deposit can be evaluated |
| SamplingFractionInLayers.AddDepositConsistent | Detector/DetStudies/src/components/SamplingFractionInLayers.cpp:92-103 | Each deposit keeps the totals consistent: the total is the sum over calorimeter layers and the active total the sum of the active layer sums |
| SamplingFractionInLayers.AddDepositBounded | Detector/DetStudies/src/components/SamplingFractionInLayers.cpp:92-103 | A non-negative deposit keeps every active sum between 0 and its total |
| SamplingFractionInLayers.AccumulateInvariants | Detector/DetStudies/src/components/SamplingFractionInLayers.cpp:82-104 | After all deposits the sums are consistent, and bounded when all energies are non-negative |
| SamplingFractionInLayers.Ratio | Detector/DetStudies/src/components/SamplingFractionInLayers.cpp:108-110 | A fraction is formed iff the total is positive, it is active / total (times the total it gives the active part), and it lies in [0, 1] when the active part lies between 0 and the total |
| SamplingFractionInLayers.AccumulateEnergies | Detector/DetStudies/src/components/SamplingFractionInLayers.cpp:89-104 | After all deposits, layer sum i is the energy of the deposits with layer i, and active sum i the energy of the active deposits with layer i when i is a calorimeter layer |
| SamplingFractionInLayers.ActiveBeforeFirst | Detector/DetStudies/src/components/SamplingFractionInLayers.cpp:95-103 | No deposit with a layer before the first calorimeter layer counts as active energy |
| SamplingFractionInLayers.AccumulateMatches | Detector/DetStudies/src/components/SamplingFractionInLayers.cpp:86-104 | The sums after the loop match the deposits: one entry per layer, each the deposit total of its layer, and active sums 0 before the first calorimeter layer |
| SamplingFractionInLayers.Fractions | Detector/DetStudies/src/components/SamplingFractionInLayers.cpp:105-123 | The reported fractions keep the sums; the overall fraction exists iff the total is positive and is active / total, layer i's exists iff its sum is positive and is its active sum / its sum, and all lie in [0, 1] when the sums are bounded |
| SamplingFractionInLayers.Execute | Detector/DetStudies/src/components/SamplingFractionInLayers.cpp:80-125 | Succeeds iff every deposit can be evaluated; the reported sums match the deposits layer by layer (active sums 0 before the first calorimeter layer); the overall and per-layer fractions exist iff their totals are positive, are the active share of their totals, and lie in [0, 1] for non-negative deposits |
| MagFieldScanner.ParseXYPlane | Detector/DetComponents/src/MagFieldScanner.cpp:58-65 | An xy-plane definition is kept iff it has three numbers |
| MagFieldScanner.ParseZPlane | Detector/DetComponents/src/MagFieldScanner.cpp:67-82 | A z-plane definition is kept iff it has four numbers and a positive rMax |
| MagFieldScanner.ParseTube | Detector/DetComponents/src/MagFieldScanner.cpp:84-95 | A tube definition is kept iff it has three numbers and a positive radius |
| MagFieldScanner.ParseRoundTrips | Detector/DetComponents/src/MagFieldScanner.cpp:58-95 | A kept probe is its definition read in order, and every well-formed probe is kept from its own definition |
| MagFieldScanner.PhiDoesNotReject | Detector/DetComponents/src/MagFieldScanner.cpp:76-78 | The azimuth only warns: changing it never changes whether a z-plane definition is kept, and a z-plane whose azimuth exceeds a full turn is kept and warned about |
| MagFieldScanner.XYPlanes | Detector/DetComponents/src/MagFieldScanner.cpp:58-65 | The xy-plane probes are exactly those whose definition is listed |
| MagFieldScanner.ZPlanes | Detector/DetComponents/src/MagFieldScanner.cpp:67-82 | The z-plane probes are exactly those listed with a positive rMax |
| MagFieldScanner.Tubes | Detector/DetComponents/src/MagFieldScanner.cpp:84-95 | The tube probes are exactly those listed with a positive radius |
| MagFieldScanner.XYPlanesInOrder | Detector/DetComponents/src/MagFieldScanner.cpp:58-65 | The xy-plane probes are the accepted definitions in their original order, and every three-number definition is among them |
| MagFieldScanner.ZPlanesInOrder | Detector/DetComponents/src/MagFieldScanner.cpp:67-82 | The z-plane probes are the accepted definitions in order, and every acceptable one is among them |
| MagFieldScanner.TubesInOrder | Detector/DetComponents/src/MagFieldScanner.cpp:84-95 | The tube probes are the accepted definitions in order, and every acceptable one is among them |
| MagFieldScanner.ScanAppend | Detector/DetComponents/src/MagFieldScanner.cpp:58-95 | Scanning concatenated definition lists concatenates the probe lists |
| MagFieldProbe.Numbers | Detector/DetComponents/src/MagFieldProbe.cpp:35-37 | Reading tokens as numbers succeeds iff every token is readable, giving each token's number in order; otherwise it names an unreadable token |
| MagFieldProbe.Fields | Detector/DetComponents/src/MagFieldProbe.cpp:30-65 | A definition of the wrong size is rejected; otherwise its numbers after the type tag are read in order, or an unreadable one is reported |
| MagFieldProbe.ParseXYPlane | Detector/DetComponents/src/MagFieldProbe.cpp:30-40 | An xy-plane definition is rejected iff it has not four tokens; otherwise xMax, yMax and z are tokens 1-3 |
| MagFieldProbe.ParseZPlane | Detector/DetComponents/src/MagFieldProbe.cpp:42-53 | A z-plane definition is rejected iff it has not five tokens; otherwise zMin, zMax, rMax and phi are tokens 1-4 |
| MagFieldProbe.ParseCylinder | Detector/DetComponents/src/MagFieldProbe.cpp:55-65 | A cylinder definition is rejected iff it has not four tokens; otherwise r, zMin and zMax are tokens 1-3 |
| MagFieldProbe.ParseRoundTrips | Detector/DetComponents/src/MagFieldProbe.cpp:30-65 | Printing a probe's numbers and parsing them back gives the same probe, for each probe type |
| MagFieldProbe.Dispatch | Detector/DetComponents/src/MagFieldProbe.cpp:136-162 | An empty or unknown definition contributes nothing; a known one contributes its probe to its own list when it parses, and at most one probe |
| MagFieldProbe.Then | Detector/DetComponents/src/MagFieldProbe.cpp:136-163 | Processing two parts in sequence succeeds iff both do and appends their probe lists; a failure in the first stops it |
| MagFieldProbe.ThenAssociative | Detector/DetComponents/src/MagFieldProbe.cpp:136-163 | Sequencing parts does not depend on grouping |
| MagFieldProbe.CombineAppend | Detector/DetComponents/src/MagFieldProbe.cpp:136-163 | Running the loop over two consecutive parts of the definitions is running it over each, in sequence |
| MagFieldProbe.DispatchContributes | Detector/DetComponents/src/MagFieldProbe.cpp:141-158 | A definition that does not throw contributes exactly its own probe to each list |
| MagFieldProbe.InitializeSucceeds | Detector/DetComponents/src/MagFieldProbe.cpp:136-163 | The definition loop succeeds iff no definition throws while reading its numbers |
| MagFieldProbe.InitializeCollects | Detector/DetComponents/src/MagFieldProbe.cpp:136-163 | Each probe list is the definitions of its type that parse, in their order |
| MagFieldProbe.InitializeAppend | Detector/DetComponents/src/MagFieldProbe.cpp:136-163 | Reading concatenated definition lists succeeds iff both parts do, and joins their probe lists |

## Left out

- Geant4, DD4hep and Gaudi services are not part of this model. Geometry lookups, the segmentation's `cellID`/`position`, the cell-position transform of `SimG4SaveCalHits` and the mathematical library are parameters (uninterpreted functions). Service presence checks, histogram booking and filling, logging, and the EDM collection and metadata plumbing are left out.
- The BitFieldCoder of DD4hep is not part of this model; `BitField` models it as fields at given offsets and widths, with two's-complement sign extension for signed fields, in a 64-bit identifier.
- BitField.Set: a value outside the field's range is written as its low `width` bits (modulo 2^width). DD4hep's BitFieldCoder is not part of this model, and its `set` may reject such a value with an exception that aborts the event. This concerns a detector field copied into a narrower new field (RewriteBitfield, RedoSegmentation), the old module number written into the new `module` field (RedoSegmentation), a group index or wrapped layer that does not fit the field (MergeLayers), and a merged value of a field wider than 30 bits that wrapped in the C++ `int` (MergeCells). For in-range values both behaviours agree, and GetSet, CopyFields and MergeLayerGroup state the value written.
- SaveCalHits.Initialize: follows the code, which accepts an empty list of readout names (SimG4SaveCalHits.cpp:43-50). The class comment (SimG4SaveCalHits.h:21-23) says the tool then fails at initialisation; EmptyConfigurationAccepted states the code's behaviour.
- Floating-point arithmetic is modelled by exact real arithmetic; `(float)` casts of positions are left out.
- MergeCells.Execute: the merged field's value is stated only for fields of at most 30 bits, as for MergeCellNarrow; for wider fields only the payload and the other fields are stated.
- MergeCells.MergeCellNarrow: the exact result is stated only for fields of at most 30 bits. For wider fields the value or the shift by N/2 can wrap in the C++ `int`; `MergedAsWritten` models that wrap-around but no contract describes it.
- MergeLayers.MergeLayerGroup: stated for unsigned fields of at most 32 bits whose group sizes total less than 2^32. Beyond that the `unsigned int` value and boundaries wrap; `Boundaries` and `MergeLayer` model the wrap-around.
- MergeLayers.BucketMonotone: stated only for layers below the total of all groups. A layer beyond the groups keeps its number, which can be smaller than the group index of a lower layer when some groups are empty: with sizes [0, 0, 0, 0, 0, 3], layer 0 becomes 5 and layer 3 stays 3.
- GridAxis.BuildAxis: requires the coordinate list to be spread (not empty, not all equal). On an empty list `max_element` is undefined behaviour, and on a flat axis the code divides by a step of -1 or by a zero width.
- MapField3D.Build: the grid is a map from node indices to values, with unset nodes reading 0, in place of nested vectors.
- MagFieldProbe.Numbers: `std::stod` is a parameter returning no number for an unreadable token. Its exception, which aborts `initialize`, is an error value. Parsing a prefix of a token is part of the parameter.
- MagFieldProbe.Dispatch: the summary printout (which prints the z-plane probes only when xy-plane probes exist) is left out with the rest of the logging.
- The headers of MagFieldScanner, SamplingFractionInLayers and the cell-identifier algorithms are not part of this model; of SimG4SaveCalHits.h only the class comment is used, for the SaveCalHits.Initialize note. The order of a probe structure's members and the types of the configuration properties are taken from their use in the `.cpp` files.
- SamplingFractionInLayers.Decode: the active field is decoded with every deposit, though the code reads it only for layers at or above the first calorimeter layer. An error is reported only where the code reads it, so this does not change a result.
- SamplingFractionInLayers.AddDeposit: an unchecked `[]` past the end of the layer vectors is undefined behaviour in C++. It is modelled as an error.
- EnergyInCaloLayers.AddDeposit: `.at()` past the end throws. It is modelled as an error that aborts the event.
- EnergyInCaloLayers.Execute: the particle's polar angle is computed only for a printout and is left out, and so is the extra-particle warning.
- RedoSegmentation.Execute: the debug printouts are left out, and output hits carry only the cell identifier and energy. The cell identifier's encoding string written as metadata is left out.

## Findings

| source | as written | input that shows it | evidently intended | confidence | as-written member | corrected member |
|---|---|---|---|---|---|---|
| SimG4Common/src/MapField3DRegular.cpp:129-191 | A point on a maximal face (x == xMax, say) is inside the box, its index is n - 1, and the code reads the node at index n | Any map; the point (xMax, yMin, zMin) | The last cell is used with fraction 1, so the value at a node on the maximal face is that node's value | not executed | MapField3D.MaxFaceOutOfBounds | MapField3D.NodesReproduced |
| SimG4Common/src/MapField2DRegular.cpp:99-123 | A point at the largest radius (or largest z) is inside the cylinder, its radial index is nR - 1, and the code reads `m_fieldR[nR]`, past the end | Any map; a point with r == rMax and zMin <= z <= zMax | The last cell is used with fraction 1, so nodes at the largest radius are reproduced | not executed | MapField2D.MaxRadiusOutOfBounds | MapField2D.NodesReproduced |

=== FILE: bitfield.dfy ===
/** The cell-identifier codec: a 64-bit identifier partitioned into named
    fields, each a span of bits holding a signed (two's complement) or
    unsigned value. The coder of the geometry library is not part of this
    model; this module defines get/set from the bits up and proves the
    contract the transforms rely on: `Get` sign-extends signed fields, `Set`
    changes only its own span, and `Get(Set(c, f, v), f) == v` whenever `v`
    fits the field. */
module BitField {
  import opened IntArith
  import opened Wrappers

  /** Width of a cell identifier (a C++ `uint64_t`). */
  const IdWidth: nat := 64

  type CellId = n: nat | n < 0x1_0000_0000_0000_0000

  /** The identifier range as a literal, so that subset checks do not expand
      the power. */
  lemma Pow2IdWidth()
    ensures Pow2(IdWidth) == 0x1_0000_0000_0000_0000
  {
    Pow2Literals();
    Pow2Add(32, 32);
  }

  /** The low `w` bits of `n`, least significant first. */
  function ToBits(n: nat, w: nat): (b: seq<bool>)
    ensures |b| == w
  {
    if w == 0 then [] else [n % 2 == 1] + ToBits(n / 2, w - 1)
  }

  /** The natural number whose bits, least significant first, are `b`. */
  function FromBits(b: seq<bool>): (n: nat)
    ensures n < Pow2(|b|)
  {
    if |b| == 0 then 0 else (if b[0] then 1 else 0) + 2 * FromBits(b[1..])
  }

  lemma {:induction false} FromToBits(n: nat, w: nat)
    requires n < Pow2(w)
    ensures FromBits(ToBits(n, w)) == n
  {
    if w > 0 {
      FromToBits(n / 2, w - 1);
      assert ToBits(n, w)[1..] == ToBits(n / 2, w - 1);
    }
  }

  lemma {:induction false} ToFromBits(b: seq<bool>)
    ensures ToBits(FromBits(b), |b|) == b
  {
    if |b| > 0 {
      ToFromBits(b[1..]);
      var n := FromBits(b);
      assert n % 2 == (if b[0] then 1 else 0);
      assert n / 2 == FromBits(b[1..]);
    }
  }

  /** All-clear bits encode zero, and zero has only clear bits. */
  lemma {:induction false} ZeroBits(w: nat)
    ensures ToBits(0, w) == seq(w, i => false)
    ensures FromBits(seq(w, i => false)) == 0
  {
    if w > 0 {
      ZeroBits(w - 1);
      assert seq(w, i => false)[1..] == seq(w - 1, i => false);
    }
  }

  /** The 64 bits of an identifier, least significant first. */
  function Bits(c: CellId): (b: seq<bool>)
    ensures |b| == IdWidth
  {
    ToBits(c, IdWidth)
  }

  /** Identifiers with the same bits are the same identifier. */
  lemma BitsInjective(c: CellId, d: CellId)
    requires Bits(c) == Bits(d)
    ensures c == d
  {
    Pow2IdWidth();
    FromToBits(c, IdWidth);
    FromToBits(d, IdWidth);
  }

  /** One field of a layout: its name, first bit, number of bits, and
      whether its value is signed. */
  datatype Field = Field(name: string, offset: nat, width: nat, signed: bool)

  /** The field is a non-empty span inside the 64 bits. */
  predicate FieldFits(f: Field)
  {
    0 < f.width && f.offset + f.width <= IdWidth
  }

  /** The two fields' spans do not share a bit. */
  predicate Disjoint(f: Field, g: Field)
  {
    f.offset + f.width <= g.offset || g.offset + g.width <= f.offset
  }

  /** The smallest and largest value the field can hold. */
  function MinValue(f: Field): int
    requires FieldFits(f)
  {
    if f.signed then -(Pow2(f.width - 1) as int) else 0
  }

  function MaxValue(f: Field): int
    requires FieldFits(f)
  {
    if f.signed then Pow2(f.width - 1) - 1 else Pow2(f.width) - 1
  }

  predicate InRange(f: Field, v: int)
    requires FieldFits(f)
  {
    MinValue(f) <= v <= MaxValue(f)
  }

  /** Two's-complement image of `v` in the field's width: the bits `Set`
      writes into the span. */
  function ToRaw(f: Field, v: int): (raw: nat)
    requires FieldFits(f)
    ensures raw < Pow2(f.width)
  {
    v % Pow2(f.width)
  }

  /** Reading the span back: sign-extended when the field is signed and its
      top bit is set. */
  function FromRaw(f: Field, raw: nat): (v: int)
    requires FieldFits(f) && raw < Pow2(f.width)
    ensures InRange(f, v)
    ensures ToRaw(f, v) == raw
  {
    var p: int := Pow2(f.width);
    assert p == 2 * Pow2(f.width - 1);
    if f.signed && raw >= Pow2(f.width - 1) then
      assert (raw - p) % p == raw by { ModShiftDown(raw, p); }
      raw - p
    else
      ModIdentity(raw, p);
      raw
  }

  lemma ModShiftDown(raw: int, p: int)
    requires 0 <= raw < p
    ensures (raw - p) % p == raw
  {
  }

  /** Encoding then decoding is the identity on values the field can hold. */
  lemma RawRoundTrip(f: Field, v: int)
    requires FieldFits(f) && InRange(f, v)
    ensures FromRaw(f, ToRaw(f, v)) == v
  {
    var p: int := Pow2(f.width);
    var h: int := Pow2(f.width - 1);
    assert p == 2 * h;
    if v >= 0 {
      ModIdentity(v, p);
    } else {
      ModNegative(v, p);
    }
  }

  lemma ModNegative(v: int, p: int)
    requires -p <= v < 0
    ensures v % p == v + p
  {
  }

  /** The bits of the field's span, as an unsigned number. */
  function Raw(c: CellId, f: Field): (r: nat)
    requires FieldFits(f)
    ensures r < Pow2(f.width)
  {
    FromBits(Bits(c)[f.offset .. f.offset + f.width])
  }

  /** The coder's `get`: the field's value, sign-extended if signed. */
  function Get(c: CellId, f: Field): (v: int)
    requires FieldFits(f)
    ensures InRange(f, v)
    ensures ToRaw(f, v) == Raw(c, f)
    ensures f.signed && Raw(c, f) >= Pow2(f.width - 1) ==> v < 0
  {
    FromRaw(f, Raw(c, f))
  }

  /** The coder's `set`: clear the field's span and write the low `width`
      bits of the two's-complement image of `v` there. A value outside the
      field's range is written as those bits, not rejected. */
  function Set(c: CellId, f: Field, v: int): (r: CellId)
    requires FieldFits(f)
    ensures Bits(r)[f.offset .. f.offset + f.width] == ToBits(ToRaw(f, v), f.width)
    ensures forall i :: 0 <= i < IdWidth && !(f.offset <= i < f.offset + f.width) ==> Bits(r)[i] == Bits(c)[i]
  {
    var b := Bits(c);
    var nb := b[..f.offset] + ToBits(ToRaw(f, v), f.width) + b[f.offset + f.width..];
    ToFromBits(nb);
    Pow2IdWidth();
    FromBits(nb)
  }

  /** Two values a field holds are equal when their images in the span are. */
  lemma RawInjective(f: Field, a: int, b: int)
    requires FieldFits(f) && InRange(f, a) && InRange(f, b) && ToRaw(f, a) == ToRaw(f, b)
    ensures a == b
  {
    RawRoundTrip(f, a);
    RawRoundTrip(f, b);
  }

  /** `get` after `set` on the same field returns the value written, when it
      fits the field; otherwise its two's-complement reduction. */
  lemma GetSet(c: CellId, f: Field, v: int)
    requires FieldFits(f)
    ensures ToRaw(f, Get(Set(c, f, v), f)) == ToRaw(f, v)
    ensures InRange(f, v) ==> Get(Set(c, f, v), f) == v
  {
    FromToBits(ToRaw(f, v), f.width);
    if InRange(f, v) {
      RawRoundTrip(f, v);
    }
  }

  /** `set` on one field leaves every field disjoint from it unchanged. */
  lemma SetKeepsDisjoint(c: CellId, f: Field, v: int, g: Field)
    requires FieldFits(f) && FieldFits(g) && Disjoint(f, g)
    ensures Get(Set(c, f, v), g) == Get(c, g)
  {
    var r := Set(c, f, v);
    assert Bits(r)[g.offset .. g.offset + g.width] == Bits(c)[g.offset .. g.offset + g.width];
  }

  /** Writing back the value just read changes nothing. */
  lemma SetGetIdentity(c: CellId, f: Field)
    requires FieldFits(f)
    ensures Set(c, f, Get(c, f)) == c
  {
    var r := Set(c, f, Get(c, f));
    ToFromBits(Bits(c)[f.offset .. f.offset + f.width]);
    assert Bits(r) == Bits(c);
    BitsInjective(r, c);
  }

  /** Every field of the all-zero identifier decodes to 0. */
  lemma GetZero(c: CellId, f: Field)
    requires FieldFits(f) && c == 0
    ensures Get(c, f) == 0
  {
    ZeroBits(IdWidth);
    ZeroBits(f.width);
    assert Bits(c)[f.offset .. f.offset + f.width] == seq(f.width, i => false);
  }

  /** A layout: the ordered field list of a readout's identifier. */
  type Layout = seq<Field>

  /** What the coder guarantees of a layout it accepted: every field fits,
      and names and spans are pairwise distinct. */
  predicate WellFormed(l: Layout)
  {
    && (forall i :: 0 <= i < |l| ==> FieldFits(l[i]))
    && (forall i, j :: 0 <= i < j < |l| ==> l[i].name != l[j].name && Disjoint(l[i], l[j]))
  }

  function Names(l: Layout): (ns: seq<string>)
    ensures |ns| == |l|
    ensures forall i :: 0 <= i < |l| ==> ns[i] == l[i].name
  {
    seq(|l|, i requires 0 <= i < |l| => l[i].name)
  }

  /** The field called `name`, looked up as the coder does by name. */
  function FieldNamed(l: Layout, name: string): (f: Field)
    requires name in Names(l)
    ensures f in l && f.name == name
  {
    if l[0].name == name then l[0] else FieldNamed(l[1..], name)
  }

  /** In a well-formed layout, two fields with different names are disjoint. */
  lemma DistinctNamesDisjoint(l: Layout, f: Field, g: Field)
    requires WellFormed(l) && f in l && g in l && f.name != g.name
    ensures FieldFits(f) && FieldFits(g) && Disjoint(f, g)
  {
    var i :| 0 <= i < |l| && l[i] == f;
    var j :| 0 <= j < |l| && l[j] == g;
    if i > j {
      assert Disjoint(l[j], l[i]);
    }
  }

  /** In a well-formed layout a name identifies one field. */
  lemma NamesUnique(l: Layout, f: Field, g: Field)
    requires WellFormed(l) && f in l && g in l && f.name == g.name
    ensures f == g
  {
    var i :| 0 <= i < |l| && l[i] == f;
    var j :| 0 <= j < |l| && l[j] == g;
  }

  /** Setting one field of a well-formed layout leaves every other field of
      that layout decoding to its old value. */
  lemma SetKeepsOthers(l: Layout, c: CellId, f: Field, v: int)
    requires WellFormed(l) && f in l
    ensures forall g :: g in l && g.name != f.name ==> Get(Set(c, f, v), g) == Get(c, g)
  {
    forall g | g in l && g.name != f.name
      ensures Get(Set(c, f, v), g) == Get(c, g)
    {
      DistinctNamesDisjoint(l, f, g);
      SetKeepsDisjoint(c, f, v, g);
    }
  }

  lemma FieldOfWellFormed(l: Layout, f: Field)
    requires WellFormed(l) && f in l
    ensures FieldFits(f)
  {
  }
}

=== FILE: energy_in_calo_layers.dfy ===
/** EnergyInCaloLayers: the energy a shower deposits in each calorimeter
    layer and in the cryostat, the layers calibrated by their sampling
    fractions. */
module EnergyInCaloLayers {
  import opened Wrappers
  import opened IntArith
  import opened Seqs
  import opened Vectors
  import opened BitField
  import opened Readouts

  /** Number of cryostat sums: the whole cryostat, then front, back, sides,
      liquid-argon bath front and bath back. */
  const CryoParts: nat := 6

  datatype InitError = MissingReadout | FractionCountMismatch | ZeroFraction

  /** The configured tool: the readout's identifier layout, the number of
      layers and one sampling fraction per layer. */
  datatype Config = Config(layout: Layout, numLayers: nat, samplingFractions: seq<real>)

  predicate Valid(cfg: Config)
  {
    && WellFormed(cfg.layout)
    && |cfg.samplingFractions| == cfg.numLayers
    && forall i :: 0 <= i < |cfg.samplingFractions| ==> cfg.samplingFractions[i] != 0.0
  }

  /** `initialize`: the readout must exist, there must be one sampling
      fraction per layer and none may be zero; checked in that order. */
  function Initialize(readoutName: string, reg: Registry, numLayers: nat, fractions: seq<real>): (r: Result<Config, InitError>)
    requires ValidRegistry(reg)
    ensures r.Ok? <==> readoutName in reg && |fractions| == numLayers && 0.0 !in fractions
    ensures r.Ok? ==> Valid(r.value) && r.value.numLayers == numLayers && r.value.samplingFractions == fractions
    ensures readoutName !in reg ==> r == Err(MissingReadout)
    ensures readoutName in reg && |fractions| != numLayers ==> r == Err(FractionCountMismatch)
  {
    if readoutName !in reg then Err(MissingReadout)
    else if |fractions| != numLayers then Err(FractionCountMismatch)
    else if 0.0 in fractions then Err(ZeroFraction)
    else Ok(Config(reg[readoutName].layout, numLayers, fractions))
  }

  /** The generated particle: mass and momentum. */
  datatype Particle = Particle(mass: real, momentum: Vec3)

  /** An energy deposit in a cell. */
  datatype Deposit = Deposit(cellId: CellId, energy: real)

  /** Why an event fails: no generated particle, an identifier field the
      layout lacks, or an index `at` rejects. */
  datatype ExecError = NoInitialParticle | UnknownField(name: string) | LayerOutOfRange(layer: nat) | CryoTypeOutOfRange(kind: nat)

  /** Conversion of a decoded field value to `size_t`. */
  function AsSize(v: int): (n: nat)
    ensures n < Pow2(IdWidth)
    ensures 0 <= v < Pow2(IdWidth) ==> n == v
  {
    if 0 <= v < Pow2(IdWidth) then ModIdentity(v, Pow2(IdWidth)); v % Pow2(IdWidth)
    else v % Pow2(IdWidth)
  }

  /** A decoded field is zero as a `size_t` exactly when it is zero. */
  lemma AsSizeZero(f: Field, c: CellId)
    requires FieldFits(f)
    ensures AsSize(Get(c, f)) == 0 <==> Get(c, f) == 0
  {
    var v := Get(c, f);
    var m: int := Pow2(IdWidth);
    Pow2Monotone(f.width, IdWidth);
    if v < 0 {
      assert -m <= v;
      ModNegative(v, m);
    }
  }

  /** Where a deposit goes: a calorimeter layer or a cryostat part. */
  datatype Place = InLayer(layer: nat) | InCryostat(kind: nat)

  /** Decoding of a deposit's identifier: `cryo` 0 means the calorimeter
      and `layer` is read, otherwise `type` is. A field the layout lacks
      makes the decoder throw. */
  function Locate(l: Layout, c: CellId): (r: Result<Place, ExecError>)
    requires WellFormed(l)
    ensures "cryo" !in Names(l) ==> r == Err(UnknownField("cryo"))
    ensures r.Ok? && r.value.InLayer? <==>
              "cryo" in Names(l) && Get(c, FieldNamed(l, "cryo")) == 0 && "layer" in Names(l)
    ensures r.Ok? && r.value.InCryostat? <==>
              "cryo" in Names(l) && Get(c, FieldNamed(l, "cryo")) != 0 && "type" in Names(l)
    ensures r.Ok? && r.value.InLayer? ==> r.value.layer == AsSize(Get(c, FieldNamed(l, "layer")))
    ensures r.Ok? && r.value.InCryostat? ==> r.value.kind == AsSize(Get(c, FieldNamed(l, "type")))
  {
    if "cryo" !in Names(l) then Err(UnknownField("cryo"))
    else
      var cryo := FieldNamed(l, "cryo");
      FieldOfWellFormed(l, cryo);
      AsSizeZero(cryo, c);
      if AsSize(Get(c, cryo)) == 0 then
        if "layer" !in Names(l) then Err(UnknownField("layer"))
        else
          var f := FieldNamed(l, "layer");
          FieldOfWellFormed(l, f);
          Ok(InLayer(AsSize(Get(c, f))))
      else if "type" !in Names(l) then Err(UnknownField("type"))
      else
        var f := FieldNamed(l, "type");
        FieldOfWellFormed(l, f);
        Ok(InCryostat(AsSize(Get(c, f))))
  }

  /** The running sums: one per layer and one per cryostat part. */
  datatype Sums = Sums(layers: seq<real>, cryo: seq<real>)

  /** One deposit added to the sums: a layer deposit to its layer, a
      cryostat deposit to the whole cryostat and to its part. `at` rejects
      an index beyond the sums. */
  function AddDeposit(s: Sums, p: Place, e: real): (r: Result<Sums, ExecError>)
    requires |s.cryo| == CryoParts
    ensures r.Ok? ==> |r.value.layers| == |s.layers| && |r.value.cryo| == CryoParts
    ensures r.Ok? <==> (p.InLayer? && p.layer < |s.layers|) || (p.InCryostat? && p.kind < CryoParts)
  {
    match p
    case InLayer(i) =>
      if i < |s.layers| then Ok(Sums(s.layers[i := s.layers[i] + e], s.cryo))
      else Err(LayerOutOfRange(i))
    case InCryostat(t) =>
      var whole := s.cryo[0 := s.cryo[0] + e];
      if t < CryoParts then Ok(Sums(s.layers, whole[t := whole[t] + e]))
      else Err(CryoTypeOutOfRange(t))
  }

  function Zeros(n: nat): (z: seq<real>)
    ensures |z| == n && forall i :: 0 <= i < n ==> z[i] == 0.0
  {
    seq(n, i => 0.0)
  }

  /** A deposit as the loop sees it: where its identifier decodes to (or
      why decoding fails) and its energy. */
  datatype Item = Item(place: Result<Place, ExecError>, energy: real)

  function Items(cfg: Config, ds: seq<Deposit>): (items: seq<Item>)
    requires WellFormed(cfg.layout)
    ensures |items| == |ds|
    ensures forall i :: 0 <= i < |ds| ==> items[i] == Item(Locate(cfg.layout, ds[i].cellId), ds[i].energy)
  {
    seq(|ds|, i requires 0 <= i < |ds| => Item(Locate(cfg.layout, ds[i].cellId), ds[i].energy))
  }

  /** The deposit loop: sums start at zero and every deposit is added in
      order; the first failure ends the event. */
  function Accumulate(numLayers: nat, items: seq<Item>): (r: Result<Sums, ExecError>)
    ensures r.Ok? ==> |r.value.layers| == numLayers && |r.value.cryo| == CryoParts
  {
    if |items| == 0 then Ok(Sums(Zeros(numLayers), Zeros(CryoParts)))
    else
      var n := |items| - 1;
      match Accumulate(numLayers, items[..n])
      case Err(e) => Err(e)
      case Ok(s) =>
        match items[n].place
        case Err(e) => Err(e)
        case Ok(p) => AddDeposit(s, p, items[n].energy)
  }

  /** Whether a deposit is decoded and lands in an existing sum. */
  predicate Fits(numLayers: nat, it: Item)
  {
    && it.place.Ok?
    && ((it.place.value.InLayer? && it.place.value.layer < numLayers) ||
        (it.place.value.InCryostat? && it.place.value.kind < CryoParts))
  }

  predicate Accepted(cfg: Config, d: Deposit)
    requires WellFormed(cfg.layout)
  {
    Fits(cfg.numLayers, Item(Locate(cfg.layout, d.cellId), d.energy))
  }

  /** Reference sums, defined per place rather than by the loop: the energy
      of the deposits decoded to `p`, of all cryostat deposits and of all
      calorimeter deposits. */
  function EnergyAt(items: seq<Item>, p: Place): real
  {
    if |items| == 0 then 0.0
    else
      var n := |items| - 1;
      EnergyAt(items[..n], p) + (if items[n].place == Ok(p) then items[n].energy else 0.0)
  }

  function CryostatEnergy(items: seq<Item>): real
  {
    if |items| == 0 then 0.0
    else
      var n := |items| - 1;
      var r := items[n].place;
      CryostatEnergy(items[..n]) + (if r.Ok? && r.value.InCryostat? then items[n].energy else 0.0)
  }

  function LayerEnergy(items: seq<Item>): real
  {
    if |items| == 0 then 0.0
    else
      var n := |items| - 1;
      var r := items[n].place;
      LayerEnergy(items[..n]) + (if r.Ok? && r.value.InLayer? then items[n].energy else 0.0)
  }

  /** The loop succeeds exactly when every deposit fits. */
  lemma {:induction false} AccumulateSucceeds(numLayers: nat, items: seq<Item>)
    ensures Accumulate(numLayers, items).Ok? <==> forall i :: 0 <= i < |items| ==> Fits(numLayers, items[i])
  {
    if |items| > 0 {
      var n := |items| - 1;
      AccumulateSucceeds(numLayers, items[..n]);
      if Accumulate(numLayers, items[..n]).Err? {
        var i :| 0 <= i < n && !Fits(numLayers, items[..n][i]);
        assert items[i] == items[..n][i];
      } else {
        assert forall i :: 0 <= i < n ==> items[i] == items[..n][i];
      }
    }
  }

  /** Each layer sum is the reference sum of its layer. */
  lemma {:induction false} AccumulateLayers(numLayers: nat, items: seq<Item>)
    requires Accumulate(numLayers, items).Ok?
    ensures forall i :: 0 <= i < numLayers ==> Accumulate(numLayers, items).value.layers[i] == EnergyAt(items, InLayer(i))
  {
    if |items| > 0 {
      AccumulateLayers(numLayers, items[..|items| - 1]);
    }
  }

  /** The whole-cryostat sum counts every cryostat deposit, and the type-0
      ones a second time; each other part is its reference sum. */
  lemma {:induction false} AccumulateCryostat(numLayers: nat, items: seq<Item>)
    requires Accumulate(numLayers, items).Ok?
    ensures Accumulate(numLayers, items).value.cryo[0] == CryostatEnergy(items) + EnergyAt(items, InCryostat(0))
    ensures forall t :: 1 <= t < CryoParts ==> Accumulate(numLayers, items).value.cryo[t] == EnergyAt(items, InCryostat(t))
  {
    if |items| > 0 {
      AccumulateCryostat(numLayers, items[..|items| - 1]);
    }
  }

  /** The cryostat sums as reported: the whole-cryostat entry counts every
      cryostat deposit plus the type-0 ones again, and each other entry the
      deposits of its part. */
  predicate CryostatSums(items: seq<Item>, cryo: seq<real>)
  {
    && |cryo| == CryoParts
    && cryo[0] == CryostatEnergy(items) + EnergyAt(items, InCryostat(0))
    && forall t :: 1 <= t < CryoParts ==> cryo[t] == EnergyAt(items, InCryostat(t))
  }

  /** The layer sums add up to the energy of all calorimeter deposits. */
  lemma {:induction false} AccumulateTotal(numLayers: nat, items: seq<Item>)
    requires Accumulate(numLayers, items).Ok?
    ensures Sum(Accumulate(numLayers, items).value.layers) == LayerEnergy(items)
  {
    if |items| == 0 {
      ZerosSum(numLayers);
    } else {
      var n := |items| - 1;
      AccumulateTotal(numLayers, items[..n]);
      var s := Accumulate(numLayers, items[..n]).value;
      var p := items[n].place.value;
      if p.InLayer? {
        SumUpdate(s.layers, p.layer, items[n].energy);
      }
    }
  }

  lemma {:induction false} ZerosSum(n: nat)
    ensures Sum(Zeros(n)) == 0.0
  {
    if n > 0 {
      assert Zeros(n)[..n - 1] == Zeros(n - 1);
      ZerosSum(n - 1);
    }
  }

  /** A layer sum divided by its sampling fraction. */
  function Calibrate(e: real, fraction: real): real
    requires fraction != 0.0
  {
    e / fraction
  }

  /** The outputs of an event. */
  datatype Output = Output(layers: seq<real>, cryo: seq<real>, particle: seq<real>, calo: real)

  /** `execute`: the first generated particle's mass and momentum, the
      calibrated layer sums, the cryostat sums and the calorimeter total. */
  function Execute(cfg: Config, particles: seq<Particle>, ds: seq<Deposit>): (r: Result<Output, ExecError>)
    requires Valid(cfg)
    ensures |particles| == 0 <==> r == Err(NoInitialParticle)
    ensures r.Ok? <==> |particles| > 0 && forall d :: d in ds ==> Accepted(cfg, d)
    ensures r.Ok? ==>
              var p := particles[0];
              && r.value.particle == [p.mass, p.momentum.x, p.momentum.y, p.momentum.z]
              && |r.value.layers| == cfg.numLayers && |r.value.cryo| == CryoParts
              && (forall i :: 0 <= i < cfg.numLayers ==>
                    r.value.layers[i] == Calibrate(EnergyAt(Items(cfg, ds), InLayer(i)), cfg.samplingFractions[i]))
              && CryostatSums(Items(cfg, ds), r.value.cryo)
              && r.value.calo == Sum(r.value.layers)
  {
    if |particles| == 0 then Err(NoInitialParticle)
    else
      var items := Items(cfg, ds);
      ItemsFit(cfg, ds);
      match Accumulate(cfg.numLayers, items)
      case Err(e) =>
        assert e != NoInitialParticle by { AccumulateNeverParticle(cfg, ds); }
        Err(e)
      case Ok(s) =>
        AccumulateLayers(cfg.numLayers, items);
        AccumulateCryostat(cfg.numLayers, items);
        var p := particles[0];
        var layers := seq(cfg.numLayers, i requires 0 <= i < cfg.numLayers => Calibrate(s.layers[i], cfg.samplingFractions[i]));
        Ok(Output(layers, s.cryo, [p.mass, p.momentum.x, p.momentum.y, p.momentum.z], Sum(layers)))
  }

  /** The loop succeeds exactly when every deposit is accepted. */
  lemma ItemsFit(cfg: Config, ds: seq<Deposit>)
    requires WellFormed(cfg.layout)
    ensures Accumulate(cfg.numLayers, Items(cfg, ds)).Ok? <==> forall d :: d in ds ==> Accepted(cfg, d)
  {
    var items := Items(cfg, ds);
    AccumulateSucceeds(cfg.numLayers, items);
    assert forall d :: d in ds ==> exists i :: 0 <= i < |ds| && ds[i] == d;
    assert forall i :: 0 <= i < |ds| ==> ds[i] in ds;
  }

  /** Decoding never reports a missing particle, so neither does the loop. */
  lemma {:induction false} AccumulateNeverParticle(cfg: Config, ds: seq<Deposit>)
    requires WellFormed(cfg.layout)
    ensures Accumulate(cfg.numLayers, Items(cfg, ds)) != Err(NoInitialParticle)
  {
    if |ds| > 0 {
      var n := |ds| - 1;
      assert Items(cfg, ds)[..n] == Items(cfg, ds[..n]);
      AccumulateNeverParticle(cfg, ds[..n]);
    }
  }

  /** With every sampling fraction 1 the calorimeter total is the energy
      of all calorimeter deposits. */
  lemma UnitFractionsTotal(cfg: Config, particles: seq<Particle>, ds: seq<Deposit>)
    requires Valid(cfg) && forall i :: 0 <= i < cfg.numLayers ==> cfg.samplingFractions[i] == 1.0
    requires Execute(cfg, particles, ds).Ok?
    ensures Execute(cfg, particles, ds).value.calo == LayerEnergy(Items(cfg, ds))
  {
    var items := Items(cfg, ds);
    AccumulateSucceeds(cfg.numLayers, items);
    assert forall i :: 0 <= i < |items| ==> Fits(cfg.numLayers, items[i]) by {
      assert forall i :: 0 <= i < |ds| ==> ds[i] in ds;
    }
    AccumulateTotal(cfg.numLayers, items);
    var s := Accumulate(cfg.numLayers, items).value;
    assert Execute(cfg, particles, ds).value.layers == s.layers;
  }
}

=== FILE: grid_axis.dfy ===
/** One axis of a regular field map: its extent, node count and the mapping
    between coordinates and node indices, as both field maps build and read
    them. Arithmetic is over the reals. */
module GridAxis {

  function Min(s: seq<real>): (m: real)
    requires |s| > 0
    ensures m in s && forall i :: 0 <= i < |s| ==> m <= s[i]
  {
    if |s| == 1 then s[0]
    else
      var rest := Min(s[1..]);
      assert forall i :: 1 <= i < |s| ==> s[i] == s[1..][i - 1];
      if s[0] <= rest then s[0] else rest
  }

  function Max(s: seq<real>): (m: real)
    requires |s| > 0
    ensures m in s && forall i :: 0 <= i < |s| ==> s[i] <= m
  {
    if |s| == 1 then s[0]
    else
      var rest := Max(s[1..]);
      assert forall i :: 1 <= i < |s| ==> s[i] == s[1..][i - 1];
      if s[0] >= rest then s[0] else rest
  }

  function AbsReal(x: real): (r: real)
    ensures r >= 0.0 && (r == x || r == -x)
  {
    if x < 0.0 then -x else x
  }

  /** `std::round` of a non-negative value: halves round up. */
  function Round(x: real): (n: int)
    requires x >= 0.0
    ensures n >= 0
    ensures n as real - 0.5 <= x < n as real + 0.5
  {
    (x + 0.5).Floor
  }

  /** The step guess: the distance between the first two adjacent
      coordinates that differ, or -1 when all coordinates are equal. */
  function InferStep(s: seq<real>): (step: real)
    ensures step == -1.0 <==> forall i :: 0 <= i < |s| - 1 ==> s[i] == s[i + 1]
    ensures step != -1.0 ==> step > 0.0 && exists i :: FirstDifferAt(s, i) && step == AbsReal(s[i] - s[i + 1])
  {
    if |s| < 2 then -1.0
    else if s[0] != s[1] then AbsReal(s[0] - s[1])
    else
      var rest := InferStep(s[1..]);
      TailAdjacent(s, s[1..]);
      if rest != -1.0 then TailStep(s, s[1..], rest); rest else rest
  }

  /** The adjacent pairs of `s[1..]` are those of `s` after the first. */
  lemma TailAdjacent(s: seq<real>, t: seq<real>)
    requires |s| >= 2 && s[0] == s[1] && t == s[1..]
    ensures (forall i :: 0 <= i < |s| - 1 ==> s[i] == s[i + 1]) <==>
            (forall i :: 0 <= i < |t| - 1 ==> t[i] == t[i + 1])
  {
    assert forall i :: 0 <= i < |t| ==> t[i] == s[i + 1];
    if forall i :: 0 <= i < |t| - 1 ==> t[i] == t[i + 1] {
      forall i | 0 <= i < |s| - 1
        ensures s[i] == s[i + 1]
      {
        if i > 0 {
          assert t[i - 1] == t[i];
        }
      }
    }
  }

  /** Position i holds the first pair of adjacent coordinates that differ,
      where the loop breaks. */
  predicate FirstDifferAt(s: seq<real>, i: int)
  {
    0 <= i < |s| - 1 && s[i] != s[i + 1] && forall j :: 0 <= j < i ==> s[j] == s[j + 1]
  }

  /** The first differing pair of `s[1..]` is the first of `s` when s[0] == s[1]. */
  lemma TailStep(s: seq<real>, t: seq<real>, step: real)
    requires |s| >= 2 && s[0] == s[1] && t == s[1..]
    requires exists i :: FirstDifferAt(t, i) && step == AbsReal(t[i] - t[i + 1])
    ensures exists i :: FirstDifferAt(s, i) && step == AbsReal(s[i] - s[i + 1])
  {
    var i :| FirstDifferAt(t, i) && step == AbsReal(t[i] - t[i + 1]);
    assert t[i] == s[i + 1] && t[i + 1] == s[i + 2];
    forall j | 0 <= j < i + 1
      ensures s[j] == s[j + 1]
    {
      if j > 0 {
        assert t[j - 1] == t[j];
      }
    }
    assert FirstDifferAt(s, i + 1);
  }

  /** The coordinates are not all equal: the map has an extent on this axis.
      Otherwise the width is 0 and filling the map divides 0 by 0. */
  predicate Spread(s: seq<real>)
  {
    |s| > 0 && Min(s) < Max(s)
  }

  /** A coordinate list that is spread has two adjacent coordinates that
      differ, so a step is found. */
  lemma {:induction false} SpreadHasStep(s: seq<real>)
    requires Spread(s)
    ensures InferStep(s) != -1.0
  {
    if InferStep(s) == -1.0 {
      var lo :| 0 <= lo < |s| && s[lo] == Min(s);
      var hi :| 0 <= hi < |s| && s[hi] == Max(s);
      AllEqual(s, lo);
      AllEqual(s, hi);
    }
  }

  lemma {:induction false} AllEqual(s: seq<real>, k: nat)
    requires |s| > 0 && forall i :: 0 <= i < |s| - 1 ==> s[i] == s[i + 1]
    requires k < |s|
    ensures s[k] == s[0]
  {
    if k > 0 {
      AllEqual(s, k - 1);
    }
  }

  /** An axis: extent and number of nodes. */
  datatype Axis = Axis(min: real, max: real, n: nat)

  predicate ValidAxis(a: Axis)
  {
    a.min < a.max && a.n >= 2
  }

  function Width(a: Axis): real
  {
    a.max - a.min
  }

  /** `n = round(width / step + 1)`: the step never exceeds the width, so an
      axis with an extent has at least two nodes. */
  function BuildAxis(s: seq<real>): (a: Axis)
    requires Spread(s)
    ensures ValidAxis(a)
    ensures a.min == Min(s) && a.max == Max(s)
  {
    StepWithinWidth(s);
    Axis(Min(s), Max(s), NodeCount(Max(s) - Min(s), InferStep(s)))
  }

  /** `round(width / step + 1)`. */
  function NodeCount(w: real, step: real): (n: nat)
    requires 0.0 < step <= w
    ensures n >= 2
  {
    AtLeastTwoNodes(w, step);
    Round(w / step + 1.0)
  }

  /** The step guessed from a spread list lies in (0, width]. */
  lemma StepWithinWidth(s: seq<real>)
    requires Spread(s)
    ensures 0.0 < InferStep(s) <= Max(s) - Min(s)
  {
    SpreadHasStep(s);
    StepBounded(s, Min(s), Max(s));
  }

  /** A step found in a list of coordinates within [lo, hi] is at most
      hi - lo. */
  lemma {:induction false} StepBounded(s: seq<real>, lo: real, hi: real)
    requires forall i :: 0 <= i < |s| ==> lo <= s[i] <= hi
    ensures InferStep(s) != -1.0 ==> InferStep(s) <= hi - lo
  {
    if |s| >= 2 {
      if s[0] != s[1] {
        AbsWithin(s[0], s[1], lo, hi);
      } else {
        var t := s[1..];
        assert forall i :: 0 <= i < |t| ==> t[i] == s[i + 1];
        StepBounded(t, lo, hi);
      }
    }
  }

  lemma AbsWithin(a: real, b: real, lo: real, hi: real)
    requires lo <= a <= hi && lo <= b <= hi
    ensures AbsReal(a - b) <= hi - lo
  {
  }

  lemma AtLeastTwoNodes(w: real, step: real)
    requires 0.0 < step <= w
    ensures w / step + 1.0 >= 0.0 && Round(w / step + 1.0) >= 2
  {
    assert w / step >= 1.0;
  }

  /** A coordinate inside the axis' extent. */
  predicate Inside(a: Axis, c: real)
  {
    a.min <= c <= a.max
  }

  /** Position of a coordinate in units of the node spacing, computed as
      the lookup does: fraction of the width, times the number of gaps. */
  function Scaled(a: Axis, c: real): (t: real)
    requires ValidAxis(a) && Inside(a, c)
    ensures 0.0 <= t <= (a.n - 1) as real
    ensures t == (a.n - 1) as real <==> c == a.max
  {
    var fraction := (c - a.min) / Width(a);
    FractionBounds(c - a.min, Width(a));
    ScaleBounds(fraction, (a.n - 1) as real);
    fraction * (a.n - 1) as real
  }

  lemma FractionBounds(d: real, w: real)
    requires 0.0 <= d <= w && w > 0.0
    ensures 0.0 <= d / w <= 1.0
    ensures d / w == 1.0 <==> d == w
  {
  }

  lemma ScaleBounds(f: real, k: real)
    requires 0.0 <= f <= 1.0 && k > 0.0
    ensures 0.0 <= f * k <= k
    ensures f * k == k <==> f == 1.0
  {
    if f < 1.0 {
      assert f * k < 1.0 * k;
    }
  }

  /** Every coordinate of the list lies inside the axis built from it. */
  lemma MemberInside(s: seq<real>, i: nat)
    requires Spread(s) && i < |s|
    ensures Inside(BuildAxis(s), s[i])
  {
  }

  /** Position of a map entry in units of the node spacing, computed as the
      filling does: `(c - min) * (n - 1) / width`. Over the reals it agrees
      with the lookup's order of operations. */
  function FillPosition(a: Axis, c: real): (t: real)
    requires ValidAxis(a) && Inside(a, c)
    ensures t == Scaled(a, c)
  {
    (c - a.min) * (a.n - 1) as real / Width(a)
  }

  /** The node a map entry is stored at: the integer part of its fill
      position. A coordinate of the list is inside the extent, so the index
      is a node of the axis. */
  function NodeIndex(a: Axis, c: real): (i: nat)
    requires ValidAxis(a) && Inside(a, c)
    ensures i < a.n
    ensures i as real <= FillPosition(a, c) < i as real + 1.0
  {
    FillPosition(a, c).Floor
  }

  /** `std::modf` of a non-negative value: integer part and fraction. */
  datatype Split = Split(index: nat, local: real)

  function Modf(t: real): (s: Split)
    requires t >= 0.0
    ensures s.index as real + s.local == t && 0.0 <= s.local < 1.0
  {
    Split(t.Floor, t - t.Floor as real)
  }

  /** The lookup cell of a coordinate, as written: lower node and weight of
      the upper node. */
  function Locate(a: Axis, c: real): (s: Split)
    requires ValidAxis(a) && Inside(a, c)
    ensures s.index < a.n && 0.0 <= s.local < 1.0
    ensures s.index + 1 < a.n <==> c < a.max
  {
    var t := Scaled(a, c);
    Modf(t)
  }

  /** The lookup cell with the lower node kept below the last node, so that
      the upper node always exists; on the last node the weight is 1. */
  function LocateClamped(a: Axis, c: real): (s: Split)
    requires ValidAxis(a) && Inside(a, c)
    ensures s.index + 1 < a.n && 0.0 <= s.local <= 1.0
    ensures c < a.max ==> s == Locate(a, c)
    ensures c == a.max ==> s == Split(a.n - 2, 1.0)
  {
    var s := Locate(a, c);
    if s.index + 1 < a.n then s else Split(a.n - 2, 1.0)
  }

  /** The coordinate of node i. */
  function NodeCoordinate(a: Axis, i: nat): real
    requires ValidAxis(a)
  {
    a.min + (i as real * Width(a)) / ((a.n - 1) as real)
  }

  /** Node coordinates round-trip: a node's coordinate is inside the extent,
      filling stores it at that node, and looking it up lands on that node
      with weight 0 (or, for the last node, on the cell below it with
      weight 1). */
  lemma NodeRoundTrip(a: Axis, i: nat)
    requires ValidAxis(a) && i < a.n
    ensures Inside(a, NodeCoordinate(a, i))
    ensures NodeIndex(a, NodeCoordinate(a, i)) == i
    ensures i + 1 < a.n ==> Locate(a, NodeCoordinate(a, i)) == Split(i, 0.0)
    ensures i + 1 == a.n ==> LocateClamped(a, NodeCoordinate(a, i)) == Split(i - 1, 1.0)
  {
    NodeScaled(a, i);
    NodeFill(a, i);
    var c := NodeCoordinate(a, i);
    if i + 1 == a.n {
      assert c == a.max;
    }
  }

  /** A lookup split lands on node i: node i itself with weight 0, or the
      node below it with weight 1. */
  predicate OnNode(sp: Split, i: nat)
  {
    (sp.local == 0.0 && sp.index == i) || (sp.local == 1.0 && sp.index + 1 == i)
  }

  /** The clamped lookup of a node's coordinate lands on that node. */
  lemma LocateNode(a: Axis, i: nat)
    requires ValidAxis(a) && i < a.n
    ensures Inside(a, NodeCoordinate(a, i))
    ensures OnNode(LocateClamped(a, NodeCoordinate(a, i)), i)
  {
    NodeRoundTrip(a, i);
  }

  lemma NodeOffset(a: Axis, i: nat)
    requires ValidAxis(a) && i < a.n
    ensures var d := NodeCoordinate(a, i) - a.min;
            d == (i as real * Width(a)) / ((a.n - 1) as real) && 0.0 <= d <= Width(a)
            && (d == Width(a) <==> i + 1 == a.n)
  {
    FractionOfWidth(i, a.n, Width(a));
  }

  /** i/(n-1) of a positive width, for a node i < n, lies in [0, width] and
      reaches the width exactly at the last node. */
  lemma FractionOfWidth(i: nat, n: nat, w: real)
    requires i < n && n >= 2 && w > 0.0
    ensures var x := (i as real * w) / ((n - 1) as real);
            0.0 <= x <= w && (x == w <==> i + 1 == n)
  {
    var k := (n - 1) as real;
    var x := (i as real * w) / k;
    Cancel(i as real, w, k);
    if i + 1 < n {
      assert i as real < k;
    } else {
      assert i as real == k;
    }
  }

  lemma NodeScaled(a: Axis, i: nat)
    requires ValidAxis(a) && i < a.n
    ensures Inside(a, NodeCoordinate(a, i))
    ensures Scaled(a, NodeCoordinate(a, i)) == i as real
  {
    NodeOffset(a, i);
    CancelOffset(NodeCoordinate(a, i) - a.min, i as real, Width(a), (a.n - 1) as real);
  }

  lemma NodeFill(a: Axis, i: nat)
    requires ValidAxis(a) && i < a.n
    ensures Inside(a, NodeCoordinate(a, i))
    ensures NodeIndex(a, NodeCoordinate(a, i)) == i
  {
    var c := NodeCoordinate(a, i);
    NodeScaled(a, i);
    FloorIdentity(FillPosition(a, c), NodeIndex(a, c), i);
  }

  lemma FloorIdentity(t: real, j: int, i: int)
    requires t == i as real && j as real <= t < j as real + 1.0
    ensures j == i
  {
  }

  lemma CancelOffset(d: real, i: real, w: real, k: real)
    requires w > 0.0 && k > 0.0 && d == (i * w) / k
    ensures d * k / w == i && d / w * k == i
  {
    Cancel(i, w, k);
  }

  /** Spreading i gaps over the width and measuring back gives i again. */
  lemma Cancel(i: real, w: real, k: real)
    requires w > 0.0 && k > 0.0
    ensures i * w / k * k / w == i
    ensures i * w / k / w * k == i
    ensures 0.0 <= i <= k ==> 0.0 <= i * w / k <= w
    ensures i < k ==> i * w / k < w
    ensures i == k ==> i * w / k == w
  {
    var d := i * w / k;
    assert d * k == i * w;
    assert d / w == i / k;
  }
}

=== FILE: grids.dfy ===
/** Storage of a regular field map: the nodes written while filling it.
    A node never written holds the zero the map was prepared with. */
module Grids {

  /** Writing `vals[i]` at `keys[i]` for i = 0, 1, ... in turn. */
  function Fill<K(==, !new), V>(keys: seq<K>, vals: seq<V>): (m: map<K, V>)
    requires |keys| == |vals|
    ensures forall k :: k in m <==> k in keys
  {
    if |keys| == 0 then map[]
    else
      var n := |keys| - 1;
      var before := Fill(keys[..n], vals[..n]);
      assert forall k :: k in keys <==> k in keys[..n] || k == keys[n];
      before[keys[n] := vals[n]]
  }

  /** Position j is the last write to its key. */
  predicate LastWrite<K(==)>(keys: seq<K>, j: nat)
    requires j < |keys|
  {
    forall j' :: j < j' < |keys| ==> keys[j'] != keys[j]
  }

  /** Later writes overwrite earlier ones: a key holds the value of its last
      write. */
  lemma {:induction false} LastWriteWins<K(!new), V>(keys: seq<K>, vals: seq<V>, j: nat)
    requires |keys| == |vals| && j < |keys| && LastWrite(keys, j)
    ensures keys[j] in Fill(keys, vals) && Fill(keys, vals)[keys[j]] == vals[j]
  {
    var n := |keys| - 1;
    if j < n {
      assert LastWrite(keys[..n], j);
      LastWriteWins(keys[..n], vals[..n], j);
    }
  }

  /** Every key written has a last write. */
  lemma {:induction false} HasLastWrite<K>(keys: seq<K>, j: nat) returns (last: nat)
    requires j < |keys|
    ensures j <= last < |keys| && keys[last] == keys[j] && LastWrite(keys, last)
    decreases |keys| - j
  {
    if LastWrite(keys, j) {
      last := j;
    } else {
      var j' :| j < j' < |keys| && keys[j'] == keys[j];
      last := HasLastWrite(keys, j');
    }
  }
}

=== FILE: hits.dfy ===
/** Hit records of the event data model that the identifier transforms read
    and write. Energies, times and positions are reals. */
module Hits {
  import opened BitField
  import opened Vectors

  /** A calorimeter hit: cell identifier, energy and its error, position,
      type word and time. */
  datatype CaloHit = CaloHit(cellId: CellId, energy: real, energyError: real, position: Vec3, hitType: int, time: real)

  /** A simulated calorimeter hit as the re-segmentation fills it: only the
      identifier and the energy are set. */
  datatype SimCaloHit = SimCaloHit(cellId: CellId, energy: real)

  /** A new hit with only cell identifier, energy and time set; every other
      attribute keeps its default of zero. */
  function EnergyTimeHit(cellId: CellId, energy: real, time: real): CaloHit
  {
    CaloHit(cellId, energy, 0.0, Zero, 0, time)
  }

  /** The two hits agree on everything except possibly the cell identifier. */
  predicate SamePayload(a: CaloHit, b: CaloHit)
  {
    a.energy == b.energy && a.energyError == b.energyError && a.position == b.position
    && a.hitType == b.hitType && a.time == b.time
  }
}

=== FILE: intarith.dfy ===
/** Integer arithmetic as the C++ code performs it: powers of two, division
    that truncates toward zero, and the wrap-around of conversions to 32-bit
    types. Dafny's own `/` and `%` are Euclidean, so none of these is `/`. */
module IntArith {

  /** 2^n. */
  function Pow2(n: nat): (r: nat)
    ensures r >= 1
  {
    if n == 0 then 1 else 2 * Pow2(n - 1)
  }

  lemma {:induction false} Pow2Monotone(a: nat, b: nat)
    requires a <= b
    ensures Pow2(a) <= Pow2(b)
  {
    if a < b {
      Pow2Monotone(a, b - 1);
    }
  }

  /** The powers behind the 32-bit limits, written as literals elsewhere. */
  lemma Pow2Literals()
    ensures Pow2(30) == 0x4000_0000 && Pow2(31) == 0x8000_0000 && Pow2(32) == 0x1_0000_0000
  {
    assert Pow2(5) == 32;
    Pow2Add(5, 5);
    assert Pow2(10) == 1024;
    Pow2Add(10, 10);
    assert Pow2(20) == 0x10_0000;
    Pow2Add(20, 10);
    assert Pow2(30) == 0x4000_0000;
    assert Pow2(31) == 2 * Pow2(30);
    assert Pow2(32) == 2 * Pow2(31);
  }

  lemma {:induction false} Pow2Add(a: nat, b: nat)
    ensures Pow2(a + b) == Pow2(a) * Pow2(b)
  {
    if b > 0 {
      Pow2Add(a, b - 1);
      assert Pow2(a + b) == 2 * Pow2(a + b - 1);
    }
  }

  function Abs(x: int): nat
  {
    if x < 0 then -x else x
  }

  /** Euclidean division of naturals brackets the dividend. */
  lemma DivBrackets(a: nat, b: nat)
    requires b > 0
    ensures (a / b) * b <= a < (a / b + 1) * b
  {
    var q, r := a / b, a % b;
    assert a == q * b + r && 0 <= r < b;
    assert (q + 1) * b == q * b + b;
  }

  /** Division of naturals (where every rounding convention agrees). */
  function DivNat(x: nat, y: nat): nat
    requires y > 0
  {
    x / y
  }

  /** C++ `a / b` on integers: the quotient rounded toward zero. */
  function TruncDiv(a: int, b: int): (q: int)
    requires b != 0
    ensures Abs(q) == DivNat(Abs(a), Abs(b))
    ensures q != 0 ==> ((q > 0) <==> ((a > 0) == (b > 0)))
  {
    var m: nat := DivNat(Abs(a), Abs(b));
    if (a < 0) == (b < 0) then m else -(m as int)
  }

  /** The truncated quotient brackets the dividend's magnitude. */
  lemma TruncDivBrackets(a: int, b: int)
    requires b != 0
    ensures Abs(TruncDiv(a, b)) * Abs(b) <= Abs(a) < (Abs(TruncDiv(a, b)) + 1) * Abs(b)
  {
    DivBrackets(Abs(a), Abs(b));
  }

  /** Negating the dividend negates the truncated quotient (Euclidean
      division does not have this symmetry). */
  lemma TruncDivOdd(a: int, b: int)
    requires b != 0
    ensures TruncDiv(-a, b) == -TruncDiv(a, b)
  {
  }

  /** A value already in [0, m) is its own remainder. */
  lemma ModIdentity(x: int, m: int)
    requires 0 <= x < m
    ensures x % m == x
  {
  }

  /** Conversion of a mathematical integer to a C++ `int` (32-bit two's
      complement): the value in [-2^31, 2^31) congruent to x modulo 2^32. */
  function Wrap32(x: int): (r: int)
    ensures -0x8000_0000 <= r < 0x8000_0000
    ensures -0x8000_0000 <= x < 0x8000_0000 ==> r == x
  {
    var h: int := 0x8000_0000;
    var m: int := 0x1_0000_0000;
    if -h <= x < h then ModIdentity(x + h, m); (x + h) % m - h
    else (x + h) % m - h
  }

  /** Conversion to a C++ `unsigned int`: the value in [0, 2^32) congruent
      to x modulo 2^32. */
  function WrapU32(x: int): (r: nat)
    ensures r < 0x1_0000_0000
    ensures 0 <= x < 0x1_0000_0000 ==> r == x
  {
    if 0 <= x < 0x1_0000_0000 then ModIdentity(x, 0x1_0000_0000); x % 0x1_0000_0000
    else x % 0x1_0000_0000
  }

  /** `int(n)` of an unsigned value other than 0 is not 0. */
  lemma Wrap32NonZero(n: nat)
    requires 0 < n < 0x1_0000_0000
    ensures Wrap32(n) != 0
  {
    var h: int := 0x8000_0000;
    var m: int := 0x1_0000_0000;
    if n >= h {
      ModSubtract(n + h, m);
    }
  }

  /** A value in [m, 2m) has remainder x - m. */
  lemma ModSubtract(x: int, m: int)
    requires 0 < m <= x < 2 * m
    ensures x % m == x - m
  {
  }

  /** A C++ `unsigned int` value. */
  type UInt32 = n: nat | n < 0x1_0000_0000
}

=== FILE: interpolation.dfy ===
/** The interpolation formulas of the field maps, written out as the sums
    of weighted corner values the code evaluates, and their reference
    definitions as repeated linear interpolation. */
module Interpolation {

  /** Linear interpolation from `a` (t = 0) to `b` (t = 1). */
  function Lerp(a: real, b: real, t: real): real
  {
    (1.0 - t) * a + t * b
  }

  function Min2(a: real, b: real): real { if a <= b then a else b }
  function Max2(a: real, b: real): real { if a <= b then b else a }

  /** For a weight in [0, 1] the interpolated value lies between the two. */
  lemma LerpBetween(a: real, b: real, t: real)
    requires 0.0 <= t <= 1.0
    ensures Min2(a, b) <= Lerp(a, b, t) <= Max2(a, b)
  {
    assert Lerp(a, b, t) == a + t * (b - a);
    if a <= b {
      MulNonNegative(t, b - a);
      MulNonNegative(1.0 - t, b - a);
    } else {
      MulNonNegative(t, a - b);
      MulNonNegative(1.0 - t, a - b);
    }
  }

  lemma MulNonNegative(x: real, y: real)
    requires x >= 0.0 && y >= 0.0
    ensures x * y >= 0.0
  {
  }

  /** The four corner values of a bilinear cell, first index r then z. */
  datatype Square = Square(c00: real, c01: real, c10: real, c11: real)

  /** The bilinear sum as written: four corners, each weighted by the
      product of its distances to the opposite corner. */
  function Bilinear(s: Square, lr: real, lz: real): real
  {
    s.c00 * (1.0 - lr) * (1.0 - lz) +
    s.c01 * (1.0 - lr) * lz +
    s.c10 * lr * (1.0 - lz) +
    s.c11 * lr * lz
  }

  /** The bilinear sum is interpolation along z, then along r. */
  lemma BilinearIsNestedLerp(s: Square, lr: real, lz: real)
    ensures Bilinear(s, lr, lz) == Lerp(Lerp(s.c00, s.c01, lz), Lerp(s.c10, s.c11, lz), lr)
  {
    assert s.c00 * (1.0 - lr) * (1.0 - lz) + s.c01 * (1.0 - lr) * lz == (1.0 - lr) * Lerp(s.c00, s.c01, lz);
    assert s.c10 * lr * (1.0 - lz) + s.c11 * lr * lz == lr * Lerp(s.c10, s.c11, lz);
  }

  /** The eight corner values of a trilinear cell, indices x, y, z. */
  datatype Cube = Cube(
    c000: real, c001: real, c010: real, c011: real,
    c100: real, c101: real, c110: real, c111: real)

  /** The trilinear sum as written, in the code's order of terms. */
  function Trilinear(c: Cube, lx: real, ly: real, lz: real): real
  {
    c.c000 * (1.0 - lx) * (1.0 - ly) * (1.0 - lz) +
    c.c001 * (1.0 - lx) * (1.0 - ly) * lz +
    c.c010 * (1.0 - lx) * ly * (1.0 - lz) +
    c.c011 * (1.0 - lx) * ly * lz +
    c.c100 * lx * (1.0 - ly) * (1.0 - lz) +
    c.c101 * lx * (1.0 - ly) * lz +
    c.c110 * lx * ly * (1.0 - lz) +
    c.c111 * lx * ly * lz
  }

  /** The two faces of a cube at x = 0 and x = 1. */
  function FaceX0(c: Cube): Square { Square(c.c000, c.c001, c.c010, c.c011) }
  function FaceX1(c: Cube): Square { Square(c.c100, c.c101, c.c110, c.c111) }

  /** The trilinear sum is bilinear interpolation on both x faces, then
      linear interpolation along x. */
  lemma TrilinearIsNestedLerp(c: Cube, lx: real, ly: real, lz: real)
    ensures Trilinear(c, lx, ly, lz) == Lerp(Bilinear(FaceX0(c), ly, lz), Bilinear(FaceX1(c), ly, lz), lx)
  {
    var f0 := Bilinear(FaceX0(c), ly, lz);
    var f1 := Bilinear(FaceX1(c), ly, lz);
    assert c.c000 * (1.0 - lx) * (1.0 - ly) * (1.0 - lz) + c.c001 * (1.0 - lx) * (1.0 - ly) * lz +
           c.c010 * (1.0 - lx) * ly * (1.0 - lz) + c.c011 * (1.0 - lx) * ly * lz == (1.0 - lx) * f0;
    assert c.c100 * lx * (1.0 - ly) * (1.0 - lz) + c.c101 * lx * (1.0 - ly) * lz +
           c.c110 * lx * ly * (1.0 - lz) + c.c111 * lx * ly * lz == lx * f1;
  }

  predicate SquareWithin(s: Square, lo: real, hi: real)
  {
    lo <= s.c00 <= hi && lo <= s.c01 <= hi && lo <= s.c10 <= hi && lo <= s.c11 <= hi
  }

  /** With weights in [0, 1] the bilinear value stays within any bounds of
      its corners. */
  lemma BilinearWithin(s: Square, lr: real, lz: real, lo: real, hi: real)
    requires 0.0 <= lr <= 1.0 && 0.0 <= lz <= 1.0 && SquareWithin(s, lo, hi)
    ensures lo <= Bilinear(s, lr, lz) <= hi
  {
    BilinearIsNestedLerp(s, lr, lz);
    LerpBetween(s.c00, s.c01, lz);
    LerpBetween(s.c10, s.c11, lz);
    LerpBetween(Lerp(s.c00, s.c01, lz), Lerp(s.c10, s.c11, lz), lr);
  }

  /** ... and so does the trilinear value. */
  lemma TrilinearWithin(c: Cube, lx: real, ly: real, lz: real, lo: real, hi: real)
    requires 0.0 <= lx <= 1.0 && 0.0 <= ly <= 1.0 && 0.0 <= lz <= 1.0
    requires SquareWithin(FaceX0(c), lo, hi) && SquareWithin(FaceX1(c), lo, hi)
    ensures lo <= Trilinear(c, lx, ly, lz) <= hi
  {
    TrilinearIsNestedLerp(c, lx, ly, lz);
    BilinearWithin(FaceX0(c), ly, lz, lo, hi);
    BilinearWithin(FaceX1(c), ly, lz, lo, hi);
    LerpBetween(Bilinear(FaceX0(c), ly, lz), Bilinear(FaceX1(c), ly, lz), lx);
  }

  /** A cell whose corners all hold the same value interpolates to it
      everywhere. */
  lemma TrilinearConstant(v: real, lx: real, ly: real, lz: real)
    ensures Trilinear(Cube(v, v, v, v, v, v, v, v), lx, ly, lz) == v
  {
    var c := Cube(v, v, v, v, v, v, v, v);
    TrilinearIsNestedLerp(c, lx, ly, lz);
    BilinearConstant(v, ly, lz);
  }

  lemma BilinearConstant(v: real, lr: real, lz: real)
    ensures Bilinear(Square(v, v, v, v), lr, lz) == v
  {
    BilinearIsNestedLerp(Square(v, v, v, v), lr, lz);
  }

  /** At weight 0 or 1 on every axis the sum picks out one corner. */
  lemma BilinearCorners(s: Square)
    ensures Bilinear(s, 0.0, 0.0) == s.c00 && Bilinear(s, 0.0, 1.0) == s.c01
    ensures Bilinear(s, 1.0, 0.0) == s.c10 && Bilinear(s, 1.0, 1.0) == s.c11
  {
  }

  lemma TrilinearCorners(c: Cube)
    ensures Trilinear(c, 0.0, 0.0, 0.0) == c.c000 && Trilinear(c, 0.0, 0.0, 1.0) == c.c001
    ensures Trilinear(c, 0.0, 1.0, 0.0) == c.c010 && Trilinear(c, 0.0, 1.0, 1.0) == c.c011
    ensures Trilinear(c, 1.0, 0.0, 0.0) == c.c100 && Trilinear(c, 1.0, 0.0, 1.0) == c.c101
    ensures Trilinear(c, 1.0, 1.0, 0.0) == c.c110 && Trilinear(c, 1.0, 1.0, 1.0) == c.c111
  {
  }
}

=== FILE: mag_field_probe.dfy ===
/** MagFieldProbe: probe definitions given as token lists, the first token
    naming the probe type and the rest its numbers. */
module MagFieldProbe {
  import opened Wrappers
  import opened Seqs

  datatype XYPlaneProbe = XYPlaneProbe(xMax: real, yMax: real, z: real)
  datatype ZPlaneProbe = ZPlaneProbe(zMin: real, zMax: real, rMax: real, phi: real)
  datatype CylinderProbe = CylinderProbe(r: real, zMin: real, zMax: real)

  /** The library's string-to-number conversion, left uninterpreted: None
      where it throws on a token it cannot read. */
  type Stod = string -> Option<real>

  /** What a parser does: a probe, the error flag for a definition of the
      wrong length, or an exception from a number it cannot read. */
  datatype Parse<P> = Parsed(probe: P) | WrongSize | Unreadable(token: string)

  /** The numbers of tokens 1 .. |def|-1, or the first token that cannot be
      read. */
  function Numbers(stod: Stod, tokens: seq<string>): (r: Result<seq<real>, string>)
    ensures r.Ok? <==> forall t :: t in tokens ==> stod(t).Some?
    ensures r.Ok? ==> |r.value| == |tokens| && forall i :: 0 <= i < |tokens| ==> stod(tokens[i]) == Some(r.value[i])
    ensures r.Err? ==> r.error in tokens && stod(r.error).None?
  {
    if |tokens| == 0 then Ok([])
    else
      match stod(tokens[0])
      case None => Err(tokens[0])
      case Some(x) =>
        assert forall t :: t in tokens <==> t == tokens[0] || t in tokens[1..];
        match Numbers(stod, tokens[1..])
        case Err(t) => Err(t)
        case Ok(xs) => Ok([x] + xs)
  }

  /** Reading a definition of `size` tokens. */
  function Fields(stod: Stod, def: seq<string>, size: nat): (r: Parse<seq<real>>)
    requires size >= 1
    ensures r == WrongSize <==> |def| != size
    ensures r.Parsed? ==> |r.probe| == size - 1 && forall i :: 1 <= i < size ==> stod(def[i]) == Some(r.probe[i - 1])
    ensures r.Unreadable? ==> r.token in def[1..] && stod(r.token).None?
  {
    if |def| != size then WrongSize
    else
      match Numbers(stod, def[1..])
      case Err(t) => Unreadable(t)
      case Ok(xs) => Parsed(xs)
  }

  function ParseXYPlane(stod: Stod, def: seq<string>): (r: Parse<XYPlaneProbe>)
    ensures r == WrongSize <==> |def| != 4
    ensures r.Parsed? ==> stod(def[1]) == Some(r.probe.xMax) && stod(def[2]) == Some(r.probe.yMax) && stod(def[3]) == Some(r.probe.z)
    ensures |def| == 4 && (forall i :: 1 <= i < 4 ==> stod(def[i]).Some?) ==> r.Parsed?
  {
    match Fields(stod, def, 4)
    case WrongSize => WrongSize
    case Unreadable(t) => Unreadable(t)
    case Parsed(xs) => Parsed(XYPlaneProbe(xs[0], xs[1], xs[2]))
  }

  function ParseZPlane(stod: Stod, def: seq<string>): (r: Parse<ZPlaneProbe>)
    ensures r == WrongSize <==> |def| != 5
    ensures r.Parsed? ==> stod(def[1]) == Some(r.probe.zMin) && stod(def[2]) == Some(r.probe.zMax)
                          && stod(def[3]) == Some(r.probe.rMax) && stod(def[4]) == Some(r.probe.phi)
    ensures |def| == 5 && (forall i :: 1 <= i < 5 ==> stod(def[i]).Some?) ==> r.Parsed?
  {
    match Fields(stod, def, 5)
    case WrongSize => WrongSize
    case Unreadable(t) => Unreadable(t)
    case Parsed(xs) => Parsed(ZPlaneProbe(xs[0], xs[1], xs[2], xs[3]))
  }

  function ParseCylinder(stod: Stod, def: seq<string>): (r: Parse<CylinderProbe>)
    ensures r == WrongSize <==> |def| != 4
    ensures r.Parsed? ==> stod(def[1]) == Some(r.probe.r) && stod(def[2]) == Some(r.probe.zMin) && stod(def[3]) == Some(r.probe.zMax)
    ensures |def| == 4 && (forall i :: 1 <= i < 4 ==> stod(def[i]).Some?) ==> r.Parsed?
  {
    match Fields(stod, def, 4)
    case WrongSize => WrongSize
    case Unreadable(t) => Unreadable(t)
    case Parsed(xs) => Parsed(CylinderProbe(xs[0], xs[1], xs[2]))
  }

  /** The conversion used to write probes back as definitions. */
  predicate Prints(stod: Stod, token: string, x: real)
  {
    stod(token) == Some(x)
  }

  /** Parsing a definition whose tokens read as a probe's numbers gives that
      probe back. */
  lemma ParseRoundTrips(stod: Stod, ts: seq<string>, xy: XYPlaneProbe, zp: ZPlaneProbe, cyl: CylinderProbe)
    requires |ts| == 5
    ensures Prints(stod, ts[1], xy.xMax) && Prints(stod, ts[2], xy.yMax) && Prints(stod, ts[3], xy.z) ==>
              ParseXYPlane(stod, ["xyPlane"] + ts[1..4]) == Parsed(xy)
    ensures Prints(stod, ts[1], zp.zMin) && Prints(stod, ts[2], zp.zMax) && Prints(stod, ts[3], zp.rMax) && Prints(stod, ts[4], zp.phi) ==>
              ParseZPlane(stod, ["zPlane"] + ts[1..5]) == Parsed(zp)
    ensures Prints(stod, ts[1], cyl.r) && Prints(stod, ts[2], cyl.zMin) && Prints(stod, ts[3], cyl.zMax) ==>
              ParseCylinder(stod, ["Cylinder"] + ts[1..4]) == Parsed(cyl)
  {
    var d3 := ["xyPlane"] + ts[1..4];
    assert d3[1] == ts[1] && d3[2] == ts[2] && d3[3] == ts[3];
    var d4 := ["zPlane"] + ts[1..5];
    assert d4[1] == ts[1] && d4[2] == ts[2] && d4[3] == ts[3] && d4[4] == ts[4];
    var dc := ["Cylinder"] + ts[1..4];
    assert dc[1] == ts[1] && dc[2] == ts[2] && dc[3] == ts[3];
  }

  datatype Probes = Probes(xyPlanes: seq<XYPlaneProbe>, zPlanes: seq<ZPlaneProbe>, cylinders: seq<CylinderProbe>)

  const NoProbes := Probes([], [], [])

  /** One definition: skipped when empty, dispatched on its exact first
      token, and kept only when its parser reports no error. An unknown
      type yields no probe. A token that cannot be read throws. */
  function Dispatch(stod: Stod, def: seq<string>): (r: Result<Probes, string>)
    ensures |def| == 0 ==> r == Ok(NoProbes)
    ensures r.Ok? ==> |r.value.xyPlanes| + |r.value.zPlanes| + |r.value.cylinders| <= 1
    ensures r.Ok? && |r.value.xyPlanes| == 1 <==> |def| > 0 && def[0] == "xyPlane" && ParseXYPlane(stod, def).Parsed?
    ensures r.Ok? && |r.value.zPlanes| == 1 <==> |def| > 0 && def[0] == "zPlane" && ParseZPlane(stod, def).Parsed?
    ensures r.Ok? && |r.value.cylinders| == 1 <==> |def| > 0 && def[0] == "Cylinder" && ParseCylinder(stod, def).Parsed?
    ensures |def| > 0 && def[0] != "xyPlane" && def[0] != "zPlane" && def[0] != "Cylinder" ==> r == Ok(NoProbes)
  {
    if |def| == 0 then Ok(NoProbes)
    else if def[0] == "xyPlane" then
      match ParseXYPlane(stod, def)
      case Parsed(p) => Ok(Probes([p], [], []))
      case WrongSize => Ok(NoProbes)
      case Unreadable(t) => Err(t)
    else if def[0] == "zPlane" then
      match ParseZPlane(stod, def)
      case Parsed(p) => Ok(Probes([], [p], []))
      case WrongSize => Ok(NoProbes)
      case Unreadable(t) => Err(t)
    else if def[0] == "Cylinder" then
      match ParseCylinder(stod, def)
      case Parsed(p) => Ok(Probes([], [], [p]))
      case WrongSize => Ok(NoProbes)
      case Unreadable(t) => Err(t)
    else Ok(NoProbes)
  }

  function Join(a: Probes, b: Probes): Probes
  {
    Probes(a.xyPlanes + b.xyPlanes, a.zPlanes + b.zPlanes, a.cylinders + b.cylinders)
  }

  /** One result followed by another: the first exception wins, otherwise
      the probes are joined. */
  function Then(x: Result<Probes, string>, y: Result<Probes, string>): (r: Result<Probes, string>)
    ensures r.Ok? <==> x.Ok? && y.Ok?
    ensures r.Ok? ==> r.value == Join(x.value, y.value)
    ensures x.Err? ==> r == x
  {
    match x
    case Err(_) => x
    case Ok(p) =>
      match y
      case Err(t) => Err(t)
      case Ok(q) => Ok(Join(p, q))
  }

  lemma ThenAssociative(x: Result<Probes, string>, y: Result<Probes, string>, z: Result<Probes, string>)
    ensures Then(x, Then(y, z)) == Then(Then(x, y), z)
  {
    if x.Ok? && y.Ok? && z.Ok? {
      var p, q, s := x.value, y.value, z.value;
      assert Join(p, Join(q, s)) == Join(Join(p, q), s);
    }
  }

  /** Definitions' results taken in order; the first exception ends the
      loop. */
  function Combine(rs: seq<Result<Probes, string>>): Result<Probes, string>
  {
    if |rs| == 0 then Ok(NoProbes) else Then(rs[0], Combine(rs[1..]))
  }

  function Dispatched(stod: Stod, defs: seq<seq<string>>): (rs: seq<Result<Probes, string>>)
    ensures |rs| == |defs| && forall i :: 0 <= i < |defs| ==> rs[i] == Dispatch(stod, defs[i])
  {
    seq(|defs|, i requires 0 <= i < |defs| => Dispatch(stod, defs[i]))
  }

  /** The definition loop of `initialize`. */
  function Initialize(stod: Stod, defs: seq<seq<string>>): Result<Probes, string>
  {
    Combine(Dispatched(stod, defs))
  }

  /** Whether a definition's numbers are read without an exception. */
  predicate Readable(stod: Stod, def: seq<string>)
  {
    Dispatch(stod, def).Ok?
  }

  /** The probe each definition contributes to each list, if any. */
  function XYPlaneOf(stod: Stod, d: seq<string>): Option<XYPlaneProbe>
  {
    if |d| > 0 && d[0] == "xyPlane" && ParseXYPlane(stod, d).Parsed? then Some(ParseXYPlane(stod, d).probe) else None
  }

  function ZPlaneOf(stod: Stod, d: seq<string>): Option<ZPlaneProbe>
  {
    if |d| > 0 && d[0] == "zPlane" && ParseZPlane(stod, d).Parsed? then Some(ParseZPlane(stod, d).probe) else None
  }

  function CylinderOf(stod: Stod, d: seq<string>): Option<CylinderProbe>
  {
    if |d| > 0 && d[0] == "Cylinder" && ParseCylinder(stod, d).Parsed? then Some(ParseCylinder(stod, d).probe) else None
  }

  function AsList<P>(o: Option<P>): seq<P>
  {
    match o
    case None => []
    case Some(p) => [p]
  }

  /** A definition that does not throw contributes exactly its own probe. */
  lemma DispatchContributes(stod: Stod, d: seq<string>)
    requires Readable(stod, d)
    ensures Dispatch(stod, d).value.xyPlanes == AsList(XYPlaneOf(stod, d))
    ensures Dispatch(stod, d).value.zPlanes == AsList(ZPlaneOf(stod, d))
    ensures Dispatch(stod, d).value.cylinders == AsList(CylinderOf(stod, d))
  {
  }

  /** The loop succeeds exactly when no definition throws. */
  lemma {:induction false} InitializeSucceeds(stod: Stod, defs: seq<seq<string>>)
    ensures Initialize(stod, defs).Ok? <==> forall d :: d in defs ==> Readable(stod, d)
  {
    if |defs| > 0 {
      InitializeSucceeds(stod, defs[1..]);
      assert Dispatched(stod, defs)[1..] == Dispatched(stod, defs[1..]);
      assert Initialize(stod, defs) == Then(Dispatch(stod, defs[0]), Initialize(stod, defs[1..]));
      if !Readable(stod, defs[0]) {
        assert defs[0] in defs;
      } else if Initialize(stod, defs[1..]).Err? {
        var d :| d in defs[1..] && !Readable(stod, d);
        assert d in defs;
      } else {
        assert forall d :: d in defs ==> d == defs[0] || d in defs[1..];
      }
    }
  }

  /** Then each list holds the probes of the definitions of its type that
      parse, in the definitions' order. */
  lemma {:induction false} InitializeCollects(stod: Stod, defs: seq<seq<string>>)
    requires Initialize(stod, defs).Ok?
    ensures Initialize(stod, defs).value.xyPlanes == Collect(defs, d => XYPlaneOf(stod, d))
    ensures Initialize(stod, defs).value.zPlanes == Collect(defs, d => ZPlaneOf(stod, d))
    ensures Initialize(stod, defs).value.cylinders == Collect(defs, d => CylinderOf(stod, d))
  {
    if |defs| > 0 {
      assert Dispatched(stod, defs)[1..] == Dispatched(stod, defs[1..]);
      InitializeCollects(stod, defs[1..]);
      DispatchContributes(stod, defs[0]);
      assert defs == [defs[0]] + defs[1..];
      CollectAppend([defs[0]], defs[1..], d => XYPlaneOf(stod, d));
      CollectAppend([defs[0]], defs[1..], d => ZPlaneOf(stod, d));
      CollectAppend([defs[0]], defs[1..], d => CylinderOf(stod, d));
      CollectSingle(defs[0], d => XYPlaneOf(stod, d));
      CollectSingle(defs[0], d => ZPlaneOf(stod, d));
      CollectSingle(defs[0], d => CylinderOf(stod, d));
    }
  }

  lemma {:induction false} CombineAppend(a: seq<Result<Probes, string>>, b: seq<Result<Probes, string>>)
    ensures Combine(a + b) == Then(Combine(a), Combine(b))
  {
    if |a| == 0 {
      assert a + b == b;
      var y := Combine(b);
      if y.Ok? {
        assert Join(NoProbes, y.value) == y.value;
      }
    } else {
      assert (a + b)[1..] == a[1..] + b && (a + b)[0] == a[0];
      CombineAppend(a[1..], b);
      ThenAssociative(a[0], Combine(a[1..]), Combine(b));
    }
  }

  /** Order is kept: the probes from an earlier block of definitions precede
      those from a later block. */
  lemma InitializeAppend(stod: Stod, a: seq<seq<string>>, b: seq<seq<string>>)
    ensures Initialize(stod, a + b).Ok? <==> Initialize(stod, a).Ok? && Initialize(stod, b).Ok?
    ensures Initialize(stod, a + b).Ok? ==>
              Initialize(stod, a + b).value == Join(Initialize(stod, a).value, Initialize(stod, b).value)
  {
    assert Dispatched(stod, a + b) == Dispatched(stod, a) + Dispatched(stod, b);
    CombineAppend(Dispatched(stod, a), Dispatched(stod, b));
  }
}

=== FILE: mag_field_scanner.dfy ===
/** MagFieldScanner: the probe definitions the scanner accepts. Each
    definition is a list of numbers; a malformed one is skipped and the
    others are kept in their configured order. */
module MagFieldScanner {
  import opened Wrappers
  import opened Seqs

  /** A plane of constant z spanning [-xMax, xMax] x [-yMax, yMax]. */
  datatype XYPlaneProbe = XYPlaneProbe(xMax: real, yMax: real, z: real)

  /** A plane through the z axis at azimuth phi, up to radius rMax. */
  datatype ZPlaneProbe = ZPlaneProbe(zMin: real, zMax: real, rMax: real, phi: real)

  /** A cylinder of radius r between zMin and zMax. */
  datatype TubeProbe = TubeProbe(zMin: real, zMax: real, r: real)

  function ParseXYPlane(def: seq<real>): (p: Option<XYPlaneProbe>)
    ensures p.Some? <==> |def| == 3
  {
    if |def| != 3 then None else Some(XYPlaneProbe(def[0], def[1], def[2]))
  }

  function ParseZPlane(def: seq<real>): (p: Option<ZPlaneProbe>)
    ensures p.Some? <==> |def| == 4 && def[2] > 0.0
  {
    if |def| != 4 then None
    else if def[2] <= 0.0 then None
    else Some(ZPlaneProbe(def[0], def[1], def[2], def[3]))
  }

  function ParseTube(def: seq<real>): (p: Option<TubeProbe>)
    ensures p.Some? <==> |def| == 3 && def[2] > 0.0
  {
    if |def| != 3 then None
    else if def[2] <= 0.0 then None
    else Some(TubeProbe(def[0], def[1], def[2]))
  }

  /** The definitions the probes are written back as. */
  function XYPlaneDef(p: XYPlaneProbe): seq<real> { [p.xMax, p.yMax, p.z] }
  function ZPlaneDef(p: ZPlaneProbe): seq<real> { [p.zMin, p.zMax, p.rMax, p.phi] }
  function TubeDef(p: TubeProbe): seq<real> { [p.zMin, p.zMax, p.r] }

  /** A kept probe is its definition read in order, and every well-formed
      probe is kept from its own definition. */
  lemma ParseRoundTrips(d: seq<real>, xy: XYPlaneProbe, zp: ZPlaneProbe, tube: TubeProbe)
    ensures ParseXYPlane(d) == Some(xy) ==> XYPlaneDef(xy) == d
    ensures ParseZPlane(d) == Some(zp) ==> ZPlaneDef(zp) == d
    ensures ParseTube(d) == Some(tube) ==> TubeDef(tube) == d
    ensures ParseXYPlane(XYPlaneDef(xy)) == Some(xy)
    ensures zp.rMax > 0.0 ==> ParseZPlane(ZPlaneDef(zp)) == Some(zp)
    ensures tube.r > 0.0 ==> ParseTube(TubeDef(tube)) == Some(tube)
  {
  }

  /** The only complaint about a z-plane's azimuth: beyond a full turn. */
  predicate PhiWarning(p: ZPlaneProbe, pi: real)
  {
    p.phi > 2.0 * pi || p.phi < -2.0 * pi
  }

  /** The azimuth warning does not reject: a z-plane is kept whatever its
      phi, and one with an azimuth beyond a full turn is kept and warned
      about. */
  lemma PhiDoesNotReject(def: seq<real>, phi: real, pi: real)
    requires |def| == 4
    ensures ParseZPlane(def[3 := phi]).Some? <==> ParseZPlane(def).Some?
    ensures ParseZPlane(def[3 := phi]).Some? ==> ParseZPlane(def[3 := phi]).value.phi == phi
    ensures ParseZPlane(def).Some? && (phi > 2.0 * pi || phi < -2.0 * pi) ==>
              ParseZPlane(def[3 := phi]).Some? && PhiWarning(ParseZPlane(def[3 := phi]).value, pi)
  {
  }

  /** The kept probes of each kind: exactly the probes whose definition is
      configured and accepted. */
  function XYPlanes(defs: seq<seq<real>>): (r: seq<XYPlaneProbe>)
    ensures forall p :: p in r <==> XYPlaneDef(p) in defs
  {
    var r := Collect(defs, ParseXYPlane);
    assert forall p :: p in r ==> XYPlaneDef(p) in defs by {
      forall p | p in r ensures XYPlaneDef(p) in defs {
        var d :| d in defs && ParseXYPlane(d) == Some(p);
        ParseRoundTrips(d, p, ZPlaneProbe(0.0, 0.0, 0.0, 0.0), TubeProbe(0.0, 0.0, 0.0));
      }
    }
    assert forall p :: ParseXYPlane(XYPlaneDef(p)) == Some(p);
    r
  }

  function ZPlanes(defs: seq<seq<real>>): (r: seq<ZPlaneProbe>)
    ensures forall p :: p in r <==> ZPlaneDef(p) in defs && p.rMax > 0.0
  {
    var r := Collect(defs, ParseZPlane);
    assert forall p :: p in r ==> ZPlaneDef(p) in defs by {
      forall p | p in r ensures ZPlaneDef(p) in defs {
        var d :| d in defs && ParseZPlane(d) == Some(p);
        ParseRoundTrips(d, XYPlaneProbe(0.0, 0.0, 0.0), p, TubeProbe(0.0, 0.0, 0.0));
      }
    }
    assert forall p: ZPlaneProbe :: p.rMax > 0.0 ==> ParseZPlane(ZPlaneDef(p)) == Some(p);
    r
  }

  function Tubes(defs: seq<seq<real>>): (r: seq<TubeProbe>)
    ensures forall p :: p in r <==> TubeDef(p) in defs && p.r > 0.0
  {
    var r := Collect(defs, ParseTube);
    assert forall p :: p in r ==> TubeDef(p) in defs by {
      forall p | p in r ensures TubeDef(p) in defs {
        var d :| d in defs && ParseTube(d) == Some(p);
        ParseRoundTrips(d, XYPlaneProbe(0.0, 0.0, 0.0), ZPlaneProbe(0.0, 0.0, 0.0, 0.0), p);
      }
    }
    assert forall p: TubeProbe :: p.r > 0.0 ==> ParseTube(TubeDef(p)) == Some(p);
    r
  }

  datatype Probes = Probes(xyPlanes: seq<XYPlaneProbe>, zPlanes: seq<ZPlaneProbe>, tubes: seq<TubeProbe>)

  /** The probe filtering of `initialize`: every list keeps the definitions
      its parser accepts. */
  function Scan(xyDefs: seq<seq<real>>, zDefs: seq<seq<real>>, tubeDefs: seq<seq<real>>): Probes
  {
    Probes(XYPlanes(xyDefs), ZPlanes(zDefs), Tubes(tubeDefs))
  }

  /** `kept` reads back, through `toDef`, as the definitions at the ascending
      positions `idx`. */
  predicate ReadsBackInOrder<P>(defs: seq<seq<real>>, kept: seq<P>, idx: seq<nat>, toDef: P -> seq<real>)
  {
    && |idx| == |kept| && Ascending(idx)
    && forall i :: 0 <= i < |idx| ==> idx[i] < |defs| && toDef(kept[i]) == defs[idx[i]]
  }

  /** Kept probes keep their order: each list is a subsequence of its
      definitions, and every acceptable definition is in it. */
  lemma XYPlanesInOrder(defs: seq<seq<real>>)
    ensures ReadsBackInOrder(defs, XYPlanes(defs), KeptPositions(defs, ParseXYPlane), XYPlaneDef)
    ensures forall k :: 0 <= k < |defs| && |defs[k]| == 3 ==> k in KeptPositions(defs, ParseXYPlane)
  {
    KeptPositionsSound(defs, ParseXYPlane);
    KeptPositionsAscending(defs, ParseXYPlane);
    KeptPositionsComplete(defs, ParseXYPlane);
    var idx := KeptPositions(defs, ParseXYPlane);
    forall i | 0 <= i < |idx| ensures XYPlaneDef(XYPlanes(defs)[i]) == defs[idx[i]] {
      ParseRoundTrips(defs[idx[i]], XYPlanes(defs)[i], ZPlaneProbe(0.0, 0.0, 0.0, 0.0), TubeProbe(0.0, 0.0, 0.0));
    }
  }

  lemma ZPlanesInOrder(defs: seq<seq<real>>)
    ensures ReadsBackInOrder(defs, ZPlanes(defs), KeptPositions(defs, ParseZPlane), ZPlaneDef)
    ensures forall k :: 0 <= k < |defs| && |defs[k]| == 4 && defs[k][2] > 0.0 ==> k in KeptPositions(defs, ParseZPlane)
  {
    KeptPositionsSound(defs, ParseZPlane);
    KeptPositionsAscending(defs, ParseZPlane);
    KeptPositionsComplete(defs, ParseZPlane);
    var idx := KeptPositions(defs, ParseZPlane);
    forall i | 0 <= i < |idx| ensures ZPlaneDef(ZPlanes(defs)[i]) == defs[idx[i]] {
      ParseRoundTrips(defs[idx[i]], XYPlaneProbe(0.0, 0.0, 0.0), ZPlanes(defs)[i], TubeProbe(0.0, 0.0, 0.0));
    }
  }

  lemma TubesInOrder(defs: seq<seq<real>>)
    ensures ReadsBackInOrder(defs, Tubes(defs), KeptPositions(defs, ParseTube), TubeDef)
    ensures forall k :: 0 <= k < |defs| && |defs[k]| == 3 && defs[k][2] > 0.0 ==> k in KeptPositions(defs, ParseTube)
  {
    KeptPositionsSound(defs, ParseTube);
    KeptPositionsAscending(defs, ParseTube);
    KeptPositionsComplete(defs, ParseTube);
    var idx := KeptPositions(defs, ParseTube);
    forall i | 0 <= i < |idx| ensures TubeDef(Tubes(defs)[i]) == defs[idx[i]] {
      ParseRoundTrips(defs[idx[i]], XYPlaneProbe(0.0, 0.0, 0.0), ZPlaneProbe(0.0, 0.0, 0.0, 0.0), Tubes(defs)[i]);
    }
  }

  /** Scanning two blocks of definitions is scanning each and concatenating. */
  lemma ScanAppend(xy1: seq<seq<real>>, xy2: seq<seq<real>>, z1: seq<seq<real>>, z2: seq<seq<real>>,
                   t1: seq<seq<real>>, t2: seq<seq<real>>)
    ensures Scan(xy1 + xy2, z1 + z2, t1 + t2) ==
            Probes(XYPlanes(xy1) + XYPlanes(xy2), ZPlanes(z1) + ZPlanes(z2), Tubes(t1) + Tubes(t2))
  {
    CollectAppend(xy1, xy2, ParseXYPlane);
    CollectAppend(z1, z2, ParseZPlane);
    CollectAppend(t1, t2, ParseTube);
  }
}

=== FILE: mapfield2d.dfy ===
/** MapField2DRegular: an axially symmetric magnetic field map on a regular
    r-z grid, filled from four parallel lists, read by bilinear
    interpolation and turned into Cartesian components by the azimuth. */
module MapField2D {
  import opened Wrappers
  import opened Vectors
  import opened GridAxis
  import opened Grids
  import opened Interpolation

  /** The mathematical library the lookup calls, left uninterpreted:
      `sqrt`, `atan2(y, x)`, `cos`, `sin` and the constant pi. */
  datatype Math = Math(sqrt: real -> real, atan2: (real, real) -> real, cos: real -> real, sin: real -> real, pi: real)

  function Sqrt(math: Math, x: real): real { math.sqrt(x) }
  function Atan2(math: Math, y: real, x: real): real { math.atan2(y, x) }
  function Cos(math: Math, t: real): real { math.cos(t) }
  function Sin(math: Math, t: real): real { math.sin(t) }

  /** cos^2 + sin^2 = 1 everywhere. */
  ghost predicate UnitCircle(math: Math)
  {
    forall t :: Cos(math, t) * Cos(math, t) + Sin(math, t) * Sin(math, t) == 1.0
  }

  /** `atan2` is odd in y off the x axis, and on the x axis its angle (0 or
      pi) has sine 0; `cos` is even and `sin` odd. */
  ghost predicate Parities(math: Math)
  {
    && AtanOdd(math)
    && (forall b: real :: Sin(math, Atan2(math, 0.0, b)) == 0.0)
    && (forall t :: Cos(math, -t) == Cos(math, t) && Sin(math, -t) == -Sin(math, t))
  }

  /** `atan2(-y, x) == -atan2(y, x)` for y != 0. */
  ghost predicate AtanOdd(math: Math)
  {
    forall a: real, b: real :: a != 0.0 ==> Atan2(math, -a, b) == -Atan2(math, a, b)
  }

  datatype Samples = Samples(bR: seq<real>, bZ: seq<real>, posR: seq<real>, posZ: seq<real>)

  predicate Spread2(s: Samples)
  {
    Spread(s.posR) && Spread(s.posZ)
  }

  /** Filling walks the r coordinates and reads the other lists at the same
      position with a bounds check: a shorter list throws. */
  predicate Readable(s: Samples)
  {
    |s.posZ| >= |s.posR| && |s.bR| >= |s.posR| && |s.bZ| >= |s.posR|
  }

  /** Radial and axial field at a node. */
  datatype RZ = RZ(br: real, bz: real)

  const ZeroRZ: RZ := RZ(0.0, 0.0)

  type Node = (nat, nat)

  datatype FieldMap = FieldMap(ar: Axis, az: Axis, nodes: map<Node, RZ>)

  predicate Valid(m: FieldMap)
  {
    ValidAxis(m.ar) && ValidAxis(m.az) && forall key :: key in m.nodes ==> key.0 < m.ar.n && key.1 < m.az.n
  }

  function NodeValue(m: FieldMap, i: nat, j: nat): RZ
  {
    if (i, j) in m.nodes then m.nodes[(i, j)] else ZeroRZ
  }

  function EntryNode(s: Samples, idx: nat): (key: Node)
    requires Spread2(s) && Readable(s) && idx < |s.posR|
    ensures key.0 < BuildAxis(s.posR).n && key.1 < BuildAxis(s.posZ).n
  {
    MemberInside(s.posR, idx);
    MemberInside(s.posZ, idx);
    (NodeIndex(BuildAxis(s.posR), s.posR[idx]), NodeIndex(BuildAxis(s.posZ), s.posZ[idx]))
  }

  function EntryNodes(s: Samples): (keys: seq<Node>)
    requires Spread2(s) && Readable(s)
    ensures |keys| == |s.posR| && forall idx :: 0 <= idx < |s.posR| ==> keys[idx] == EntryNode(s, idx)
  {
    seq(|s.posR|, idx requires 0 <= idx < |s.posR| => EntryNode(s, idx))
  }

  lemma EntryNodesInside(s: Samples)
    requires Spread2(s) && Readable(s)
    ensures forall key :: key in EntryNodes(s) ==> key.0 < BuildAxis(s.posR).n && key.1 < BuildAxis(s.posZ).n
  {
    var keys := EntryNodes(s);
    forall key | key in keys
      ensures key.0 < BuildAxis(s.posR).n && key.1 < BuildAxis(s.posZ).n
    {
      var idx :| 0 <= idx < |keys| && keys[idx] == key;
      assert key == EntryNode(s, idx);
    }
  }

  function EntryValues(s: Samples): (vals: seq<RZ>)
    requires Readable(s)
    ensures |vals| == |s.posR|
  {
    seq(|s.posR|, idx requires 0 <= idx < |s.posR| => RZ(s.bR[idx], s.bZ[idx]))
  }

  /** The constructor: axes from the extents and guessed steps, a map of
      zeros, then every entry written at its node. */
  function Build(s: Samples): (r: Option<FieldMap>)
    requires Spread2(s)
    ensures r.Some? <==> Readable(s)
    ensures r.Some? ==> Valid(r.value) && r.value.ar == BuildAxis(s.posR) && r.value.az == BuildAxis(s.posZ)
  {
    if !Readable(s) then None
    else
      var keys := EntryNodes(s);
      EntryNodesInside(s);
      Some(FieldMap(BuildAxis(s.posR), BuildAxis(s.posZ), Fill(keys, EntryValues(s))))
  }

  /** What filling stores: the last entry for a node wins. */
  lemma BuildStores(s: Samples, idx: nat)
    requires Spread2(s) && Readable(s) && idx < |s.posR|
    requires LastWrite(EntryNodes(s), idx)
    ensures var key := EntryNode(s, idx);
            NodeValue(Build(s).value, key.0, key.1) == RZ(s.bR[idx], s.bZ[idx])
  {
    LastWriteWins(EntryNodes(s), EntryValues(s), idx);
  }

  /** `x^2 + y^2`. */
  function SquaredRadius(p: Vec3): real
  {
    p.x * p.x + p.y * p.y
  }

  lemma SquaredRadiusMirror(p: Vec3)
    ensures SquaredRadius(Vec3(p.x, -p.y, p.z)) == SquaredRadius(p)
  {
  }

  /** `r = sqrt(x^2 + y^2)`. */
  function Radius(math: Math, p: Vec3): real
  {
    Sqrt(math, SquaredRadius(p))
  }

  /** The azimuth: 0 on the axis, `atan2(y, x)` off the plane x = 0, and
      +-pi/2 on it. */
  function Phi(math: Math, x: real, y: real): real
  {
    if x == 0.0 && y == 0.0 then 0.0
    else if x != 0.0 then Atan2(math, y, x)
    else if y == 0.0 then 0.0
    else if y > 0.0 then math.pi / 2.0
    else -math.pi / 2.0
  }

  /** Mirroring a point off the x axis in y mirrors the azimuth when `atan2`
      is odd in y there; the branch for x = 0 mirrors +-pi/2 itself. */
  lemma PhiMirror(math: Math, x: real, y: real)
    requires AtanOdd(math)
    ensures y != 0.0 ==> Phi(math, x, -y) == -Phi(math, x, y)
  {
  }

  /** The lookup covers radii up to the largest radius (with no lower
      bound) and the closed z range. */
  predicate InsideCylinder(m: FieldMap, r: real, z: real)
  {
    r <= m.ar.max && Inside(m.az, z)
  }

  /** A radius below the map's smallest radius is read at that radius: the
      radial fraction is raised to 0. */
  function RadialCoordinate(a: Axis, r: real): (rc: real)
    requires ValidAxis(a) && r <= a.max
    ensures Inside(a, rc)
    ensures a.min <= r ==> rc == r
  {
    if (r - a.min) / Width(a) < 0.0 then a.min else r
  }

  function SquareAt(m: FieldMap, i: nat, j: nat, radial: bool): Square
  {
    var pick := (v: RZ) => if radial then v.br else v.bz;
    Square(pick(NodeValue(m, i, j)), pick(NodeValue(m, i, j + 1)),
           pick(NodeValue(m, i + 1, j)), pick(NodeValue(m, i + 1, j + 1)))
  }

  function Interpolate(m: FieldMap, sr: Split, sz: Split): RZ
  {
    RZ(Bilinear(SquareAt(m, sr.index, sz.index, true), sr.local, sz.local),
       Bilinear(SquareAt(m, sr.index, sz.index, false), sr.local, sz.local))
  }

  /** Radial and axial field at (r, z) as the code reads it; `None` where
      it reads past the last node. */
  function RZAsWritten(m: FieldMap, r: real, z: real): (b: Option<RZ>)
    requires Valid(m) && InsideCylinder(m, r, z)
    ensures b.None? <==> r == m.ar.max || z == m.az.max
  {
    var sr := Locate(m.ar, RadialCoordinate(m.ar, r));
    var sz := Locate(m.az, z);
    if sr.index + 1 < m.ar.n && sz.index + 1 < m.az.n then Some(Interpolate(m, sr, sz)) else None
  }

  /** ... and with the lower node kept below the last one. */
  function RZClamped(m: FieldMap, r: real, z: real): (b: RZ)
    requires Valid(m) && InsideCylinder(m, r, z)
    ensures RZAsWritten(m, r, z).Some? ==> b == RZAsWritten(m, r, z).value
  {
    Interpolate(m, LocateClamped(m.ar, RadialCoordinate(m.ar, r)), LocateClamped(m.az, z))
  }

  /** Radial field turned into x and y by the azimuth. */
  function Cartesian(math: Math, p: Vec3, b: RZ): Vec3
  {
    var phi := Phi(math, p.x, p.y);
    Vec3(b.br * Cos(math, phi), b.br * Sin(math, phi), b.bz)
  }

  /** `GetFieldValue` as written; `None` where it reads past the last node,
      0 outside the cylinder. */
  function FieldAsWritten(m: FieldMap, math: Math, p: Vec3): (r: Option<Vec3>)
    requires Valid(m)
    ensures !InsideCylinder(m, Radius(math, p), p.z) ==> r == Some(Zero)
    ensures r.None? <==> InsideCylinder(m, Radius(math, p), p.z) && (Radius(math, p) == m.ar.max || p.z == m.az.max)
  {
    var r := Radius(math, p);
    if !InsideCylinder(m, r, p.z) then Some(Zero)
    else
      match RZAsWritten(m, r, p.z)
      case None => None
      case Some(b) => Some(Cartesian(math, p, b))
  }

  /** The field with the corrected lookup, equal to the code's value
      wherever that is defined. */
  function FieldClamped(m: FieldMap, math: Math, p: Vec3): (r: Vec3)
    requires Valid(m)
    ensures !InsideCylinder(m, Radius(math, p), p.z) ==> r == Zero
    ensures FieldAsWritten(m, math, p).Some? ==> r == FieldAsWritten(m, math, p).value
  {
    var r := Radius(math, p);
    if !InsideCylinder(m, r, p.z) then Zero else Cartesian(math, p, RZClamped(m, r, p.z))
  }

  /** At the largest radius the code reads past the last radial node. */
  lemma MaxRadiusOutOfBounds(m: FieldMap, math: Math, p: Vec3)
    requires Valid(m) && Radius(math, p) == m.ar.max && Inside(m.az, p.z)
    ensures FieldAsWritten(m, math, p).None?
  {
  }

  /** The corrected lookup reproduces every (r, z) node. */
  lemma NodesReproduced(m: FieldMap, i: nat, j: nat)
    requires Valid(m) && i < m.ar.n && j < m.az.n
    ensures InsideCylinder(m, NodeCoordinate(m.ar, i), NodeCoordinate(m.az, j))
    ensures RZClamped(m, NodeCoordinate(m.ar, i), NodeCoordinate(m.az, j)) == NodeValue(m, i, j)
  {
    LocateNode(m.ar, i);
    LocateNode(m.az, j);
    var r := NodeCoordinate(m.ar, i);
    assert RadialCoordinate(m.ar, r) == r;
    InterpolateOnNode(m, LocateClamped(m.ar, r), LocateClamped(m.az, NodeCoordinate(m.az, j)), i, j);
  }

  /** Interpolating with splits that land on a node gives that node's value. */
  lemma InterpolateOnNode(m: FieldMap, sr: Split, sz: Split, i: nat, j: nat)
    requires OnNode(sr, i) && OnNode(sz, j)
    ensures Interpolate(m, sr, sz) == NodeValue(m, i, j)
  {
    BilinearCorners(SquareAt(m, sr.index, sz.index, true));
    BilinearCorners(SquareAt(m, sr.index, sz.index, false));
  }

  /** On the axis the field is (Br, 0, Bz): the azimuth is 0. */
  lemma OnAxis(m: FieldMap, math: Math, p: Vec3)
    requires Valid(m) && p.x == 0.0 && p.y == 0.0 && InsideCylinder(m, Radius(math, p), p.z)
    requires Cos(math, 0.0) == 1.0 && Sin(math, 0.0) == 0.0
    ensures var b := RZClamped(m, Radius(math, p), p.z);
            FieldClamped(m, math, p) == Vec3(b.br, 0.0, b.bz)
  {
  }

  /** The transverse part of `f` has the squared length of a radial field
      `br`. */
  predicate RadialMagnitude(f: Vec3, br: real)
  {
    SquaredRadius(f) == br * br
  }

  /** The transverse field has the magnitude of the radial field whenever
      cos^2 + sin^2 = 1. */
  lemma TransverseMagnitude(m: FieldMap, math: Math, p: Vec3)
    requires Valid(m) && InsideCylinder(m, Radius(math, p), p.z)
    requires UnitCircle(math)
    ensures RadialMagnitude(FieldClamped(m, math, p), RZClamped(m, Radius(math, p), p.z).br)
  {
    FieldInside(m, math, p);
    CartesianMagnitude(math, p, RZClamped(m, Radius(math, p), p.z));
  }

  /** Inside the cylinder the field is the interpolated (r, z) field turned
      by the azimuth. */
  lemma FieldInside(m: FieldMap, math: Math, p: Vec3)
    requires Valid(m) && InsideCylinder(m, Radius(math, p), p.z)
    ensures FieldClamped(m, math, p) == Cartesian(math, p, RZClamped(m, Radius(math, p), p.z))
  {
  }

  /** The azimuthal rotation keeps the length of the transverse field. */
  lemma CartesianMagnitude(math: Math, p: Vec3, b: RZ)
    requires UnitCircle(math)
    ensures RadialMagnitude(Cartesian(math, p, b), b.br)
  {
    var phi := Phi(math, p.x, p.y);
    var f := Cartesian(math, p, b);
    UnitCircleAt(math, phi);
    RotatedMagnitude(f.x, f.y, b.br, Cos(math, phi), Sin(math, phi));
  }

  lemma UnitCircleAt(math: Math, t: real)
    requires UnitCircle(math)
    ensures Cos(math, t) * Cos(math, t) + Sin(math, t) * Sin(math, t) == 1.0
  {
  }

  /** A vector (a cos, a sin) has length |a| when cos^2 + sin^2 = 1. */
  lemma RotatedMagnitude(x: real, y: real, a: real, c: real, s: real)
    requires x == a * c && y == a * s && c * c + s * s == 1.0
    ensures x * x + y * y == a * a
  {
    assert x * x + y * y == a * a * (c * c + s * s);
  }

  /** Mirroring a point in y mirrors the field's y component, when `sqrt`,
      `atan2`, `cos` and `sin` have their usual parities. */
  lemma MirrorSymmetry(m: FieldMap, math: Math, p: Vec3)
    requires Valid(m)
    requires Parities(math)
    ensures var f := FieldClamped(m, math, p);
            FieldClamped(m, math, Vec3(p.x, -p.y, p.z)) == Vec3(f.x, -f.y, f.z)
  {
    var q := Vec3(p.x, -p.y, p.z);
    SquaredRadiusMirror(p);
    assert Radius(math, q) == Radius(math, p);
    if InsideCylinder(m, Radius(math, p), p.z) {
      var b := RZClamped(m, Radius(math, p), p.z);
      FieldInside(m, math, p);
      FieldInside(m, math, q);
      CartesianMirror(math, p, b);
    }
  }

  /** Turning by the mirrored azimuth mirrors the y component. */
  lemma CartesianMirror(math: Math, p: Vec3, b: RZ)
    requires Parities(math)
    ensures var f := Cartesian(math, p, b);
            Cartesian(math, Vec3(p.x, -p.y, p.z), b) == Vec3(f.x, -f.y, f.z)
  {
    var phi := Phi(math, p.x, p.y);
    if p.y == 0.0 {
      // The mirrored point is the point itself, whose azimuth has sine 0.
      assert Sin(math, -0.0) == -Sin(math, 0.0);
      assert p.x != 0.0 ==> Sin(math, Atan2(math, 0.0, p.x)) == 0.0;
      assert Sin(math, phi) == 0.0;
    } else {
      PhiMirror(math, p.x, p.y);
      assert Phi(math, p.x, -p.y) == -phi;
      assert Cos(math, -phi) == Cos(math, phi) && Sin(math, -phi) == -Sin(math, phi);
      assert b.br * -Sin(math, phi) == -(b.br * Sin(math, phi));
    }
  }

  /** A field component whose node values all lie in [lo, hi] stays in
      [lo, hi] wherever it is read. */
  lemma RZWithinNodeBounds(m: FieldMap, r: real, z: real, radial: bool, lo: real, hi: real)
    requires Valid(m) && InsideCylinder(m, r, z)
    requires forall i: nat, j: nat :: i < m.ar.n && j < m.az.n ==>
               lo <= (if radial then NodeValue(m, i, j).br else NodeValue(m, i, j).bz) <= hi
    ensures var b := RZClamped(m, r, z);
            lo <= (if radial then b.br else b.bz) <= hi
  {
    var sr := LocateClamped(m.ar, RadialCoordinate(m.ar, r));
    var sz := LocateClamped(m.az, z);
    BilinearWithin(SquareAt(m, sr.index, sz.index, radial), sr.local, sz.local, lo, hi);
  }

  /** Below the smallest radius the field is read as at the smallest
      radius. */
  lemma BelowSmallestRadius(m: FieldMap, r: real, z: real)
    requires Valid(m) && InsideCylinder(m, r, z) && r < m.ar.min
    ensures InsideCylinder(m, m.ar.min, z)
    ensures RZAsWritten(m, r, z) == RZAsWritten(m, m.ar.min, z)
    ensures RZClamped(m, r, z) == RZClamped(m, m.ar.min, z)
  {
    NegativeFraction(r - m.ar.min, Width(m.ar));
  }

  lemma NegativeFraction(d: real, w: real)
    requires d < 0.0 && w > 0.0
    ensures d / w < 0.0
  {
  }

  /** Off the largest radius and z the code's own lookup reproduces the
      nodes. */
  lemma InteriorNodesAsWritten(m: FieldMap, i: nat, j: nat)
    requires Valid(m) && i + 1 < m.ar.n && j + 1 < m.az.n
    ensures InsideCylinder(m, NodeCoordinate(m.ar, i), NodeCoordinate(m.az, j))
    ensures RZAsWritten(m, NodeCoordinate(m.ar, i), NodeCoordinate(m.az, j)) == Some(NodeValue(m, i, j))
  {
    NodesReproduced(m, i, j);
    NodeRoundTrip(m.ar, i);
    NodeRoundTrip(m.az, j);
  }

  /** The axial component does not depend on the azimuth: two libraries
      that agree on `sqrt` give the same z component. */
  lemma AxialIndependentOfAzimuth(m: FieldMap, math1: Math, math2: Math, p: Vec3)
    requires Valid(m) && forall x :: Sqrt(math1, x) == Sqrt(math2, x)
    ensures FieldClamped(m, math1, p).z == FieldClamped(m, math2, p).z
  {
    assert Radius(math1, p) == Radius(math2, p);
  }

  /** A uniform grid gives a uniform (r, z) field. */
  lemma UniformField(m: FieldMap, r: real, z: real, v: RZ)
    requires Valid(m) && InsideCylinder(m, r, z)
    requires forall i: nat, j: nat :: i < m.ar.n && j < m.az.n ==> NodeValue(m, i, j) == v
    ensures RZClamped(m, r, z) == v
  {
    RZWithinNodeBounds(m, r, z, true, v.br, v.br);
    RZWithinNodeBounds(m, r, z, false, v.bz, v.bz);
  }
}

=== FILE: mapfield3d.dfy ===
/** MapField3DRegular: a magnetic field map on a regular x-y-z grid, filled
    from six parallel lists and read by trilinear interpolation. */
module MapField3D {
  import opened Wrappers
  import opened Vectors
  import opened GridAxis
  import opened Grids
  import opened Interpolation

  /** The constructor's inputs: field components and node coordinates, one
      entry per list position. */
  datatype Samples = Samples(bX: seq<real>, bY: seq<real>, bZ: seq<real>, posX: seq<real>, posY: seq<real>, posZ: seq<real>)

  /** Each coordinate list has an extent; a flat axis leaves the map's width
      0 and the fill index 0/0. */
  predicate Spread3(s: Samples)
  {
    Spread(s.posX) && Spread(s.posY) && Spread(s.posZ)
  }

  /** Filling walks the x coordinates and reads every other list at the
      same position with a bounds check: a shorter list throws. */
  predicate Readable(s: Samples)
  {
    |s.posY| >= |s.posX| && |s.posZ| >= |s.posX|
    && |s.bX| >= |s.posX| && |s.bY| >= |s.posX| && |s.bZ| >= |s.posX|
  }

  type Node = (nat, nat, nat)

  /** The built map: three axes and the nodes written while filling. */
  datatype FieldMap = FieldMap(ax: Axis, ay: Axis, az: Axis, nodes: map<Node, Vec3>)

  predicate Valid(m: FieldMap)
  {
    && ValidAxis(m.ax) && ValidAxis(m.ay) && ValidAxis(m.az)
    && forall key :: key in m.nodes ==> key.0 < m.ax.n && key.1 < m.ay.n && key.2 < m.az.n
  }

  /** The value at a node: the last value written there, otherwise 0. */
  function NodeValue(m: FieldMap, i: nat, j: nat, k: nat): Vec3
  {
    if (i, j, k) in m.nodes then m.nodes[(i, j, k)] else Zero
  }

  /** The node list entry `idx` is stored at. */
  function EntryNode(s: Samples, idx: nat): (key: Node)
    requires Spread3(s) && Readable(s) && idx < |s.posX|
    ensures key.0 < BuildAxis(s.posX).n && key.1 < BuildAxis(s.posY).n && key.2 < BuildAxis(s.posZ).n
  {
    MemberInside(s.posX, idx);
    MemberInside(s.posY, idx);
    MemberInside(s.posZ, idx);
    (NodeIndex(BuildAxis(s.posX), s.posX[idx]),
     NodeIndex(BuildAxis(s.posY), s.posY[idx]),
     NodeIndex(BuildAxis(s.posZ), s.posZ[idx]))
  }

  function EntryNodes(s: Samples): (keys: seq<Node>)
    requires Spread3(s) && Readable(s)
    ensures |keys| == |s.posX| && forall idx :: 0 <= idx < |s.posX| ==> keys[idx] == EntryNode(s, idx)
  {
    seq(|s.posX|, idx requires 0 <= idx < |s.posX| => EntryNode(s, idx))
  }

  /** Every node filling writes lies inside the built axes. */
  lemma EntryNodesInside(s: Samples)
    requires Spread3(s) && Readable(s)
    ensures forall key :: key in EntryNodes(s) ==>
              key.0 < BuildAxis(s.posX).n && key.1 < BuildAxis(s.posY).n && key.2 < BuildAxis(s.posZ).n
  {
    var keys := EntryNodes(s);
    var nx, ny, nz := BuildAxis(s.posX).n, BuildAxis(s.posY).n, BuildAxis(s.posZ).n;
    forall idx | 0 <= idx < |keys|
      ensures keys[idx].0 < nx && keys[idx].1 < ny && keys[idx].2 < nz
    {
      EntryNodeInside(s, idx);
    }
    KeysBounded(keys, nx, ny, nz);
  }

  /** Bounds that hold at every position hold for every member. */
  lemma KeysBounded(keys: seq<Node>, nx: nat, ny: nat, nz: nat)
    requires forall idx :: 0 <= idx < |keys| ==> keys[idx].0 < nx && keys[idx].1 < ny && keys[idx].2 < nz
    ensures forall key :: key in keys ==> key.0 < nx && key.1 < ny && key.2 < nz
  {
    forall key | key in keys
      ensures key.0 < nx && key.1 < ny && key.2 < nz
    {
      var idx :| 0 <= idx < |keys| && keys[idx] == key;
    }
  }

  lemma EntryNodeInside(s: Samples, idx: nat)
    requires Spread3(s) && Readable(s) && idx < |s.posX|
    ensures EntryNodes(s)[idx].0 < BuildAxis(s.posX).n
    ensures EntryNodes(s)[idx].1 < BuildAxis(s.posY).n
    ensures EntryNodes(s)[idx].2 < BuildAxis(s.posZ).n
  {
    var key := EntryNode(s, idx);
    assert EntryNodes(s)[idx] == key;
  }

  function EntryValues(s: Samples): (vals: seq<Vec3>)
    requires Readable(s)
    ensures |vals| == |s.posX|
  {
    seq(|s.posX|, idx requires 0 <= idx < |s.posX| => Vec3(s.bX[idx], s.bY[idx], s.bZ[idx]))
  }

  /** The constructor: axes from the extents and guessed steps, a map of
      zeros, then every entry written at its node. */
  function Build(s: Samples): (r: Option<FieldMap>)
    requires Spread3(s)
    ensures r.Some? <==> Readable(s)
    ensures r.Some? ==> Valid(r.value)
    ensures r.Some? ==> r.value.ax == BuildAxis(s.posX) && r.value.ay == BuildAxis(s.posY) && r.value.az == BuildAxis(s.posZ)
  {
    if !Readable(s) then None
    else
      var keys := EntryNodes(s);
      EntryNodesInside(s);
      Some(FieldMap(BuildAxis(s.posX), BuildAxis(s.posY), BuildAxis(s.posZ), Fill(keys, EntryValues(s))))
  }

  /** What filling stores: the last entry for a node wins, and a node no
      entry names stays 0. */
  lemma BuildStores(s: Samples, idx: nat)
    requires Spread3(s) && Readable(s) && idx < |s.posX|
    requires LastWrite(EntryNodes(s), idx)
    ensures var key := EntryNode(s, idx);
            NodeValue(Build(s).value, key.0, key.1, key.2) == Vec3(s.bX[idx], s.bY[idx], s.bZ[idx])
  {
    LastWriteWins(EntryNodes(s), EntryValues(s), idx);
  }

  lemma BuildLeavesZero(s: Samples, i: nat, j: nat, k: nat)
    requires Spread3(s) && Readable(s)
    requires forall idx :: 0 <= idx < |s.posX| ==> EntryNode(s, idx) != (i, j, k)
    ensures NodeValue(Build(s).value, i, j, k) == Zero
  {
  }

  predicate InsideBox(m: FieldMap, p: Vec3)
  {
    Inside(m.ax, p.x) && Inside(m.ay, p.y) && Inside(m.az, p.z)
  }

  /** One component of the eight node values around a cell. */
  function CubeAt(m: FieldMap, i: nat, j: nat, k: nat, c: Component): Cube
  {
    Cube(Select(c, NodeValue(m, i, j, k)), Select(c, NodeValue(m, i, j, k + 1)),
         Select(c, NodeValue(m, i, j + 1, k)), Select(c, NodeValue(m, i, j + 1, k + 1)),
         Select(c, NodeValue(m, i + 1, j, k)), Select(c, NodeValue(m, i + 1, j, k + 1)),
         Select(c, NodeValue(m, i + 1, j + 1, k)), Select(c, NodeValue(m, i + 1, j + 1, k + 1)))
  }

  /** The three interpolated components in the cell with lower corner
      (i, j, k) and weights (lx, ly, lz) of the upper nodes. */
  function Interpolate(m: FieldMap, sx: Split, sy: Split, sz: Split): Vec3
  {
    Vec3(Trilinear(CubeAt(m, sx.index, sy.index, sz.index, X), sx.local, sy.local, sz.local),
         Trilinear(CubeAt(m, sx.index, sy.index, sz.index, Y), sx.local, sy.local, sz.local),
         Trilinear(CubeAt(m, sx.index, sy.index, sz.index, Z), sx.local, sy.local, sz.local))
  }

  /** `GetFieldValue` as written. Inside the box (bounds included) the lower
      node is the integer part of the scaled coordinate and the upper node
      the next one; on a face at the maximum coordinate the next node does
      not exist and the read is out of bounds, which is `None`. Outside the
      box the field is 0. */
  function FieldAsWritten(m: FieldMap, p: Vec3): (r: Option<Vec3>)
    requires Valid(m)
    ensures !InsideBox(m, p) ==> r == Some(Zero)
    ensures r.None? <==> InsideBox(m, p) && (p.x == m.ax.max || p.y == m.ay.max || p.z == m.az.max)
  {
    if !InsideBox(m, p) then Some(Zero)
    else
      var sx := Locate(m.ax, p.x);
      var sy := Locate(m.ay, p.y);
      var sz := Locate(m.az, p.z);
      if sx.index + 1 < m.ax.n && sy.index + 1 < m.ay.n && sz.index + 1 < m.az.n then
        Some(Interpolate(m, sx, sy, sz))
      else None
  }

  /** The field with the lower node kept below the last one: defined on the
      whole closed box, equal to the code's value wherever that is defined. */
  function FieldClamped(m: FieldMap, p: Vec3): (r: Vec3)
    requires Valid(m)
    ensures !InsideBox(m, p) ==> r == Zero
    ensures FieldAsWritten(m, p).Some? ==> r == FieldAsWritten(m, p).value
  {
    if !InsideBox(m, p) then Zero
    else Interpolate(m, LocateClamped(m.ax, p.x), LocateClamped(m.ay, p.y), LocateClamped(m.az, p.z))
  }

  /** The corner of the box with the largest x and smallest y and z is inside
      the box, but the code reads the node after the last x node there. */
  lemma MaxFaceOutOfBounds(m: FieldMap)
    requires Valid(m)
    ensures FieldAsWritten(m, Vec3(m.ax.max, m.ay.min, m.az.min)).None?
  {
  }

  /** The point of node (i, j, k). */
  function NodePoint(m: FieldMap, i: nat, j: nat, k: nat): Vec3
    requires Valid(m)
  {
    Vec3(NodeCoordinate(m.ax, i), NodeCoordinate(m.ay, j), NodeCoordinate(m.az, k))
  }

  /** The corrected lookup reproduces every node, last nodes included. */
  lemma NodesReproduced(m: FieldMap, i: nat, j: nat, k: nat)
    requires Valid(m) && i < m.ax.n && j < m.ay.n && k < m.az.n
    ensures FieldClamped(m, NodePoint(m, i, j, k)) == NodeValue(m, i, j, k)
  {
    var p := NodePoint(m, i, j, k);
    LocateNode(m.ax, i);
    LocateNode(m.ay, j);
    LocateNode(m.az, k);
    assert InsideBox(m, p);
    InterpolateOnNode(m, LocateClamped(m.ax, p.x), LocateClamped(m.ay, p.y), LocateClamped(m.az, p.z), i, j, k);
  }

  /** Interpolating with splits that land on a node gives that node's value. */
  lemma InterpolateOnNode(m: FieldMap, sx: Split, sy: Split, sz: Split, i: nat, j: nat, k: nat)
    requires OnNode(sx, i) && OnNode(sy, j) && OnNode(sz, k)
    ensures Interpolate(m, sx, sy, sz) == NodeValue(m, i, j, k)
  {
    TrilinearCorners(CubeAt(m, sx.index, sy.index, sz.index, X));
    TrilinearCorners(CubeAt(m, sx.index, sy.index, sz.index, Y));
    TrilinearCorners(CubeAt(m, sx.index, sy.index, sz.index, Z));
  }

  /** Off the maximum faces the code's own lookup reproduces the nodes. */
  lemma InteriorNodesAsWritten(m: FieldMap, i: nat, j: nat, k: nat)
    requires Valid(m) && i + 1 < m.ax.n && j + 1 < m.ay.n && k + 1 < m.az.n
    ensures FieldAsWritten(m, NodePoint(m, i, j, k)) == Some(NodeValue(m, i, j, k))
  {
    NodesReproduced(m, i, j, k);
    NodeRoundTrip(m.ax, i);
    NodeRoundTrip(m.ay, j);
    NodeRoundTrip(m.az, k);
  }

  /** A component whose node values all lie in [lo, hi] stays in [lo, hi]
      everywhere inside the box. */
  lemma FieldWithinNodeBounds(m: FieldMap, p: Vec3, c: Component, lo: real, hi: real)
    requires Valid(m) && InsideBox(m, p)
    requires forall i: nat, j: nat, k: nat :: i < m.ax.n && j < m.ay.n && k < m.az.n ==> lo <= Select(c, NodeValue(m, i, j, k)) <= hi
    ensures lo <= Select(c, FieldClamped(m, p)) <= hi
  {
    var sx := LocateClamped(m.ax, p.x);
    var sy := LocateClamped(m.ay, p.y);
    var sz := LocateClamped(m.az, p.z);
    TrilinearWithin(CubeAt(m, sx.index, sy.index, sz.index, c), sx.local, sy.local, sz.local, lo, hi);
  }

  /** A uniform grid gives a uniform field: with every node equal to v the
      field is v everywhere inside the box. */
  lemma UniformField(m: FieldMap, p: Vec3, v: Vec3)
    requires Valid(m) && InsideBox(m, p)
    requires forall i: nat, j: nat, k: nat :: i < m.ax.n && j < m.ay.n && k < m.az.n ==> NodeValue(m, i, j, k) == v
    ensures FieldClamped(m, p) == v
  {
    FieldWithinNodeBounds(m, p, X, v.x, v.x);
    FieldWithinNodeBounds(m, p, Y, v.y, v.y);
    FieldWithinNodeBounds(m, p, Z, v.z, v.z);
  }
}

=== FILE: merge_cells.dfy ===
/** MergeCells: merge N adjacent cells of one identifier field into one,
    rewriting only that field of every hit's cell identifier. */
module MergeCells {
  import opened IntArith
  import opened Wrappers
  import opened BitField
  import opened Hits
  import opened Readouts

  datatype InitError = NoIdentifier | MissingReadout | MissingField | TooManyCells | TooFewCells | EvenSignedMerge

  /** What initialisation leaves for execution: the readout layout, the field
      to merge and the number of cells merged into one. */
  datatype Merger = Merger(layout: Layout, field: Field, numToMerge: UInt32)

  /** Everything initialisation guarantees. */
  predicate Valid(m: Merger)
  {
    && WellFormed(m.layout) && m.field in m.layout
    && 2 <= m.numToMerge <= Pow2(m.field.width)
    && (m.field.signed ==> m.numToMerge % 2 == 1)
  }

  /** The configurations initialisation accepts, stated independently of the
      order in which it checks them. */
  predicate Acceptable(idToMerge: string, numToMerge: UInt32, readoutName: string, reg: Registry)
  {
    && idToMerge != []
    && readoutName in reg
    && idToMerge in Names(reg[readoutName].layout)
    && var f := FieldNamed(reg[readoutName].layout, idToMerge);
       2 <= numToMerge <= Pow2(f.width) && (f.signed ==> numToMerge % 2 == 1)
  }

  /** `initialize`: the field name must be given, the readout and the field
      must exist, and the merge count must satisfy 2 <= N <= 2^width and be
      odd for a signed field, so that the middle cell stays centred on 0. */
  function Initialize(idToMerge: string, numToMerge: UInt32, readoutName: string, reg: Registry): (r: Result<Merger, InitError>)
    requires ValidRegistry(reg)
    ensures idToMerge == [] ==> r == Err(NoIdentifier)
    ensures r.Ok? <==> Acceptable(idToMerge, numToMerge, readoutName, reg)
    ensures r.Ok? ==> Valid(r.value) && r.value.field.name == idToMerge && r.value.numToMerge == numToMerge
    ensures r.Ok? && r.value.field.signed ==> numToMerge >= 3 && numToMerge % 2 == 1
  {
    if idToMerge == [] then Err(NoIdentifier)
    else if readoutName !in reg then Err(MissingReadout)
    else
      var layout := reg[readoutName].layout;
      if idToMerge !in Names(layout) then Err(MissingField)
      else
        var f := FieldNamed(layout, idToMerge);
        if numToMerge > Pow2(f.width) then Err(TooManyCells)
        else if numToMerge < 2 then Err(TooFewCells)
        else if f.signed && numToMerge % 2 == 0 then Err(EvenSignedMerge)
        else Ok(Merger(layout, f, numToMerge))
  }

  /** The merge arithmetic on a decoded value, free of overflow: plain
      truncating division for an unsigned field; for a signed field the value
      is first pushed N/2 away from zero, so buckets are centred on 0. */
  function Merged(v: int, n: nat, signed: bool): int
    requires n > 0
  {
    if !signed then TruncDiv(v, n)
    else if v < 0 then TruncDiv(v - n / 2, n)
    else TruncDiv(v + n / 2, n)
  }

  lemma MulMonotone(a: int, b: int, n: int)
    requires a <= b && n >= 0
    ensures a * n <= b * n
  {
  }

  /** Uniqueness of the quotient. */
  lemma DivUnique(x: nat, n: nat, k: nat)
    requires n > 0 && k * n <= x < (k + 1) * n
    ensures DivNat(x, n) == k
  {
    var q := DivNat(x, n);
    DivBrackets(x, n);
    if q > k {
      MulMonotone(k + 1, q, n);
    } else if q < k {
      MulMonotone(q + 1, k, n);
    }
  }

  /** Unsigned field: the values kN .. kN+N-1 all merge into k. */
  lemma UnsignedBuckets(v: nat, n: nat, k: nat)
    requires n > 0
    ensures Merged(v, n, false) == k <==> k * n <= v < k * n + n
  {
    DivBrackets(v, n);
    if k * n <= v < k * n + n {
      DivUnique(v, n, k);
    }
  }

  /** Merging a value v >= 0 whose shifted value is a: the quotient is at
      most a - h, with a = v + h and h < n. */
  lemma ShiftedQuotientBound(v: nat, h: nat, n: nat)
    requires h < n
    ensures DivNat(v + h, n) <= v
  {
    var q := DivNat(v + h, n);
    DivBrackets(v + h, n);
    if q > v {
      MulMonotone(v + 1, q, n);
      MulMonotone(1, n, v);
    }
  }

  /** Signed field, odd N: the quotient of the shifted value is the value
      rounded to the nearest multiple of N. */
  lemma SignedNearest(v: nat, n: nat)
    requires n > 0 && n % 2 == 1
    ensures DivNat(v + n / 2, n) * n <= v + n / 2 < DivNat(v + n / 2, n) * n + n
  {
    DivBrackets(v + n / 2, n);
  }

  /** Signed field, odd N: bucket 0 is exactly [-(N/2), N/2]. */
  lemma SignedCentreBucket(v: int, n: nat)
    requires n > 0 && n % 2 == 1
    ensures Merged(v, n, true) == 0 <==> -(n / 2) <= v <= n / 2
  {
    var a := Abs(v) + n / 2;
    DivBrackets(a, n);
    if Abs(v) <= n / 2 {
      DivUnique(a, n, 0);
    } else {
      MulMonotone(0, DivNat(a, n), n);
    }
  }

  /** Signed field: merging commutes with negation. */
  lemma SignedSymmetric(v: int, n: nat)
    requires n > 0
    ensures Merged(-v, n, true) == -Merged(v, n, true)
  {
  }

  /** Signed field, odd N: a value lies within N/2 of N times its bucket. */
  lemma SignedError(v: int, n: nat)
    requires n > 0 && n % 2 == 1
    ensures Abs(v - n * Merged(v, n, true)) <= n / 2
  {
    var a := Abs(v) + n / 2;
    var q := DivNat(a, n);
    DivBrackets(a, n);
    assert q * n == n * q;
  }

  /** The merged value of a value the field holds is again a value the field
      holds: its magnitude does not grow and its sign is kept. */
  lemma MergedInRange(f: Field, v: int, n: nat)
    requires FieldFits(f) && InRange(f, v) && n >= 2
    ensures InRange(f, Merged(v, n, f.signed))
  {
    var h := if f.signed then n / 2 else 0;
    ShiftedQuotientBound(Abs(v), h, n);
  }

  /** The merge arithmetic with the C++ types: the decoded value is stored
      in an `int`, the shift by N/2 is unsigned arithmetic converted back to
      `int`, and the divisor is `int(N)`. */
  function MergedAsWritten(value: int, n: UInt32, signed: bool): int
    requires n > 0
  {
    var v := Wrap32(value);
    var shifted :=
      if !signed then v
      else if v < 0 then Wrap32(v - n / 2)
      else Wrap32(v + n / 2);
    Wrap32NonZero(n);
    TruncDiv(shifted, Wrap32(n))
  }

  /** Below 2^30 in magnitude nothing wraps, and the C++ arithmetic is the
      overflow-free merge. */
  lemma NoWrapBelow30(v: int, n: UInt32, signed: bool)
    requires 0 < n <= 0x4000_0000 && -0x4000_0000 <= v <= 0x4000_0000
    ensures MergedAsWritten(v, n, signed) == Merged(v, n, signed)
  {
    var h: int := 0x4000_0000;
    assert Wrap32(v) == v && Wrap32(n) == n;
    var half := n / 2;
    assert 0 <= half <= h;
    var shifted := if !signed then v else if v < 0 then v - half else v + half;
    assert Wrap32(shifted) == shifted;
    assert Merged(v, n, signed) == TruncDiv(shifted, n);
  }

  /** A field of at most 30 bits holds values of magnitude at most 2^30. */
  lemma NarrowFieldBounds(f: Field, v: int)
    requires FieldFits(f) && f.width <= 30 && InRange(f, v)
    ensures -0x4000_0000 <= v <= 0x4000_0000 && Pow2(f.width) <= 0x4000_0000
  {
    Pow2Literals();
    Pow2Monotone(f.width, 30);
    Pow2Monotone(f.width - 1, f.width);
  }

  /** Execution on one identifier: only the merged field is rewritten. */
  function MergeCell(m: Merger, c: CellId): (r: CellId)
    requires Valid(m)
    ensures forall g :: g in m.layout && g.name != m.field.name ==> Get(r, g) == Get(c, g)
  {
    var q := MergedAsWritten(Get(c, m.field), m.numToMerge, m.field.signed);
    SetKeepsOthers(m.layout, c, m.field, q);
    Set(c, m.field, q)
  }

  /** For a field of at most 30 bits the merged field holds exactly the
      overflow-free merge of its old value. */
  lemma MergeCellNarrow(m: Merger, c: CellId)
    requires Valid(m) && m.field.width <= 30
    ensures Get(MergeCell(m, c), m.field) == Merged(Get(c, m.field), m.numToMerge, m.field.signed)
  {
    var f := m.field;
    var v := Get(c, f);
    NarrowFieldBounds(f, v);
    NoWrapBelow30(v, m.numToMerge, f.signed);
    MergedInRange(f, v, m.numToMerge);
    GetSet(c, f, Merged(v, m.numToMerge, f.signed));
  }

  /** `execute`: one output hit per input hit, in order, with energy, energy
      error, position, type and time copied, and the merged cell identifier. */
  function Execute(m: Merger, hits: seq<CaloHit>): (out: seq<CaloHit>)
    requires Valid(m)
    ensures |out| == |hits|
    ensures forall i :: 0 <= i < |hits| ==> SamePayload(out[i], hits[i])
    ensures forall i, g :: 0 <= i < |hits| && g in m.layout && g.name != m.field.name ==>
              Get(out[i].cellId, g) == Get(hits[i].cellId, g)
    ensures m.field.width <= 30 ==> forall i :: 0 <= i < |hits| ==>
              Get(out[i].cellId, m.field) == Merged(Get(hits[i].cellId, m.field), m.numToMerge, m.field.signed)
  {
    forall i | 0 <= i < |hits| ensures m.field.width <= 30 ==>
      Get(MergeCell(m, hits[i].cellId), m.field) == Merged(Get(hits[i].cellId, m.field), m.numToMerge, m.field.signed)
    {
      if m.field.width <= 30 {
        MergeCellNarrow(m, hits[i].cellId);
      }
    }
    seq(|hits|, i requires 0 <= i < |hits| => hits[i].(cellId := MergeCell(m, hits[i].cellId)))
  }

  /** The worked example of a three-cell merge on a signed field: -1, 0 and 1
      share bucket 0, and 3 goes to bucket 1. */
  lemma ThreeCellExample()
    ensures Merged(-1, 3, true) == 0 && Merged(0, 3, true) == 0 && Merged(1, 3, true) == 0
    ensures Merged(3, 3, true) == 1 && Merged(-3, 3, true) == -1
  {
  }
}

=== FILE: merge_layers.dfy ===
/** MergeLayers: merge groups of consecutive layers, of configurable sizes,
    into one layer each, rewriting one identifier field of every hit. */
module MergeLayers {
  import opened IntArith
  import opened Wrappers
  import opened Seqs
  import opened BitField
  import opened Hits
  import opened Readouts

  datatype InitError = NoIdentifier | MissingReadout | MissingField

  /** What initialisation leaves for execution: the readout layout, the
      field to rewrite and the sizes of the consecutive groups. */
  datatype LayerMerger = LayerMerger(layout: Layout, field: Field, listToMerge: seq<UInt32>)

  predicate Valid(m: LayerMerger)
  {
    WellFormed(m.layout) && m.field in m.layout
  }

  /** `initialize`: the field name must be given and the readout and field
      must exist; the group sizes are not checked. */
  function Initialize(idToMerge: string, listToMerge: seq<UInt32>, readoutName: string, reg: Registry): (r: Result<LayerMerger, InitError>)
    requires ValidRegistry(reg)
    ensures idToMerge == [] ==> r == Err(NoIdentifier)
    ensures r.Ok? <==> idToMerge != [] && readoutName in reg && idToMerge in Names(reg[readoutName].layout)
    ensures r.Ok? ==> Valid(r.value) && r.value.field.name == idToMerge && r.value.listToMerge == listToMerge
  {
    if idToMerge == [] then Err(NoIdentifier)
    else if readoutName !in reg then Err(MissingReadout)
    else
      var layout := reg[readoutName].layout;
      if idToMerge !in Names(layout) then Err(MissingField)
      else Ok(LayerMerger(layout, FieldNamed(layout, idToMerge), listToMerge))
  }

  /** The running `unsigned int` sum of the group sizes, wrapping modulo 2^32
      as the accumulator does. */
  function WrappedSum(s: seq<UInt32>): UInt32
  {
    if |s| == 0 then 0 else WrapU32(WrappedSum(s[..|s| - 1]) + s[|s| - 1])
  }

  /** The exclusive upper boundary of every group: the i-th entry is the
      running sum of the first i+1 group sizes. */
  function PrefixBoundaries(list: seq<UInt32>): seq<UInt32>
  {
    seq(|list|, i requires 0 <= i < |list| => WrappedSum(list[..i + 1]))
  }

  /** The loop turning group sizes into group boundaries. */
  method Boundaries(list: seq<UInt32>) returns (b: seq<UInt32>)
    ensures b == PrefixBoundaries(list)
  {
    b := [];
    var sumCells: UInt32 := 0;
    var i := 0;
    while i < |list|
      invariant 0 <= i <= |list|
      invariant |b| == i
      invariant sumCells == WrappedSum(list[..i])
      invariant forall k :: 0 <= k < i ==> b[k] == WrappedSum(list[..k + 1])
    {
      assert list[..i + 1][..i] == list[..i];
      sumCells := WrapU32(sumCells + list[i]);
      b := b + [sumCells];
      i := i + 1;
    }
  }

  lemma {:induction false} SumNatPrefixMonotone(s: seq<UInt32>, a: nat, b: nat)
    requires a <= b <= |s|
    ensures SumNat(s[..a]) <= SumNat(s[..b])
  {
    if a < b {
      assert s[..b][..b - 1] == s[..b - 1];
      SumNatPrefixMonotone(s, a, b - 1);
    }
  }

  /** While the total stays below 2^32 the accumulator never wraps. */
  lemma {:induction false} WrappedSumExact(s: seq<UInt32>)
    requires SumNat(s) < 0x1_0000_0000
    ensures WrappedSum(s) == SumNat(s)
  {
    if |s| > 0 {
      WrappedSumExact(s[..|s| - 1]);
    }
  }

  /** Below 2^32 in total, the boundaries are the exact prefix sums. */
  lemma ExactBoundaries(list: seq<UInt32>, i: nat)
    requires SumNat(list) < 0x1_0000_0000 && i < |list|
    ensures PrefixBoundaries(list)[i] == SumNat(list[..i + 1])
  {
    SumNatPrefixMonotone(list, i + 1, |list|);
    assert list[..|list|] == list;
    WrappedSumExact(list[..i + 1]);
  }

  /** The first boundary above the value, if any. */
  function FirstAbove(v: nat, b: seq<nat>): (r: Option<nat>)
    ensures r.None? <==> forall i :: 0 <= i < |b| ==> b[i] <= v
    ensures r.Some? ==> r.value < |b| && v < b[r.value] && forall j :: 0 <= j < r.value ==> b[j] <= v
  {
    if |b| == 0 then None
    else if v < b[0] then Some(0)
    else
      match FirstAbove(v, b[1..])
      case None => None
      case Some(k) => Some(k + 1)
  }

  /** The new layer of old layer v: the index of the first group whose
      boundary lies above v, or v itself when there is none. */
  function Bucket(v: nat, b: seq<nat>): nat
  {
    match FirstAbove(v, b)
    case Some(i) => i
    case None => v
  }

  /** Layers SumNat(list[..i]) .. SumNat(list[..i+1]) - 1 (the i-th group of
      list[i] consecutive layers) all become layer i. */
  lemma GroupIndex(list: seq<UInt32>, v: nat, i: nat)
    requires SumNat(list) < 0x1_0000_0000 && i < |list|
    requires SumNat(list[..i]) <= v < SumNat(list[..i + 1])
    ensures Bucket(v, PrefixBoundaries(list)) == i
  {
    var b := PrefixBoundaries(list);
    forall j | 0 <= j < i ensures b[j] <= v {
      ExactBoundaries(list, j);
      SumNatPrefixMonotone(list, j + 1, i);
    }
    ExactBoundaries(list, i);
  }

  /** Layers at or above the total of all groups are left as they are. */
  lemma BeyondGroups(list: seq<UInt32>, v: nat)
    requires SumNat(list) < 0x1_0000_0000 && SumNat(list) <= v
    ensures Bucket(v, PrefixBoundaries(list)) == v
  {
    var b := PrefixBoundaries(list);
    forall j | 0 <= j < |list| ensures b[j] <= v {
      ExactBoundaries(list, j);
      SumNatPrefixMonotone(list, j + 1, |list|);
      assert list[..|list|] == list;
    }
  }

  /** A smaller value finds its boundary no later than a larger one does. */
  lemma FirstAboveMonotone(v: nat, w: nat, b: seq<nat>)
    requires v <= w && FirstAbove(w, b).Some?
    ensures FirstAbove(v, b).Some? && FirstAbove(v, b).value <= FirstAbove(w, b).value
  {
  }

  /** Within the groups (below the total of 2^32 at most), merging keeps the
      order of the layers: a deeper layer never lands in an earlier group. */
  lemma BucketMonotone(list: seq<UInt32>, v: nat, w: nat)
    requires SumNat(list) < 0x1_0000_0000 && v <= w < SumNat(list)
    ensures Bucket(v, PrefixBoundaries(list)) <= Bucket(w, PrefixBoundaries(list)) < |list|
  {
    var b := PrefixBoundaries(list);
    ExactBoundaries(list, |list| - 1);
    assert list[..|list|] == list;
    assert w < b[|list| - 1];
    FirstAboveMonotone(v, w, b);
  }

  /** Merging groups of 3 and 3 layers: layers 0-2 become 0, layers 3-5
      become 1, and layer 6 and above stay. */
  lemma ThreeAndThreeExample(v: nat)
    ensures v < 3 ==> Bucket(v, [3, 6]) == 0
    ensures 3 <= v < 6 ==> Bucket(v, [3, 6]) == 1
    ensures 6 <= v ==> Bucket(v, [3, 6]) == v
  {
    var b: seq<nat> := [3, 6];
    assert b[1..] == [6] && [6][1..] == [];
    if 3 <= v < 6 {
      assert FirstAbove(v, [6]) == Some(0);
      assert FirstAbove(v, b) == Some(1);
    }
  }

  /** Execution on one identifier: the field is decoded into an `unsigned
      int`, replaced by its group index and written back. */
  function MergeLayer(m: LayerMerger, b: seq<UInt32>, c: CellId): (r: CellId)
    requires Valid(m)
    ensures forall g :: g in m.layout && g.name != m.field.name ==> Get(r, g) == Get(c, g)
  {
    var value := WrapU32(Get(c, m.field));
    SetKeepsOthers(m.layout, c, m.field, Bucket(value, b));
    Set(c, m.field, Bucket(value, b))
  }

  /** An unsigned field of at most 32 bits decodes to its value unchanged by
      the `unsigned int` conversion. */
  lemma UnsignedNarrowDecode(c: CellId, f: Field)
    requires FieldFits(f) && !f.signed && f.width <= 32
    ensures WrapU32(Get(c, f)) == Get(c, f)
  {
    Pow2Literals();
    Pow2Monotone(f.width, 32);
    var v := Get(c, f);
    assert 0 <= v < Pow2(f.width) <= 0x1_0000_0000;
    assert WrapU32(v) == v;
  }

  /** For an unsigned field of at most 32 bits and a group total below 2^32,
      a layer in the i-th group is rewritten to i (when i fits the field). */
  lemma MergeLayerGroup(m: LayerMerger, c: CellId, i: nat)
    requires Valid(m) && !m.field.signed && m.field.width <= 32
    requires SumNat(m.listToMerge) < 0x1_0000_0000 && i < |m.listToMerge| && i < Pow2(m.field.width)
    requires SumNat(m.listToMerge[..i]) <= Get(c, m.field) < SumNat(m.listToMerge[..i + 1])
    ensures Get(MergeLayer(m, PrefixBoundaries(m.listToMerge), c), m.field) == i
  {
    FieldOfWellFormed(m.layout, m.field);
    UnsignedNarrowDecode(c, m.field);
    GroupIndex(m.listToMerge, Get(c, m.field), i);
    GetSet(c, m.field, i);
  }

  /** ... and an identifier whose layer lies beyond all groups is unchanged. */
  lemma MergeLayerBeyond(m: LayerMerger, c: CellId)
    requires Valid(m) && !m.field.signed && m.field.width <= 32
    requires SumNat(m.listToMerge) < 0x1_0000_0000 && SumNat(m.listToMerge) <= Get(c, m.field)
    ensures MergeLayer(m, PrefixBoundaries(m.listToMerge), c) == c
  {
    FieldOfWellFormed(m.layout, m.field);
    UnsignedNarrowDecode(c, m.field);
    BeyondGroups(m.listToMerge, Get(c, m.field));
    SetGetIdentity(c, m.field);
  }

  /** ... and two identifiers whose layers lie within the groups keep the
      order of their layers, when every group index fits the field. */
  lemma MergeLayerMonotone(m: LayerMerger, c: CellId, d: CellId)
    requires Valid(m) && !m.field.signed && m.field.width <= 32
    requires SumNat(m.listToMerge) < 0x1_0000_0000 && |m.listToMerge| <= Pow2(m.field.width)
    requires Get(c, m.field) <= Get(d, m.field) < SumNat(m.listToMerge)
    ensures Get(MergeLayer(m, PrefixBoundaries(m.listToMerge), c), m.field) <=
            Get(MergeLayer(m, PrefixBoundaries(m.listToMerge), d), m.field)
  {
    var b := PrefixBoundaries(m.listToMerge);
    FieldOfWellFormed(m.layout, m.field);
    UnsignedNarrowDecode(c, m.field);
    UnsignedNarrowDecode(d, m.field);
    BucketMonotone(m.listToMerge, Get(c, m.field), Get(d, m.field));
    GetSet(c, m.field, Bucket(Get(c, m.field), b));
    GetSet(d, m.field, Bucket(Get(d, m.field), b));
  }

  /** `execute`: the boundaries are computed once, then every hit is copied
      with its identifier rewritten. */
  method Execute(m: LayerMerger, hits: seq<CaloHit>) returns (out: seq<CaloHit>)
    requires Valid(m)
    ensures |out| == |hits|
    ensures forall i :: 0 <= i < |hits| ==> SamePayload(out[i], hits[i])
    ensures forall i :: 0 <= i < |hits| ==> out[i].cellId == MergeLayer(m, PrefixBoundaries(m.listToMerge), hits[i].cellId)
    ensures forall i, g :: 0 <= i < |hits| && g in m.layout && g.name != m.field.name ==>
              Get(out[i].cellId, g) == Get(hits[i].cellId, g)
  {
    var b := Boundaries(m.listToMerge);
    out := seq(|hits|, i requires 0 <= i < |hits| => hits[i].(cellId := MergeLayer(m, b, hits[i].cellId)));
  }
}

=== FILE: readouts.dfy ===
/** The readout registry of the geometry service as the identifier
    transforms see it, and the two steps RewriteBitfield and
    RedoSegmentation share: deriving the detector fields and copying them
    from an old identifier into a new one. */
module Readouts {
  import opened Wrappers
  import opened BitField
  import opened Vectors

  /** A segmentation: its type name and the two geometry-library functions
      the transforms call, left uninterpreted. `cellIdAt(position, seed)`
      computes a cell identifier for a local position, seeded with a volume
      identifier; `positionOf(cellId)` is the centre of a cell. */
  datatype Segmentation = Segmentation(
    typeName: string,
    cellIdAt: (Vec3, CellId) -> CellId,
    positionOf: CellId -> Vec3)

  /** A readout: the identifier layout and the segmentation using it. */
  datatype Readout = Readout(layout: Layout, segmentation: Segmentation)

  /** Readouts by name. */
  type Registry = map<string, Readout>

  /** The coder only ever hands out well-formed layouts. */
  predicate ValidRegistry(reg: Registry)
  {
    forall name :: name in reg ==> WellFormed(reg[name].layout)
  }

  /** The detector fields: names of the layout's fields that are not listed
      for removal, in layout order. */
  function DetectorFields(l: Layout, removed: seq<string>): (r: seq<string>)
    ensures |r| <= |l|
    ensures forall n :: n in r <==> n in Names(l) && n !in removed
    ensures removed == [] ==> r == Names(l)
  {
    if |l| == 0 then []
    else
      var rest := DetectorFields(l[1..], removed);
      assert Names(l) == [l[0].name] + Names(l[1..]);
      (if l[0].name in removed then [] else [l[0].name]) + rest
  }

  /** Order preservation: the detector fields of a split layout are those of
      its front part followed by those of its back part. */
  lemma {:induction false} DetectorFieldsAppend(a: Layout, b: Layout, removed: seq<string>)
    ensures DetectorFields(a + b, removed) == DetectorFields(a, removed) + DetectorFields(b, removed)
  {
    if |a| == 0 {
      assert a + b == b;
    } else {
      assert (a + b)[1..] == a[1..] + b;
      DetectorFieldsAppend(a[1..], b, removed);
    }
  }

  /** The first of `names` that `target` lacks, if any. */
  function FirstMissing(names: seq<string>, target: seq<string>): (r: Option<string>)
    ensures r.None? <==> forall n :: n in names ==> n in target
    ensures r.Some? ==> r.value in names && r.value !in target
  {
    if |names| == 0 then None
    else if names[0] !in target then Some(names[0])
    else FirstMissing(names[1..], target)
  }

  /** Every name is a field of both layouts. */
  predicate Shared(names: seq<string>, oldL: Layout, newL: Layout)
  {
    forall n :: n in names ==> n in Names(oldL) && n in Names(newL)
  }

  /** The copy loop: for each name in turn, read the field from `src` with
      the old layout and write it into `dst` with the new layout. A copied
      field decodes in the new identifier to its old value when that value
      fits the new field; every new-layout field not copied keeps its value
      in `dst`. A value too wide for its new field is written as its low
      bits, as `Set` writes it. */
  function CopyFields(oldL: Layout, newL: Layout, names: seq<string>, src: CellId, dst: CellId): (r: CellId)
    requires WellFormed(oldL) && WellFormed(newL) && Shared(names, oldL, newL)
    ensures forall g :: g in newL && g.name !in names ==> Get(r, g) == Get(dst, g)
    ensures forall n :: n in names && InRange(FieldNamed(newL, n), Get(src, FieldNamed(oldL, n))) ==>
              Get(r, FieldNamed(newL, n)) == Get(src, FieldNamed(oldL, n))
    ensures forall n :: n in names ==>
              ToRaw(FieldNamed(newL, n), Get(r, FieldNamed(newL, n))) == ToRaw(FieldNamed(newL, n), Get(src, FieldNamed(oldL, n)))
  {
    if |names| == 0 then dst
    else
      var nf := FieldNamed(newL, names[0]);
      var v := Get(src, FieldNamed(oldL, names[0]));
      var d1 := Set(dst, nf, v);
      SetKeepsOthers(newL, dst, nf, v);
      GetSet(dst, nf, v);
      var r := CopyFields(oldL, newL, names[1..], src, d1);
      forall n | n in names
        ensures ToRaw(FieldNamed(newL, n), Get(r, FieldNamed(newL, n))) == ToRaw(FieldNamed(newL, n), Get(src, FieldNamed(oldL, n)))
      {
        if n !in names[1..] {
          assert n == names[0];
        }
      }
      forall n | n in names && InRange(FieldNamed(newL, n), Get(src, FieldNamed(oldL, n)))
        ensures Get(r, FieldNamed(newL, n)) == Get(src, FieldNamed(oldL, n))
      {
        FieldOfWellFormed(newL, FieldNamed(newL, n));
        RawInjective(FieldNamed(newL, n), Get(r, FieldNamed(newL, n)), Get(src, FieldNamed(oldL, n)));
      }
      r
  }

  /** The copy reads nothing of `src` but the listed fields: two sources that
      agree on them give the same result. */
  lemma {:induction false} CopyFieldsReadsOnlyNames(oldL: Layout, newL: Layout, names: seq<string>, src1: CellId, src2: CellId, dst: CellId)
    requires WellFormed(oldL) && WellFormed(newL) && Shared(names, oldL, newL)
    requires forall n :: n in names ==> Get(src1, FieldNamed(oldL, n)) == Get(src2, FieldNamed(oldL, n))
    ensures CopyFields(oldL, newL, names, src1, dst) == CopyFields(oldL, newL, names, src2, dst)
  {
    if |names| > 0 {
      var nf := FieldNamed(newL, names[0]);
      var d1 := Set(dst, nf, Get(src1, FieldNamed(oldL, names[0])));
      CopyFieldsReadsOnlyNames(oldL, newL, names[1..], src1, src2, d1);
    }
  }
}

=== FILE: redo_segmentation.dfy ===
/** RedoSegmentation: compute new cell identifiers for hits with a new
    segmentation, keeping the detector fields of the old identifier. */
module RedoSegmentation {
  import opened Wrappers
  import opened BitField
  import opened Vectors
  import opened Hits
  import opened Readouts

  /** The segmentation kinds the algorithm tells apart. */
  datatype Kind = Generic | ModuleThetaMerged

  /** The type name of the segmentation that merges modules and theta bins. */
  const ModuleThetaMergedType: string := "FCCSWGridModuleThetaMerged"

  /** The field the module-theta merged segmentation needs in its seed. */
  const ModuleField: string := "module"

  function KindOf(s: Segmentation): (k: Kind)
    ensures k == ModuleThetaMerged <==> s.typeName == ModuleThetaMergedType
  {
    if s.typeName == ModuleThetaMergedType then ModuleThetaMerged else Generic
  }

  datatype InitError = MissingOldReadout | MissingNewReadout | DetectorFieldMissing(name: string)

  /** Asking the coder for a field it does not have throws; execution stops. */
  datatype ExecError = UnknownField(name: string)

  /** What initialisation leaves for execution. */
  datatype Redo = Redo(
    oldLayout: Layout, newLayout: Layout,
    oldSegmentation: Segmentation, newSegmentation: Segmentation,
    oldIdentifiers: seq<string>, detectorFields: seq<string>,
    oldKind: Kind, newKind: Kind)

  predicate Valid(rd: Redo)
  {
    && WellFormed(rd.oldLayout) && WellFormed(rd.newLayout)
    && Shared(rd.detectorFields, rd.oldLayout, rd.newLayout)
    && rd.oldKind == KindOf(rd.oldSegmentation) && rd.newKind == KindOf(rd.newSegmentation)
  }

  /** `initialize`: both readouts must exist and every old field not listed
      as a segmentation field must be a field of the new readout. An empty
      list of segmentation fields only warns. The listed segmentation fields
      themselves are not checked against the old readout. */
  function Initialize(oldName: string, newName: string, oldIdentifiers: seq<string>, reg: Registry): (r: Result<Redo, InitError>)
    requires ValidRegistry(reg)
    ensures r.Ok? <==>
      && oldName in reg && newName in reg
      && forall n :: n in Names(reg[oldName].layout) && n !in oldIdentifiers ==> n in Names(reg[newName].layout)
    ensures r.Ok? ==> Valid(r.value) && r.value.oldIdentifiers == oldIdentifiers
    ensures r.Ok? ==> r.value.oldLayout == reg[oldName].layout && r.value.newLayout == reg[newName].layout
    ensures r.Ok? ==> r.value.oldSegmentation == reg[oldName].segmentation && r.value.newSegmentation == reg[newName].segmentation
    ensures r.Ok? ==> forall n :: n in r.value.detectorFields <==> n in Names(reg[oldName].layout) && n !in oldIdentifiers
    ensures r.Err? && r.error.DetectorFieldMissing? ==>
      oldName in reg && newName in reg &&
      r.error.name in Names(reg[oldName].layout) && r.error.name !in oldIdentifiers && r.error.name !in Names(reg[newName].layout)
  {
    if oldName !in reg then Err(MissingOldReadout)
    else if newName !in reg then Err(MissingNewReadout)
    else
      var oldR := reg[oldName];
      var newR := reg[newName];
      var detector := DetectorFields(oldR.layout, oldIdentifiers);
      match FirstMissing(detector, Names(newR.layout))
      case Some(n) => Err(DetectorFieldMissing(n))
      case None =>
        Ok(Redo(oldR.layout, newR.layout, oldR.segmentation, newR.segmentation,
                oldIdentifiers, detector, KindOf(oldR.segmentation), KindOf(newR.segmentation)))
  }

  /** Setting each listed field to 0 in turn, failing at the first name the
      layout lacks. */
  function ZeroFields(l: Layout, names: seq<string>, c: CellId): (r: Result<CellId, ExecError>)
    requires WellFormed(l)
    ensures r.Ok? <==> forall n :: n in names ==> n in Names(l)
    ensures r.Err? ==> r.error.name in names && r.error.name !in Names(l)
    ensures r.Ok? ==> forall n :: n in names ==> Get(r.value, FieldNamed(l, n)) == 0
    ensures r.Ok? ==> forall g :: g in l && g.name !in names ==> Get(r.value, g) == Get(c, g)
  {
    if |names| == 0 then Ok(c)
    else if names[0] !in Names(l) then Err(UnknownField(names[0]))
    else
      var f := FieldNamed(l, names[0]);
      FieldOfWellFormed(l, f);
      var c1 := Set(c, f, 0);
      GetSet(c, f, 0);
      SetKeepsOthers(l, c, f, 0);
      assert forall n :: n in names ==> n == names[0] || n in names[1..];
      ZeroFields(l, names[1..], c1)
  }

  /** An identifier whose listed fields are already 0 is left as it is. */
  lemma {:induction false} ZeroFieldsFixed(l: Layout, names: seq<string>, c: CellId)
    requires WellFormed(l) && forall n :: n in names ==> n in Names(l)
    requires forall n :: n in names ==> Get(c, FieldNamed(l, n)) == 0
    ensures ZeroFields(l, names, c) == Ok(c)
  {
    if |names| > 0 {
      var f := FieldNamed(l, names[0]);
      FieldOfWellFormed(l, f);
      SetGetIdentity(c, f);
      ZeroFieldsFixed(l, names[1..], c);
    }
  }

  /** Taking the volume identifier twice changes nothing. */
  lemma ZeroFieldsIdempotent(l: Layout, names: seq<string>, c: CellId)
    requires WellFormed(l) && ZeroFields(l, names, c).Ok?
    ensures ZeroFields(l, names, ZeroFields(l, names, c).value) == ZeroFields(l, names, c)
  {
    ZeroFieldsFixed(l, names, ZeroFields(l, names, c).value);
  }

  /** `volumeID`: the old identifier with the old segmentation fields zeroed. */
  function VolumeId(rd: Redo, c: CellId): Result<CellId, ExecError>
    requires Valid(rd)
  {
    ZeroFields(rd.oldLayout, rd.oldIdentifiers, c)
  }

  /** The local position handed to the new segmentation: the centre of the
      old cell for a module-theta merged old segmentation, otherwise the hit
      position converted from mm to cm. */
  function Position(rd: Redo, hit: CaloHit): (p: Vec3)
    ensures rd.oldKind == ModuleThetaMerged ==> p == rd.oldSegmentation.positionOf(hit.cellId)
    ensures rd.oldKind == Generic ==> Scale(10.0, p) == hit.position
  {
    if rd.oldKind == ModuleThetaMerged then rd.oldSegmentation.positionOf(hit.cellId)
    else Vec3(hit.position.x / 10.0, hit.position.y / 10.0, hit.position.z / 10.0)
  }

  /** The identifier the new segmentation is seeded with: 0, or, for a
      module-theta merged new segmentation, the volume identifier with its
      module field (in the new layout) set to the old module number. The old
      module is read before the new one is written. */
  function Seed(rd: Redo, c: CellId, vId: CellId): (r: Result<CellId, ExecError>)
    requires Valid(rd)
    ensures rd.newKind == Generic ==> r == Ok(0)
    ensures rd.newKind == ModuleThetaMerged ==>
              (r.Ok? <==> ModuleField in Names(rd.oldLayout) && ModuleField in Names(rd.newLayout))
    ensures rd.newKind == ModuleThetaMerged && r.Ok? ==>
              && ToRaw(FieldNamed(rd.newLayout, ModuleField), Get(r.value, FieldNamed(rd.newLayout, ModuleField)))
                 == ToRaw(FieldNamed(rd.newLayout, ModuleField), Get(c, FieldNamed(rd.oldLayout, ModuleField)))
              && forall g :: g in rd.newLayout && g.name != ModuleField ==> Get(r.value, g) == Get(vId, g)
  {
    if rd.newKind == Generic then Ok(0)
    else if ModuleField !in Names(rd.oldLayout) then Err(UnknownField(ModuleField))
    else if ModuleField !in Names(rd.newLayout) then Err(UnknownField(ModuleField))
    else
      var f := FieldNamed(rd.newLayout, ModuleField);
      var v := Get(c, FieldNamed(rd.oldLayout, ModuleField));
      FieldOfWellFormed(rd.newLayout, f);
      GetSet(vId, f, v);
      SetKeepsOthers(rd.newLayout, vId, f, v);
      Ok(Set(vId, f, v))
  }

  /** Whether every coder lookup execution makes succeeds. */
  predicate LookupsSucceed(rd: Redo)
  {
    && (forall n :: n in rd.oldIdentifiers ==> n in Names(rd.oldLayout))
    && (rd.newKind == ModuleThetaMerged ==> ModuleField in Names(rd.oldLayout) && ModuleField in Names(rd.newLayout))
  }

  /** One hit: position, volume identifier, seed, new segmentation, then the
      detector fields copied over from the old identifier. */
  function RedoHit(rd: Redo, hit: CaloHit): (r: Result<SimCaloHit, ExecError>)
    requires Valid(rd)
    ensures r.Ok? <==> LookupsSucceed(rd)
    ensures r.Ok? ==> r.value.energy == hit.energy
    ensures r.Ok? ==> forall n :: n in rd.detectorFields ==>
              ToRaw(FieldNamed(rd.newLayout, n), Get(r.value.cellId, FieldNamed(rd.newLayout, n)))
              == ToRaw(FieldNamed(rd.newLayout, n), Get(hit.cellId, FieldNamed(rd.oldLayout, n)))
    ensures r.Ok? ==> forall n :: n in rd.detectorFields && InRange(FieldNamed(rd.newLayout, n), Get(hit.cellId, FieldNamed(rd.oldLayout, n))) ==>
              Get(r.value.cellId, FieldNamed(rd.newLayout, n)) == Get(hit.cellId, FieldNamed(rd.oldLayout, n))
    ensures r.Ok? && rd.newKind == Generic ==> forall g :: g in rd.newLayout && g.name !in rd.detectorFields ==>
              Get(r.value.cellId, g) == Get(rd.newSegmentation.cellIdAt(Position(rd, hit), 0), g)
    ensures r.Ok? && rd.newKind == ModuleThetaMerged ==>
              && VolumeId(rd, hit.cellId).Ok?
              && Seed(rd, hit.cellId, VolumeId(rd, hit.cellId).value).Ok?
              && forall g :: g in rd.newLayout && g.name !in rd.detectorFields ==>
                   Get(r.value.cellId, g)
                   == Get(rd.newSegmentation.cellIdAt(Position(rd, hit), Seed(rd, hit.cellId, VolumeId(rd, hit.cellId).value).value), g)
  {
    var position := Position(rd, hit);
    match VolumeId(rd, hit.cellId)
    case Err(e) => Err(e)
    case Ok(vId) =>
      match Seed(rd, hit.cellId, vId)
      case Err(e) => Err(e)
      case Ok(seed) =>
        var segmented := rd.newSegmentation.cellIdAt(position, seed);
        Ok(SimCaloHit(CopyFields(rd.oldLayout, rd.newLayout, rd.detectorFields, hit.cellId, segmented), hit.energy))
  }

  /** For a merged new segmentation, the seed handed to it is the hit's
      volume identifier (the old segmentation fields zeroed) carrying the
      hit's old module number in `module`. */
  lemma MergedSeed(rd: Redo, hit: CaloHit)
    requires Valid(rd) && rd.newKind == ModuleThetaMerged && RedoHit(rd, hit).Ok?
    ensures VolumeId(rd, hit.cellId).Ok? && Seed(rd, hit.cellId, VolumeId(rd, hit.cellId).value).Ok?
    ensures var vId := VolumeId(rd, hit.cellId).value;
            var seed := Seed(rd, hit.cellId, vId).value;
            var oldModule, newModule := FieldNamed(rd.oldLayout, ModuleField), FieldNamed(rd.newLayout, ModuleField);
            && ToRaw(newModule, Get(seed, newModule)) == ToRaw(newModule, Get(hit.cellId, oldModule))
            && (forall n :: n in rd.oldIdentifiers ==> Get(vId, FieldNamed(rd.oldLayout, n)) == 0)
            && (forall g :: g in rd.oldLayout && g.name !in rd.oldIdentifiers ==> Get(vId, g) == Get(hit.cellId, g))
            && (forall g :: g in rd.newLayout && g.name != ModuleField ==> Get(seed, g) == Get(vId, g))
  {
  }

  /** `execute`: the hits in order; the first failing lookup stops the event.
      An event without hits always succeeds. */
  function Execute(rd: Redo, hits: seq<CaloHit>): (r: Result<seq<SimCaloHit>, ExecError>)
    requires Valid(rd)
    ensures r.Ok? <==> hits == [] || LookupsSucceed(rd)
    ensures r.Ok? ==> |r.value| == |hits| && forall i :: 0 <= i < |hits| ==> Ok(r.value[i]) == RedoHit(rd, hits[i])
  {
    AllOk(seq(|hits|, i requires 0 <= i < |hits| => RedoHit(rd, hits[i])))
  }
}

=== FILE: rewrite_bitfield.dfy ===
/** RewriteBitfield: re-encode hit identifiers from an old readout layout
    into a new one, keeping the detector fields and dropping the listed
    segmentation fields. */
module RewriteBitfield {
  import opened Wrappers
  import opened BitField
  import opened Hits
  import opened Readouts

  datatype InitError = MissingOldReadout | MissingNewReadout | DetectorFieldMissing(name: string)

  /** What initialisation leaves for execution. */
  datatype Rewriter = Rewriter(oldLayout: Layout, newLayout: Layout, detectorFields: seq<string>)

  predicate Valid(w: Rewriter)
  {
    WellFormed(w.oldLayout) && WellFormed(w.newLayout) && Shared(w.detectorFields, w.oldLayout, w.newLayout)
  }

  /** `initialize`: both readouts must exist, and every field of the old
      layout not listed for removal must also be a field of the new one. An
      empty removal list is allowed. */
  function Initialize(oldName: string, newName: string, oldIdentifiers: seq<string>, reg: Registry): (r: Result<Rewriter, InitError>)
    requires ValidRegistry(reg)
    ensures r.Ok? <==>
      && oldName in reg && newName in reg
      && forall n :: n in Names(reg[oldName].layout) && n !in oldIdentifiers ==> n in Names(reg[newName].layout)
    ensures r.Ok? ==> Valid(r.value) && r.value.oldLayout == reg[oldName].layout && r.value.newLayout == reg[newName].layout
    ensures r.Ok? ==> forall n :: n in r.value.detectorFields <==> n in Names(reg[oldName].layout) && n !in oldIdentifiers
    ensures r.Err? && r.error.DetectorFieldMissing? ==>
      oldName in reg && newName in reg &&
      r.error.name in Names(reg[oldName].layout) && r.error.name !in oldIdentifiers && r.error.name !in Names(reg[newName].layout)
  {
    if oldName !in reg then Err(MissingOldReadout)
    else if newName !in reg then Err(MissingNewReadout)
    else
      var oldL := reg[oldName].layout;
      var newL := reg[newName].layout;
      var detector := DetectorFields(oldL, oldIdentifiers);
      match FirstMissing(detector, Names(newL))
      case Some(n) => Err(DetectorFieldMissing(n))
      case None => Ok(Rewriter(oldL, newL, detector))
  }

  /** The new identifier: starting from 0, every detector field is copied
      from the old identifier. */
  function Rewrite(w: Rewriter, c: CellId): (r: CellId)
    requires Valid(w)
    ensures forall n :: n in w.detectorFields && InRange(FieldNamed(w.newLayout, n), Get(c, FieldNamed(w.oldLayout, n))) ==>
              Get(r, FieldNamed(w.newLayout, n)) == Get(c, FieldNamed(w.oldLayout, n))
    ensures forall g :: g in w.newLayout && g.name !in w.detectorFields ==> Get(r, g) == 0
  {
    var zero: CellId := 0;
    var r := CopyFields(w.oldLayout, w.newLayout, w.detectorFields, c, zero);
    forall g | g in w.newLayout && g.name !in w.detectorFields ensures Get(r, g) == 0 {
      FieldOfWellFormed(w.newLayout, g);
      GetZero(zero, g);
    }
    r
  }

  /** The dropped fields have no influence: identifiers that agree on the
      detector fields are rewritten to the same identifier. */
  lemma RewriteIgnoresRemoved(w: Rewriter, c1: CellId, c2: CellId)
    requires Valid(w)
    requires forall n :: n in w.detectorFields ==> Get(c1, FieldNamed(w.oldLayout, n)) == Get(c2, FieldNamed(w.oldLayout, n))
    ensures Rewrite(w, c1) == Rewrite(w, c2)
  {
    CopyFieldsReadsOnlyNames(w.oldLayout, w.newLayout, w.detectorFields, c1, c2, 0);
  }

  /** Rewriting into the same layout with nothing removed keeps every field. */
  lemma RewriteSameLayout(oldName: string, reg: Registry, c: CellId)
    requires ValidRegistry(reg) && oldName in reg
    ensures Initialize(oldName, oldName, [], reg).Ok?
    ensures var w := Initialize(oldName, oldName, [], reg).value;
            forall g :: g in w.newLayout ==> Get(Rewrite(w, c), g) == Get(c, g)
  {
    var w := Initialize(oldName, oldName, [], reg).value;
    forall g | g in w.newLayout ensures Get(Rewrite(w, c), g) == Get(c, g) {
      FieldOfWellFormed(w.newLayout, g);
      var f := FieldNamed(w.newLayout, g.name);
      assert f == g by {
        NamesUnique(w.newLayout, f, g);
      }
    }
  }

  /** `execute`: one new hit per hit, with only the rewritten identifier,
      the energy and the time set. */
  function Execute(w: Rewriter, hits: seq<CaloHit>): (out: seq<CaloHit>)
    requires Valid(w)
    ensures |out| == |hits|
    ensures forall i :: 0 <= i < |hits| ==>
              out[i] == EnergyTimeHit(Rewrite(w, hits[i].cellId), hits[i].energy, hits[i].time)
  {
    seq(|hits|, i requires 0 <= i < |hits| => EnergyTimeHit(Rewrite(w, hits[i].cellId), hits[i].energy, hits[i].time))
  }
}

=== FILE: sampling_fraction_in_layers.dfy ===
/** SamplingFractionInLayers: the total and active-material energy per
    layer and overall, and the sampling fractions derived from them. */
module SamplingFractionInLayers {
  import opened Wrappers
  import opened Seqs
  import opened BitField
  import opened Readouts

  /** The configured tool: the readout's identifier layout, the names of
      the layer and active-material fields, the value marking active
      material, the number of layers and the first layer inside the
      calorimeter. */
  datatype Config = Config(layout: Layout, layerField: string, activeField: string, activeValue: int,
                           numLayers: nat, firstLayerId: nat)

  /** `initialize`: the readout must exist. */
  function Initialize(readoutName: string, reg: Registry, layerField: string, activeField: string,
                      activeValue: int, numLayers: nat, firstLayerId: nat): (r: Option<Config>)
    requires ValidRegistry(reg)
    ensures r.Some? <==> readoutName in reg
    ensures r.Some? ==> WellFormed(r.value.layout) && r.value.layout == reg[readoutName].layout
    ensures r.Some? ==> r.value.numLayers == numLayers && r.value.firstLayerId == firstLayerId
  {
    if readoutName !in reg then None
    else Some(Config(reg[readoutName].layout, layerField, activeField, activeValue, numLayers, firstLayerId))
  }

  datatype Deposit = Deposit(cellId: CellId, energy: real)

  /** Why an event cannot be evaluated: a field the layout lacks makes the
      decoder throw; a layer identifier outside the per-layer sums is an
      unchecked vector access, which the model refuses. */
  datatype ExecError = UnknownField(name: string) | LayerOutOfRange(layer: int)

  /** The running sums: calorimeter total, per-layer total, active total and
      per-layer active. */
  datatype Sums = Sums(total: real, layers: seq<real>, active: real, activeLayers: seq<real>)

  function Zeros(n: nat): (z: seq<real>)
    ensures |z| == n && forall i :: 0 <= i < n ==> z[i] == 0.0
  {
    seq(n, i => 0.0)
  }

  /** A deposit as the loop sees it: its layer identifier and whether it
      is active material, each absent when the layout lacks the field, and
      its energy. Decoding has no effect, so decoding the active field of a
      deposit whose layer makes the loop skip it changes nothing. */
  datatype Item = Item(layer: Option<int>, active: Option<bool>, energy: real)

  /** The value of the field called `name`, absent when the layout lacks it. */
  function FieldValue(l: Layout, name: string, c: CellId): (v: Option<int>)
    requires WellFormed(l)
    ensures v.Some? <==> name in Names(l)
  {
    if name !in Names(l) then None
    else
      var f := FieldNamed(l, name);
      FieldOfWellFormed(l, f);
      Some(Get(c, f))
  }

  function Decode(cfg: Config, d: Deposit): (it: Item)
    requires WellFormed(cfg.layout)
    ensures it.energy == d.energy
    ensures it.layer == FieldValue(cfg.layout, cfg.layerField, d.cellId)
    ensures it.active.Some? <==> cfg.activeField in Names(cfg.layout)
  {
    var active := FieldValue(cfg.layout, cfg.activeField, d.cellId);
    Item(FieldValue(cfg.layout, cfg.layerField, d.cellId),
         if active.Some? then Some(active.value == cfg.activeValue) else None,
         d.energy)
  }

  function Items(cfg: Config, ds: seq<Deposit>): (items: seq<Item>)
    requires WellFormed(cfg.layout)
    ensures |items| == |ds| && forall i :: 0 <= i < |ds| ==> items[i] == Decode(cfg, ds[i])
  {
    seq(|ds|, i requires 0 <= i < |ds| => Decode(cfg, ds[i]))
  }

  /** One deposit: its layer sum grows whatever the layer; inside the
      calorimeter the total grows, and in active material the active sums
      too. The active field is read only inside the calorimeter. */
  function AddDeposit(cfg: Config, s: Sums, it: Item): (r: Result<Sums, ExecError>)
    requires |s.layers| == |s.activeLayers| == cfg.numLayers
    ensures r.Ok? ==> |r.value.layers| == |r.value.activeLayers| == cfg.numLayers
  {
    match it.layer
    case None => Err(UnknownField(cfg.layerField))
    case Some(id) =>
      if !(0 <= id < cfg.numLayers) then Err(LayerOutOfRange(id))
      else
        var e := it.energy;
        var layers := s.layers[id := s.layers[id] + e];
        if id < cfg.firstLayerId then Ok(Sums(s.total, layers, s.active, s.activeLayers))
        else
          match it.active
          case None => Err(UnknownField(cfg.activeField))
          case Some(true) => Ok(Sums(s.total + e, layers, s.active + e, s.activeLayers[id := s.activeLayers[id] + e]))
          case Some(false) => Ok(Sums(s.total + e, layers, s.active, s.activeLayers))
  }

  function Accumulate(cfg: Config, items: seq<Item>): (r: Result<Sums, ExecError>)
    ensures r.Ok? ==> |r.value.layers| == |r.value.activeLayers| == cfg.numLayers
  {
    if |items| == 0 then Ok(Sums(0.0, Zeros(cfg.numLayers), 0.0, Zeros(cfg.numLayers)))
    else
      var n := |items| - 1;
      match Accumulate(cfg, items[..n])
      case Err(e) => Err(e)
      case Ok(s) => AddDeposit(cfg, s, items[n])
  }

  /** Whether a decoded deposit can be evaluated: it has a layer, the layer
      has a sum, and inside the calorimeter it has an active flag. */
  predicate Fits(cfg: Config, it: Item)
  {
    && it.layer.Some?
    && 0 <= it.layer.value < cfg.numLayers
    && (it.layer.value >= cfg.firstLayerId ==> it.active.Some?)
  }

  /** Whether a deposit can be evaluated: its layer field exists and is a
      layer, and inside the calorimeter its active field exists. */
  predicate Evaluable(cfg: Config, d: Deposit)
    requires WellFormed(cfg.layout)
  {
    && cfg.layerField in Names(cfg.layout)
    && var lf := FieldNamed(cfg.layout, cfg.layerField);
       FieldOfWellFormed(cfg.layout, lf);
       var id := Get(d.cellId, lf);
       && 0 <= id < cfg.numLayers
       && (id >= cfg.firstLayerId ==> cfg.activeField in Names(cfg.layout))
  }

  lemma {:induction false} AccumulateSucceeds(cfg: Config, items: seq<Item>)
    ensures Accumulate(cfg, items).Ok? <==> forall i :: 0 <= i < |items| ==> Fits(cfg, items[i])
  {
    if |items| > 0 {
      var n := |items| - 1;
      AccumulateSucceeds(cfg, items[..n]);
      if Accumulate(cfg, items[..n]).Err? {
        var i :| 0 <= i < n && !Fits(cfg, items[..n][i]);
        assert items[i] == items[..n][i];
      } else {
        assert forall i :: 0 <= i < n ==> items[i] == items[..n][i];
      }
    }
  }

  /** The loop over the decoded deposits succeeds exactly when every
      deposit can be evaluated. */
  lemma ItemsFit(cfg: Config, ds: seq<Deposit>)
    requires WellFormed(cfg.layout)
    ensures Accumulate(cfg, Items(cfg, ds)).Ok? <==> forall d :: d in ds ==> Evaluable(cfg, d)
  {
    var items := Items(cfg, ds);
    AccumulateSucceeds(cfg, items);
    forall d | d in ds
      ensures Fits(cfg, Decode(cfg, d)) <==> Evaluable(cfg, d)
    {
    }
    assert forall d :: d in ds ==> exists i :: 0 <= i < |ds| && ds[i] == d;
    assert forall i :: 0 <= i < |ds| ==> ds[i] in ds;
  }

  /** The layer a deposit's identifier names, absent when the layout lacks
      the layer field. */
  function LayerOf(cfg: Config, d: Deposit): Option<int>
    requires WellFormed(cfg.layout)
  {
    FieldValue(cfg.layout, cfg.layerField, d.cellId)
  }

  /** Whether a deposit's active field holds the active value. */
  predicate IsActive(cfg: Config, d: Deposit)
    requires WellFormed(cfg.layout)
  {
    FieldValue(cfg.layout, cfg.activeField, d.cellId) == Some(cfg.activeValue)
  }

  /** Reference sums over the deposits: the energy of every deposit in layer
      i, wherever the calorimeter starts ... */
  function LayerEnergy(cfg: Config, ds: seq<Deposit>, i: int): real
    requires WellFormed(cfg.layout)
  {
    if |ds| == 0 then 0.0
    else
      var n := |ds| - 1;
      LayerEnergy(cfg, ds[..n], i) + (if LayerOf(cfg, ds[n]) == Some(i) then ds[n].energy else 0.0)
  }

  /** ... and the energy of the active deposits in layer i, counted only
      from the first calorimeter layer on. */
  function ActiveEnergy(cfg: Config, ds: seq<Deposit>, i: int): real
    requires WellFormed(cfg.layout)
  {
    if |ds| == 0 then 0.0
    else
      var n := |ds| - 1;
      ActiveEnergy(cfg, ds[..n], i)
        + (if LayerOf(cfg, ds[n]) == Some(i) && i >= cfg.firstLayerId && IsActive(cfg, ds[n]) then ds[n].energy else 0.0)
  }

  /** No active energy is counted before the first calorimeter layer. */
  lemma {:induction false} ActiveBeforeFirst(cfg: Config, ds: seq<Deposit>, i: int)
    requires WellFormed(cfg.layout) && i < cfg.firstLayerId
    ensures ActiveEnergy(cfg, ds, i) == 0.0
  {
    if |ds| > 0 {
      ActiveBeforeFirst(cfg, ds[..|ds| - 1], i);
    }
  }

  /** What one deposit adds to the sums of layer i. */
  lemma AddDepositEntries(cfg: Config, s: Sums, it: Item, i: int)
    requires |s.layers| == |s.activeLayers| == cfg.numLayers && 0 <= i < cfg.numLayers
    requires AddDeposit(cfg, s, it).Ok?
    ensures var r := AddDeposit(cfg, s, it).value;
            && r.layers[i] == s.layers[i] + (if it.layer == Some(i) then it.energy else 0.0)
            && r.activeLayers[i] == s.activeLayers[i]
                 + (if it.layer == Some(i) && i >= cfg.firstLayerId && it.active == Some(true) then it.energy else 0.0)
  {
  }

  /** Each accumulated layer sum is the reference sum over the deposits. */
  lemma {:induction false} AccumulateEnergies(cfg: Config, ds: seq<Deposit>)
    requires WellFormed(cfg.layout) && Accumulate(cfg, Items(cfg, ds)).Ok?
    ensures var s := Accumulate(cfg, Items(cfg, ds)).value;
            forall i :: 0 <= i < cfg.numLayers ==>
              s.layers[i] == LayerEnergy(cfg, ds, i) && s.activeLayers[i] == ActiveEnergy(cfg, ds, i)
  {
    if |ds| > 0 {
      var n := |ds| - 1;
      var items := Items(cfg, ds);
      assert items[..n] == Items(cfg, ds[..n]);
      AccumulateEnergies(cfg, ds[..n]);
      var s0 := Accumulate(cfg, items[..n]).value;
      var it := items[n];
      assert it == Decode(cfg, ds[n]);
      assert it.layer == LayerOf(cfg, ds[n]);
      assert it.active == Some(true) <==> IsActive(cfg, ds[n]);
      forall i | 0 <= i < cfg.numLayers
        ensures Accumulate(cfg, items).value.layers[i] == LayerEnergy(cfg, ds, i)
        ensures Accumulate(cfg, items).value.activeLayers[i] == ActiveEnergy(cfg, ds, i)
      {
        AddDepositEntries(cfg, s0, it, i);
      }
    }
  }

  /** The sums are the reference sums over the deposits, layer by layer,
      and no layer before the calorimeter has active energy. */
  ghost predicate MatchesDeposits(cfg: Config, ds: seq<Deposit>, s: Sums)
    requires WellFormed(cfg.layout)
  {
    && |s.layers| == |s.activeLayers| == cfg.numLayers
    && forall i :: 0 <= i < cfg.numLayers ==>
         && s.layers[i] == LayerEnergy(cfg, ds, i)
         && s.activeLayers[i] == ActiveEnergy(cfg, ds, i)
         && (i < cfg.firstLayerId ==> s.activeLayers[i] == 0.0)
  }

  lemma AccumulateMatches(cfg: Config, ds: seq<Deposit>)
    requires WellFormed(cfg.layout) && Accumulate(cfg, Items(cfg, ds)).Ok?
    ensures MatchesDeposits(cfg, ds, Accumulate(cfg, Items(cfg, ds)).value)
  {
    AccumulateEnergies(cfg, ds);
    forall i | 0 <= i < cfg.numLayers && i < cfg.firstLayerId
      ensures ActiveEnergy(cfg, ds, i) == 0.0
    {
      ActiveBeforeFirst(cfg, ds, i);
    }
  }

  /** The first calorimeter layer, capped at the number of layers. */
  function First(cfg: Config): nat
  {
    if cfg.firstLayerId <= cfg.numLayers then cfg.firstLayerId else cfg.numLayers
  }

  /** The calorimeter total is the sum of the layers from the first
      calorimeter layer on, and the active total the sum of the active
      layers. */
  predicate Consistent(cfg: Config, s: Sums)
  {
    && |s.layers| == |s.activeLayers| == cfg.numLayers
    && s.total == Sum(s.layers[First(cfg)..])
    && s.active == Sum(s.activeLayers)
  }

  /** With non-negative deposits, active energy never exceeds total energy,
      overall and per layer, and layers before the calorimeter carry no
      active energy. */
  predicate Bounded(cfg: Config, s: Sums)
  {
    && |s.layers| == |s.activeLayers| == cfg.numLayers
    && 0.0 <= s.active <= s.total
    && (forall i :: 0 <= i < cfg.numLayers ==> 0.0 <= s.activeLayers[i] <= s.layers[i])
    && (forall i :: 0 <= i < cfg.numLayers && i < cfg.firstLayerId ==> s.activeLayers[i] == 0.0)
  }

  lemma AddDepositConsistent(cfg: Config, s: Sums, it: Item)
    requires Consistent(cfg, s) && AddDeposit(cfg, s, it).Ok?
    ensures Consistent(cfg, AddDeposit(cfg, s, it).value)
  {
    var id := it.layer.value;
    var r := AddDeposit(cfg, s, it).value;
    var e := it.energy;
    assert r.layers == s.layers[id := s.layers[id] + e];
    LayerSumUpdate(s.layers, First(cfg), id, e);
    if id >= cfg.firstLayerId && it.active == Some(true) {
      assert r.activeLayers == s.activeLayers[id := s.activeLayers[id] + e];
      SumUpdate(s.activeLayers, id, e);
    }
  }

  /** Adding to one layer changes the sum from layer `k` on exactly when
      the layer is at least `k`. */
  lemma LayerSumUpdate(layers: seq<real>, k: nat, id: nat, e: real)
    requires k <= |layers| && id < |layers|
    ensures Sum(layers[id := layers[id] + e][k..]) == Sum(layers[k..]) + (if id >= k then e else 0.0)
  {
    var updated := layers[id := layers[id] + e];
    if id < k {
      assert updated[k..] == layers[k..];
    } else {
      assert updated[k..] == layers[k..][id - k := layers[k..][id - k] + e];
      SumUpdate(layers[k..], id - k, e);
    }
  }

  lemma AddDepositBounded(cfg: Config, s: Sums, it: Item)
    requires Bounded(cfg, s) && it.energy >= 0.0 && AddDeposit(cfg, s, it).Ok?
    ensures Bounded(cfg, AddDeposit(cfg, s, it).value)
  {
  }

  /** The accumulated sums are consistent; with non-negative deposits they
      are also bounded. */
  lemma {:induction false} AccumulateInvariants(cfg: Config, items: seq<Item>)
    requires Accumulate(cfg, items).Ok?
    ensures Consistent(cfg, Accumulate(cfg, items).value)
    ensures (forall i :: 0 <= i < |items| ==> items[i].energy >= 0.0) ==> Bounded(cfg, Accumulate(cfg, items).value)
  {
    if |items| == 0 {
      var z := Zeros(cfg.numLayers);
      ZerosSum(z);
      ZerosSum(z[First(cfg)..]);
    } else {
      var n := |items| - 1;
      AccumulateInvariants(cfg, items[..n]);
      var s := Accumulate(cfg, items[..n]).value;
      AddDepositConsistent(cfg, s, items[n]);
      if forall i :: 0 <= i < |items| ==> items[i].energy >= 0.0 {
        assert forall i :: 0 <= i < n ==> items[..n][i].energy >= 0.0;
        AddDepositBounded(cfg, s, items[n]);
      }
    }
  }

  lemma {:induction false} ZerosSum(z: seq<real>)
    requires forall i :: 0 <= i < |z| ==> z[i] == 0.0
    ensures Sum(z) == 0.0
  {
    if |z| > 0 {
      ZerosSum(z[..|z| - 1]);
    }
  }

  /** `f` is the share `active / total` of a positive total. */
  predicate IsRatio(f: real, active: real, total: real)
  {
    f * total == active
  }

  /** A sampling fraction: recorded only when there is energy to divide by. */
  function Ratio(active: real, total: real): (r: Option<real>)
    ensures r.Some? <==> total > 0.0
    ensures r.Some? ==> IsRatio(r.value, active, total)
    ensures r.Some? && 0.0 <= active <= total ==> 0.0 <= r.value <= 1.0
  {
    if total > 0.0 then
      FractionBounds(active, total);
      Some(active / total)
    else None
  }

  lemma FractionBounds(a: real, b: real)
    requires b > 0.0
    ensures 0.0 <= a <= b ==> 0.0 <= a / b <= 1.0
    ensures a == (a / b) * b
  {
  }

  /** What an event fills: the sums and the fractions that are recorded. */
  datatype Output = Output(sums: Sums, fraction: Option<real>, layerFractions: seq<Option<real>>)

  /** `execute`: accumulate every deposit, then the overall fraction and one
      per layer. With non-negative deposits every recorded fraction lies
      in [0, 1]. */
  function Execute(cfg: Config, ds: seq<Deposit>): (r: Result<Output, ExecError>)
    requires WellFormed(cfg.layout)
    ensures r.Ok? <==> forall d :: d in ds ==> Evaluable(cfg, d)
    ensures r.Ok? ==> Consistent(cfg, r.value.sums) && |r.value.layerFractions| == cfg.numLayers
    ensures r.Ok? ==> MatchesDeposits(cfg, ds, r.value.sums)
    ensures r.Ok? ==> (r.value.fraction.Some? <==> r.value.sums.total > 0.0)
    ensures r.Ok? && r.value.fraction.Some? ==> IsRatio(r.value.fraction.value, r.value.sums.active, r.value.sums.total)
    ensures r.Ok? ==> forall i :: 0 <= i < cfg.numLayers && r.value.layerFractions[i].Some? ==>
              IsRatio(r.value.layerFractions[i].value, r.value.sums.activeLayers[i], r.value.sums.layers[i])
    ensures r.Ok? ==> forall i :: 0 <= i < cfg.numLayers ==>
              (r.value.layerFractions[i].Some? <==> r.value.sums.layers[i] > 0.0)
    ensures r.Ok? && (forall i :: 0 <= i < |ds| ==> ds[i].energy >= 0.0) ==>
              && (r.value.fraction.Some? ==> 0.0 <= r.value.fraction.value <= 1.0)
              && forall i :: 0 <= i < cfg.numLayers && r.value.layerFractions[i].Some? ==>
                   0.0 <= r.value.layerFractions[i].value <= 1.0
  {
    var items := Items(cfg, ds);
    ItemsFit(cfg, ds);
    match Accumulate(cfg, items)
    case Err(e) => Err(e)
    case Ok(s) =>
      AccumulateInvariants(cfg, items);
      AccumulateMatches(cfg, ds);
      Ok(Fractions(cfg, s))
  }

  /** The overall fraction and one per layer, each recorded only when its
      total is positive; bounded sums give fractions in [0, 1]. */
  function Fractions(cfg: Config, s: Sums): (o: Output)
    requires |s.layers| == |s.activeLayers| == cfg.numLayers
    ensures o.sums == s && |o.layerFractions| == cfg.numLayers
    ensures o.fraction.Some? <==> s.total > 0.0
    ensures forall i :: 0 <= i < cfg.numLayers ==> (o.layerFractions[i].Some? <==> s.layers[i] > 0.0)
    ensures o.fraction.Some? ==> IsRatio(o.fraction.value, s.active, s.total)
    ensures forall i :: 0 <= i < cfg.numLayers && o.layerFractions[i].Some? ==>
              IsRatio(o.layerFractions[i].value, s.activeLayers[i], s.layers[i])
    ensures Bounded(cfg, s) ==>
              && (o.fraction.Some? ==> 0.0 <= o.fraction.value <= 1.0)
              && forall i :: 0 <= i < cfg.numLayers && o.layerFractions[i].Some? ==> 0.0 <= o.layerFractions[i].value <= 1.0
  {
    var layerFractions := seq(cfg.numLayers, i requires 0 <= i < cfg.numLayers => Ratio(s.activeLayers[i], s.layers[i]));
    Output(s, Ratio(s.active, s.total), layerFractions)
  }
}

=== FILE: save_cal_hits.dfy ===
/** SimG4SaveCalHits: turn the calorimeter hit collections of a simulated
    event into cell hits, one per cell, each carrying its energy
    contributions. */
module SaveCalHits {
  import opened Wrappers
  import opened Seqs
  import opened Vectors
  import opened BitField
  import opened Readouts

  /** A simulation step's energy deposit in a cell. */
  datatype Contribution = Contribution(cellId: CellId, energyDeposit: real, pdgId: int, time: real, position: Vec3)

  /** A named hit collection of the event. */
  datatype HitsCollection = HitsCollection(name: string, hits: seq<Contribution>)

  /** A contribution record of the output. */
  datatype ContribRecord = ContribRecord(pdg: int, energy: real, time: real, stepPosition: Vec3)

  /** A cell hit of the output with the records of its contributions. */
  datatype CellHit = CellHit(cellId: CellId, energy: real, position: Vec3, contributions: seq<ContribRecord>)

  /** Unit factors from the simulation's units to the output's: energy,
      simulation length and geometry length. */
  datatype Units = Units(energy: real, simLength: real, geoLength: real)

  /** An energy in the output's unit. */
  function Calibrated(u: Units, e: real): real
  {
    e * u.energy
  }

  lemma CalibratedAdds(u: Units, a: real, b: real)
    ensures Calibrated(u, a + b) == Calibrated(u, a) + Calibrated(u, b)
  {
  }

  /** What the tool is configured with. `cellPosition` is the global centre
      of a cell of a readout, a geometry-library query left uninterpreted. */
  datatype Config = Config(readoutNames: seq<string>, units: Units, cellPosition: (string, CellId) -> Vec3)

  /** `initialize`: every configured readout must exist; the first that does
      not is reported. */
  function Initialize(readoutNames: seq<string>, reg: Registry): (r: Option<string>)
    ensures r.None? <==> forall n :: n in readoutNames ==> n in reg
    ensures r.Some? ==> r.value in readoutNames && r.value !in reg
    ensures r.Some? ==> exists i :: 0 <= i < |readoutNames| && readoutNames[i] == r.value &&
                          forall j :: 0 <= j < i ==> readoutNames[j] in reg
  {
    if |readoutNames| == 0 then None
    else if readoutNames[0] !in reg then Some(readoutNames[0])
    else
      var rest := Initialize(readoutNames[1..], reg);
      if rest.Some? then
        var i :| 0 <= i < |readoutNames| - 1 && readoutNames[1..][i] == rest.value &&
                 forall j :: 0 <= j < i ==> readoutNames[1..][j] in reg;
        assert readoutNames[i + 1] == rest.value;
        rest
      else rest
  }

  /** An empty list of readouts passes initialisation: the loop over the
      names has nothing to reject, although the class comment says the tool
      fails then. */
  lemma EmptyConfigurationAccepted(reg: Registry)
    ensures Initialize([], reg).None?
  {
  }

  predicate Increasing(s: seq<CellId>)
  {
    forall i, j :: 0 <= i < j < |s| ==> s[i] < s[j]
  }

  /** Inserting into an increasing sequence of cell identifiers. */
  function Insert(x: CellId, s: seq<CellId>): (r: seq<CellId>)
    requires Increasing(s)
    ensures Increasing(r)
    ensures forall y :: y in r <==> y == x || y in s
  {
    if |s| == 0 then [x]
    else if x < s[0] then [x] + s
    else if x == s[0] then s
    else
      var rest := Insert(x, s[1..]);
      assert forall y :: y in s <==> y == s[0] || y in s[1..];
      assert forall k :: 0 <= k < |rest| ==> rest[k] in rest;
      assert forall k :: 0 <= k < |rest| ==> s[0] < rest[k];
      [s[0]] + rest
  }

  /** The distinct cell identifiers of the contributions, in ascending order:
      the keys of the ordered map the contributions are grouped in. */
  function Cells(hits: seq<Contribution>): (cells: seq<CellId>)
    ensures Increasing(cells)
    ensures forall c :: c in cells <==> exists h :: h in hits && h.cellId == c
  {
    if |hits| == 0 then []
    else
      var n := |hits| - 1;
      assert forall h :: h in hits <==> h in hits[..n] || h == hits[n];
      Insert(hits[n].cellId, Cells(hits[..n]))
  }

  /** The contributions of one cell, in their order in the collection. */
  function InCell(hits: seq<Contribution>, c: CellId): (r: seq<Contribution>)
    ensures forall h :: h in r <==> h in hits && h.cellId == c
  {
    if |hits| == 0 then []
    else
      var n := |hits| - 1;
      assert forall h :: h in hits <==> h in hits[..n] || h == hits[n];
      InCell(hits[..n], c) + (if hits[n].cellId == c then [hits[n]] else [])
  }

  function Deposits(hits: seq<Contribution>): (d: seq<real>)
    ensures |d| == |hits| && forall i :: 0 <= i < |hits| ==> d[i] == hits[i].energyDeposit
  {
    seq(|hits|, i requires 0 <= i < |hits| => hits[i].energyDeposit)
  }

  function Record(u: Units, h: Contribution): ContribRecord
  {
    ContribRecord(h.pdgId, h.energyDeposit * u.energy, h.time, Scale(u.simLength, h.position))
  }

  function Records(u: Units, hits: seq<Contribution>): (r: seq<ContribRecord>)
    ensures |r| == |hits| && forall i :: 0 <= i < |hits| ==> r[i] == Record(u, hits[i])
  {
    seq(|hits|, i requires 0 <= i < |hits| => Record(u, hits[i]))
  }

  /** The cell hit of one cell: summed deposits times the energy factor,
      the cell's position and the records of its contributions. */
  function MakeCellHit(cfg: Config, readout: string, hits: seq<Contribution>, c: CellId): CellHit
  {
    var mine := InCell(hits, c);
    CellHit(c, Calibrated(cfg.units, Sum(Deposits(mine))),
            Scale(cfg.units.geoLength, cfg.cellPosition(readout, c)),
            Records(cfg.units, mine))
  }

  function CellHitsFor(cfg: Config, readout: string, hits: seq<Contribution>, cells: seq<CellId>): (r: seq<CellHit>)
    ensures |r| == |cells| && forall i :: 0 <= i < |cells| ==> r[i] == MakeCellHit(cfg, readout, hits, cells[i])
  {
    if |cells| == 0 then [] else [MakeCellHit(cfg, readout, hits, cells[0])] + CellHitsFor(cfg, readout, hits, cells[1..])
  }

  /** The cell hits of one collection: one per distinct cell identifier,
      in ascending order, each holding exactly that cell's contributions. */
  function SaveCollection(cfg: Config, coll: HitsCollection): (r: seq<CellHit>)
    ensures Increasing(CellIdsOf(r))
    ensures forall c :: c in CellIdsOf(r) <==> exists h :: h in coll.hits && h.cellId == c
    ensures forall i :: 0 <= i < |r| ==>
              && r[i].energy == Calibrated(cfg.units, Sum(Deposits(InCell(coll.hits, r[i].cellId))))
              && r[i].contributions == Records(cfg.units, InCell(coll.hits, r[i].cellId))
  {
    var cells := Cells(coll.hits);
    var r := CellHitsFor(cfg, coll.name, coll.hits, cells);
    assert CellIdsOf(r) == cells;
    r
  }

  function CellIdsOf(hits: seq<CellHit>): (ids: seq<CellId>)
    ensures |ids| == |hits| && forall i :: 0 <= i < |hits| ==> ids[i] == hits[i].cellId
  {
    seq(|hits|, i requires 0 <= i < |hits| => hits[i].cellId)
  }

  /** All contribution records of a list of cell hits, in order. */
  function AllRecords(hits: seq<CellHit>): seq<ContribRecord>
  {
    if |hits| == 0 then [] else hits[0].contributions + AllRecords(hits[1..])
  }

  function TotalEnergy(hits: seq<CellHit>): real
  {
    if |hits| == 0 then 0.0 else hits[0].energy + TotalEnergy(hits[1..])
  }

  predicate Distinct(cells: seq<CellId>)
  {
    forall i, j :: 0 <= i < j < |cells| ==> cells[i] != cells[j]
  }

  /** The deposits and the number of contributions of the listed cells. */
  function DepositsIn(hits: seq<Contribution>, cells: seq<CellId>): real
  {
    if |cells| == 0 then 0.0 else Sum(Deposits(InCell(hits, cells[0]))) + DepositsIn(hits, cells[1..])
  }

  function CountIn(hits: seq<Contribution>, cells: seq<CellId>): nat
  {
    if |cells| == 0 then 0 else |InCell(hits, cells[0])| + CountIn(hits, cells[1..])
  }

  lemma {:induction false} DepositsInAppend(hits: seq<Contribution>, h: Contribution, cells: seq<CellId>)
    requires Distinct(cells)
    ensures DepositsIn(hits + [h], cells) == DepositsIn(hits, cells) + (if h.cellId in cells then h.energyDeposit else 0.0)
    ensures CountIn(hits + [h], cells) == CountIn(hits, cells) + (if h.cellId in cells then 1 else 0)
  {
    if |cells| > 0 {
      assert Distinct(cells[1..]);
      DepositsInAppend(hits, h, cells[1..]);
      InCellSnoc(hits, h, cells[0]);
      if h.cellId == cells[0] {
        assert h.cellId !in cells[1..];
      }
    }
  }

  /** Appending a contribution to the list adds it to its own cell only. */
  lemma InCellSnoc(hits: seq<Contribution>, h: Contribution, c: CellId)
    ensures Sum(Deposits(InCell(hits + [h], c))) == Sum(Deposits(InCell(hits, c))) + (if h.cellId == c then h.energyDeposit else 0.0)
    ensures |InCell(hits + [h], c)| == |InCell(hits, c)| + (if h.cellId == c then 1 else 0)
  {
    assert (hits + [h])[..|hits|] == hits;
    var mine := InCell(hits, c);
    if h.cellId == c {
      assert InCell(hits + [h], c) == mine + [h];
      DepositsSnoc(mine, h);
    } else {
      assert InCell(hits + [h], c) == mine;
    }
  }

  /** Grouping conserves the deposits and the contributions: over a list of
      distinct cells covering every contribution, the per-cell sums add up
      to the total. */
  lemma {:induction false} GroupingConserves(hits: seq<Contribution>, cells: seq<CellId>)
    requires Distinct(cells) && forall h :: h in hits ==> h.cellId in cells
    ensures DepositsIn(hits, cells) == Sum(Deposits(hits))
    ensures CountIn(hits, cells) == |hits|
  {
    if |hits| == 0 {
      EmptyIn(cells);
    } else {
      var n := |hits| - 1;
      var pre, h := hits[..n], hits[n];
      assert hits == pre + [h];
      assert forall x :: x in pre ==> x in hits;
      GroupingConserves(pre, cells);
      DepositsInAppend(pre, h, cells);
      assert h.cellId in cells;
      DepositsSnoc(pre, h);
    }
  }

  lemma DepositsSnoc(hits: seq<Contribution>, h: Contribution)
    ensures Sum(Deposits(hits + [h])) == Sum(Deposits(hits)) + h.energyDeposit
  {
    assert Deposits(hits + [h]) == Deposits(hits) + [h.energyDeposit];
    SumAppend(Deposits(hits), [h.energyDeposit]);
  }

  lemma {:induction false} EmptyIn(cells: seq<CellId>)
    ensures DepositsIn([], cells) == 0.0 && CountIn([], cells) == 0
  {
    if |cells| > 0 {
      EmptyIn(cells[1..]);
    }
  }

  lemma {:induction false} CellHitsTotals(cfg: Config, readout: string, hits: seq<Contribution>, cells: seq<CellId>)
    ensures TotalEnergy(CellHitsFor(cfg, readout, hits, cells)) == Calibrated(cfg.units, DepositsIn(hits, cells))
    ensures |AllRecords(CellHitsFor(cfg, readout, hits, cells))| == CountIn(hits, cells)
  {
    if |cells| > 0 {
      CellHitsTotals(cfg, readout, hits, cells[1..]);
      CalibratedAdds(cfg.units, Sum(Deposits(InCell(hits, cells[0]))), DepositsIn(hits, cells[1..]));
      var r := CellHitsFor(cfg, readout, hits, cells);
      assert r[1..] == CellHitsFor(cfg, readout, hits, cells[1..]);
    }
  }

  /** One collection: the cell energies add up to the total deposit times
      the energy factor, and there is one record per contribution. */
  lemma SaveCollectionConserves(cfg: Config, coll: HitsCollection)
    ensures TotalEnergy(SaveCollection(cfg, coll)) == Calibrated(cfg.units, Sum(Deposits(coll.hits)))
    ensures |AllRecords(SaveCollection(cfg, coll))| == |coll.hits|
  {
    var cells := Cells(coll.hits);
    GroupingConserves(coll.hits, cells);
    CellHitsTotals(cfg, coll.name, coll.hits, cells);
  }

  /** The output of an event: cell hits and contribution records. */
  datatype Output = Output(cellHits: seq<CellHit>, contributions: seq<ContribRecord>)

  /** The collections the tool is configured for, in event order. */
  function Configured(cfg: Config, colls: seq<HitsCollection>): (r: seq<HitsCollection>)
    ensures forall c :: c in r <==> c in colls && c.name in cfg.readoutNames
  {
    Collect(colls, (c: HitsCollection) => if c.name in cfg.readoutNames then Some(c) else None)
  }

  function SaveAll(cfg: Config, colls: seq<HitsCollection>): seq<CellHit>
  {
    if |colls| == 0 then [] else SaveCollection(cfg, colls[0]) + SaveAll(cfg, colls[1..])
  }

  /** `saveOutput`: an event without hit collections creates no output;
      otherwise every configured collection is saved, in event order. */
  function SaveOutput(cfg: Config, event: Option<seq<HitsCollection>>): (r: Option<Output>)
    ensures r.None? <==> event.None?
    ensures r.Some? ==> r.value.contributions == AllRecords(r.value.cellHits)
  {
    match event
    case None => None
    case Some(colls) =>
      var hits := SaveAll(cfg, Configured(cfg, colls));
      Some(Output(hits, AllRecords(hits)))
  }

  lemma {:induction false} AllRecordsAppend(a: seq<CellHit>, b: seq<CellHit>)
    ensures AllRecords(a + b) == AllRecords(a) + AllRecords(b)
    ensures TotalEnergy(a + b) == TotalEnergy(a) + TotalEnergy(b)
  {
    if |a| > 0 {
      assert (a + b)[1..] == a[1..] + b;
      AllRecordsAppend(a[1..], b);
    } else {
      assert a + b == b;
    }
  }

  function AllDeposits(colls: seq<HitsCollection>): real
  {
    if |colls| == 0 then 0.0 else Sum(Deposits(colls[0].hits)) + AllDeposits(colls[1..])
  }

  function AllCount(colls: seq<HitsCollection>): nat
  {
    if |colls| == 0 then 0 else |colls[0].hits| + AllCount(colls[1..])
  }

  lemma {:induction false} SaveAllEnergy(cfg: Config, colls: seq<HitsCollection>)
    ensures TotalEnergy(SaveAll(cfg, colls)) == Calibrated(cfg.units, AllDeposits(colls))
  {
    if |colls| > 0 {
      var head, tail := SaveCollection(cfg, colls[0]), SaveAll(cfg, colls[1..]);
      var a, b := Sum(Deposits(colls[0].hits)), AllDeposits(colls[1..]);
      assert SaveAll(cfg, colls) == head + tail;
      assert AllDeposits(colls) == a + b;
      SaveAllEnergy(cfg, colls[1..]);
      SaveCollectionConserves(cfg, colls[0]);
      AllRecordsAppend(head, tail);
      assert TotalEnergy(head + tail) == Calibrated(cfg.units, a) + Calibrated(cfg.units, b);
      CalibratedAdds(cfg.units, a, b);
    }
  }

  lemma {:induction false} SaveAllCount(cfg: Config, colls: seq<HitsCollection>)
    ensures |AllRecords(SaveAll(cfg, colls))| == AllCount(colls)
  {
    if |colls| > 0 {
      var head, tail := SaveCollection(cfg, colls[0]), SaveAll(cfg, colls[1..]);
      assert SaveAll(cfg, colls) == head + tail;
      SaveAllCount(cfg, colls[1..]);
      SaveCollectionConserves(cfg, colls[0]);
      AllRecordsAppend(head, tail);
    }
  }

  /** The whole event: the cell energies add up to the configured
      collections' deposits times the energy factor, and there is exactly
      one contribution record per contribution of a configured collection. */
  lemma SaveOutputConserves(cfg: Config, colls: seq<HitsCollection>)
    ensures var out := SaveOutput(cfg, Some(colls)).value;
            && TotalEnergy(out.cellHits) == Calibrated(cfg.units, AllDeposits(Configured(cfg, colls)))
            && |out.contributions| == AllCount(Configured(cfg, colls))
  {
    SaveAllEnergy(cfg, Configured(cfg, colls));
    SaveAllCount(cfg, Configured(cfg, colls));
  }
}

=== FILE: seqs.dfy ===
/** Sequence helpers: sums of reals and the order-preserving collection of
    the entries a parser accepts. */
module Seqs {
  import opened Wrappers

  /** Sum of a sequence of reals, accumulated from the front as a loop does. */
  function Sum(s: seq<real>): real
  {
    if |s| == 0 then 0.0 else Sum(s[..|s| - 1]) + s[|s| - 1]
  }

  lemma {:induction false} SumAppend(a: seq<real>, b: seq<real>)
    ensures Sum(a + b) == Sum(a) + Sum(b)
  {
    if |b| == 0 {
      assert a + b == a;
    } else {
      assert (a + b)[..|a + b| - 1] == a + b[..|b| - 1];
      SumAppend(a, b[..|b| - 1]);
    }
  }

  /** Adding to one entry adds to the sum. */
  lemma {:induction false} SumUpdate(s: seq<real>, i: nat, e: real)
    requires i < |s|
    ensures Sum(s[i := s[i] + e]) == Sum(s) + e
  {
    var n := |s| - 1;
    if i < n {
      assert s[i := s[i] + e][..n] == s[..n][i := s[i] + e];
      SumUpdate(s[..n], i, e);
    } else {
      assert s[i := s[i] + e][..n] == s[..n];
    }
  }

  /** Sum of non-negative reals is non-negative. */
  lemma {:induction false} SumNonNegative(s: seq<real>)
    requires forall i :: 0 <= i < |s| ==> s[i] >= 0.0
    ensures Sum(s) >= 0.0
  {
    if |s| > 0 {
      SumNonNegative(s[..|s| - 1]);
    }
  }

  /** Sum of naturals, accumulated from the front. */
  function SumNat(s: seq<nat>): nat
  {
    if |s| == 0 then 0 else SumNat(s[..|s| - 1]) + s[|s| - 1]
  }

  /** The results `parse` accepts, in the order of their sources. This is
      the shape of every "loop over definitions, `continue` on a bad one,
      `emplace_back` the rest" in the core. */
  function Collect<T(!new), U(!new)>(s: seq<T>, parse: T -> Option<U>): (r: seq<U>)
    ensures |r| <= |s|
    ensures forall u :: u in r <==> exists t :: t in s && parse(t) == Some(u)
  {
    if |s| == 0 then []
    else
      var rest := Collect(s[1..], parse);
      assert forall t :: t in s <==> t == s[0] || t in s[1..];
      match parse(s[0])
      case Some(u) => [u] + rest
      case None => rest
  }

  /** Order preservation: what is collected from an earlier block of
      entries precedes what is collected from a later block. */
  lemma {:induction false} CollectAppend<T(!new), U(!new)>(a: seq<T>, b: seq<T>, parse: T -> Option<U>)
    ensures Collect(a + b, parse) == Collect(a, parse) + Collect(b, parse)
  {
    if |a| > 0 {
      assert (a + b)[1..] == a[1..] + b;
      CollectAppend(a[1..], b, parse);
    } else {
      assert a + b == b;
    }
  }

  /** An entry the parser accepts is collected exactly where it stands. */
  lemma CollectSingle<T(!new), U(!new)>(t: T, parse: T -> Option<U>)
    ensures Collect([t], parse) == (match parse(t) case Some(u) => [u] case None => [])
  {
    assert [t][1..] == [];
  }

  /** The positions of the entries `parse` accepts, ascending. */
  function KeptPositions<T(!new), U(!new)>(s: seq<T>, parse: T -> Option<U>): (idx: seq<nat>)
    ensures |idx| == |Collect(s, parse)|
  {
    if |s| == 0 then []
    else
      var shifted := Shift(KeptPositions(s[1..], parse));
      if parse(s[0]).Some? then [0] + shifted else shifted
  }

  /** Positions one further along. */
  function Shift(idx: seq<nat>): (r: seq<nat>)
    ensures |r| == |idx| && forall i :: 0 <= i < |idx| ==> r[i] == idx[i] + 1
  {
    seq(|idx|, i requires 0 <= i < |idx| => idx[i] + 1)
  }

  /** Collect keeps exactly the entries at the kept positions, in the
      positions' order, so its result is a subsequence of the input. */
  lemma {:induction false} KeptPositionsSound<T(!new), U(!new)>(s: seq<T>, parse: T -> Option<U>)
    ensures forall i :: 0 <= i < |KeptPositions(s, parse)| ==>
              KeptPositions(s, parse)[i] < |s| && parse(s[KeptPositions(s, parse)[i]]) == Some(Collect(s, parse)[i])
  {
    if |s| > 0 {
      KeptPositionsSound(s[1..], parse);
      var rest := KeptPositions(s[1..], parse);
      var tail := Collect(s[1..], parse);
      if parse(s[0]).Some? {
        assert KeptPositions(s, parse) == [0] + Shift(rest);
        assert Collect(s, parse) == [parse(s[0]).value] + tail;
        SoundKeep(s, parse, rest, tail);
      } else {
        assert KeptPositions(s, parse) == Shift(rest);
        assert Collect(s, parse) == tail;
        SoundSkip(s, parse, rest, tail);
      }
    }
  }

  /** Positions `idx` in `s` at which `parse` gives the values `c`. */
  ghost predicate ParsedAt<T, U>(s: seq<T>, parse: T -> Option<U>, idx: seq<nat>, c: seq<U>)
  {
    |idx| == |c| && forall i :: 0 <= i < |idx| ==> idx[i] < |s| && parse(s[idx[i]]) == Some(c[i])
  }

  lemma SoundKeep<T, U>(s: seq<T>, parse: T -> Option<U>, rest: seq<nat>, tail: seq<U>)
    requires |s| > 0 && parse(s[0]).Some? && ParsedAt(s[1..], parse, rest, tail)
    ensures ParsedAt(s, parse, [0] + Shift(rest), [parse(s[0]).value] + tail)
  {
    var idx, c := [0] + Shift(rest), [parse(s[0]).value] + tail;
    forall i | 1 <= i < |idx|
      ensures idx[i] < |s| && parse(s[idx[i]]) == Some(c[i])
    {
      assert idx[i] == rest[i - 1] + 1 && c[i] == tail[i - 1];
      assert s[idx[i]] == s[1..][rest[i - 1]];
    }
  }

  lemma SoundSkip<T, U>(s: seq<T>, parse: T -> Option<U>, rest: seq<nat>, tail: seq<U>)
    requires |s| > 0 && ParsedAt(s[1..], parse, rest, tail)
    ensures ParsedAt(s, parse, Shift(rest), tail)
  {
    var idx := Shift(rest);
    forall i | 0 <= i < |idx|
      ensures idx[i] < |s| && parse(s[idx[i]]) == Some(tail[i])
    {
      assert s[idx[i]] == s[1..][rest[i]];
    }
  }

  predicate Ascending(idx: seq<nat>)
  {
    forall i, j :: 0 <= i < j < |idx| ==> idx[i] < idx[j]
  }

  /** Shifting keeps positions ascending, and all of them above 0. */
  lemma ShiftAscending(idx: seq<nat>)
    requires Ascending(idx)
    ensures Ascending(Shift(idx)) && Ascending([0] + Shift(idx))
  {
    var r := [0] + Shift(idx);
    forall i, j | 0 <= i < j < |r|
      ensures r[i] < r[j]
    {
      if i > 0 {
        assert r[i] == idx[i - 1] + 1;
      }
    }
  }

  lemma {:induction false} KeptPositionsAscending<T(!new), U(!new)>(s: seq<T>, parse: T -> Option<U>)
    ensures Ascending(KeptPositions(s, parse))
  {
    if |s| > 0 {
      KeptPositionsAscending(s[1..], parse);
      ShiftAscending(KeptPositions(s[1..], parse));
    }
  }

  /** Every accepted position is kept. */
  lemma {:induction false} KeptPositionsComplete<T(!new), U(!new)>(s: seq<T>, parse: T -> Option<U>)
    ensures forall k :: 0 <= k < |s| && parse(s[k]).Some? ==> k in KeptPositions(s, parse)
  {
    if |s| > 0 {
      KeptPositionsComplete(s[1..], parse);
      var rest := KeptPositions(s[1..], parse);
      if parse(s[0]).Some? {
        assert KeptPositions(s, parse) == [0] + Shift(rest);
        CoverKeep(s, parse, rest);
      } else {
        assert KeptPositions(s, parse) == Shift(rest);
        CoverSkip(s, parse, rest);
      }
    }
  }

  /** Every position of `s` that `parse` accepts is in `idx`. */
  ghost predicate Covers<T, U>(s: seq<T>, parse: T -> Option<U>, idx: seq<nat>)
  {
    forall k :: 0 <= k < |s| && parse(s[k]).Some? ==> k in idx
  }

  lemma CoverKeep<T, U>(s: seq<T>, parse: T -> Option<U>, rest: seq<nat>)
    requires |s| > 0 && Covers(s[1..], parse, rest)
    ensures Covers(s, parse, [0] + Shift(rest))
  {
    forall k | 1 <= k < |s| && parse(s[k]).Some?
      ensures k in [0] + Shift(rest)
    {
      assert s[1..][k - 1] == s[k];
      ShiftContains(rest, k - 1);
    }
  }

  lemma CoverSkip<T, U>(s: seq<T>, parse: T -> Option<U>, rest: seq<nat>)
    requires |s| > 0 && parse(s[0]).None? && Covers(s[1..], parse, rest)
    ensures Covers(s, parse, Shift(rest))
  {
    forall k | 1 <= k < |s| && parse(s[k]).Some?
      ensures k in Shift(rest)
    {
      assert s[1..][k - 1] == s[k];
      ShiftContains(rest, k - 1);
    }
  }

  lemma ShiftContains(idx: seq<nat>, k: nat)
    requires k in idx
    ensures k + 1 in Shift(idx) && k + 1 in [0] + Shift(idx)
  {
    var i :| 0 <= i < |idx| && idx[i] == k;
    assert Shift(idx)[i] == k + 1;
    assert ([0] + Shift(idx))[i + 1] == k + 1;
  }
}

=== FILE: vectors.dfy ===
/** Three-component real vectors (positions, momenta, field values). */
module Vectors {

  datatype Vec3 = Vec3(x: real, y: real, z: real)

  const Zero: Vec3 := Vec3(0.0, 0.0, 0.0)

  function Add(a: Vec3, b: Vec3): Vec3
  {
    Vec3(a.x + b.x, a.y + b.y, a.z + b.z)
  }

  /** The three components, by name. */
  datatype Component = X | Y | Z

  function Select(c: Component, v: Vec3): real
  {
    match c
    case X => v.x
    case Y => v.y
    case Z => v.z
  }

  function Scale(k: real, a: Vec3): Vec3
  {
    Vec3(k * a.x, k * a.y, k * a.z)
  }
}

=== FILE: wrappers.dfy ===
/** Failure-carrying results shared by the whole model. */
module Wrappers {

  /** A value that may be missing. */
  datatype Option<+T> = None | Some(value: T)

  /** The outcome of a step that can fail: the value, or the reason it failed. */
  datatype Result<+T, +E> = Ok(value: T) | Err(error: E)

  /** Runs a sequence of steps in order: all values when every step
      succeeds, otherwise the error of the first step that fails. */
  function AllOk<T, E>(rs: seq<Result<T, E>>): (r: Result<seq<T>, E>)
    ensures r.Ok? <==> forall i :: 0 <= i < |rs| ==> rs[i].Ok?
    ensures r.Ok? ==> |r.value| == |rs| && forall i :: 0 <= i < |rs| ==> rs[i] == Ok(r.value[i])
    ensures r.Err? ==> exists i :: 0 <= i < |rs| && rs[i] == Err(r.error) && forall j :: 0 <= j < i ==> rs[j].Ok?
  {
    if |rs| == 0 then Ok([])
    else
      match rs[0]
      case Err(e) => Err(e)
      case Ok(v) =>
        match AllOk(rs[1..])
        case Err(e) =>
          ghost var i :| 0 <= i < |rs[1..]| && rs[1..][i] == Err(e) && forall j :: 0 <= j < i ==> rs[1..][j].Ok?;
          assert rs[i + 1] == Err(e);
          Err(e)
        case Ok(vs) => Ok([v] + vs)
  }
}
